=== FILE: README.md ===
# Tamper codec in Dafny

Tamper is a binary columnar codec. It packs a table of rows into an
existence pack plus one attribute pack per attribute. Each row has a `guid`
and named attribute values.

- **Existence pack.** Encodes which guids are present, as a sequence of
  Bitmap, Skip and Run blocks.
- **Attribute packs.** Each pack is a 40-bit header followed by fixed-width
  windows, one per row. The header is a 32-bit big-endian count of full
  bytes, then one byte with the number of remainder bits.
- **Encoders.** A tags attribute (strings or lists of strings) is packed by
  IntegerPack or BitmapPack. A numeric attribute is packed by NumericPack.
- **`pack`.** Infers every attribute's kind, possibilities and bounds in
  one pass over the rows, then chooses an encoder for each attribute.

This project models the PHP encoder (`encoders/php/Tamper`) as pure
functions over immutable data, and proves what those functions promise.

Module layout:

- **`Base`** (base.dfy): results, bytes, powers of two, `CeilLog2`, and
  flattening and splitting of fixed-width windows.
- **`BitSet`** (bitset.dfy): the `BitSet` class as a sequence of booleans,
  plus the big-endian bit helpers `ToBits` and `FromBits`.
- **`RawBitSet`** (raw_bitset.dfy): the class's real representation, a
  size plus a word store. It exists only to state two defects of the class
  and the view that connects it to `BitSet`.
- **`BitSetIterator`** (bitset_iterator.dfy): the iterator over a bit set.
- **`Rows`** (rows.dfy): rows, values and exact decimal numbers, with PHP's
  half-away-from-zero `round`.
- **`PackFormat`** (pack_format.dfy): the header frame and `array_flip`.
- **`IntegerPack`, `BitmapPack`, `NumericPack`**: the three `encode`
  functions, each with a derived decoder and round-trip lemmas.
- **`Existence`** (existence.dfy): `packExistence`, `dumpChunk` and
  `decodeSet` on blocks.
- **`ExistenceCodec`** (existence_codec.dfy): `encodeSet`, `getInt32Bytes`
  and a parser for the block bytes.
- **`Inference`** (inference.dfy): the first loop of `pack`, which infers
  the attribute descriptors.
- **`Tamper`** (tamper.dfy): encoder selection and `pack` itself, with
  end-to-end recovery lemmas.

Where the class comments and the code disagree, the model follows the code.
The exceptions are the defects listed under Findings. For those, the main
members (`Inference.Widen` and everything built on it, including
`Tamper.Pack`, and `BitSet.Pop`, `BitSet.SetSize` and `Existence.DecodeSet`)
model the corrected behaviour. The behaviour as written is modelled
separately by `RawBitSet` and the `*AsWritten` members.

- **Negative bit indices.** `get` and `set` are documented to reject an
  index out of range, but they test only `index > size - 1`. `RawGet`
  models that test; the sequence model `BitSet` takes `nat` indices.
- **`pop` and `setSize`.** The code departs from their comments in the
  ways listed under Findings.

## Model

| member | source | states |
|---|---|---|
| BitSet.SetSize | encoders/php/Tamper/Bitset.php:268-282 | the new size is `n`; bits below both sizes are kept; bits past the old size read 0 |
| BitSet.New | encoders/php/Tamper/Bitset.php:31-37 | a new set of size n holds n zero bits |
| BitSet.ClearAll | encoders/php/Tamper/Bitset.php:157-160 | same size, every bit 0 |
| BitSet.Get | encoders/php/Tamper/Bitset.php:90-101 | fails with OutOfRange exactly when the index is not below the size; otherwise it is that bit |
| BitSet.SetFast | encoders/php/Tamper/Bitset.php:127-142 | bit i takes the value; every other bit and the size are unchanged |
| BitSet.Set | encoders/php/Tamper/Bitset.php:111-118 | fails exactly when out of range; otherwise `get(i)` reads the new value and nothing else changes |
| BitSet.Clear | encoders/php/Tamper/Bitset.php:149-152 | fails exactly when out of range; otherwise bit i is 0 and nothing else changes |
| BitSet.Push | encoders/php/Tamper/Bitset.php:168-186 | the size grows by one, the old bits are a prefix, and the last bit reads the pushed value |
| BitSet.Pop | encoders/php/Tamper/Bitset.php:254-260 | fails exactly on an empty set; otherwise returns the last bit and drops it |
| BitSet.PushPop | encoders/php/Tamper/Bitset.php:254-260 | pop after push returns the pushed bit and the original set |
| BitSet.PopPush | encoders/php/Tamper/Bitset.php:168-186 | pushing back what pop returned restores a non-empty set |
| BitSet.SetEach | encoders/php/Tamper/Bitset.php:199-201 | the `setFast` loop writes the given bits at the offset and keeps the bits before and after |
| BitSet.PushArray | encoders/php/Tamper/Bitset.php:194-202 | the array's bits are appended in order |
| BitSet.PushMasked | encoders/php/Tamper/Bitset.php:213-217 | the mask loop appends the low k bits of v, most significant first |
| BitSet.PushVal | encoders/php/Tamper/Bitset.php:211-218 | appends exactly w bits, keeps the old bits, and the new bits read back as v mod 2^w |
| BitSet.PushByte | encoders/php/Tamper/Bitset.php:226-232 | appends 8 bits that read back as the value mod 256 |
| BitSet.PushInt32 | encoders/php/Tamper/Bitset.php:240-246 | the four byte pushes together append the low 32 bits of v, big-endian |
| BitSet.PushInt32Value | encoders/php/Tamper/Bitset.php:240-246 | appends 32 bits that read back as v mod 2^32 |
| BitSet.FromToBits | encoders/php/Tamper/Bitset.php:211-218 | reading back w pushed bits of v gives v mod 2^w, for every integer v, negatives included |
| BitSet.GetBytes | encoders/php/Tamper/Bitset.php:55-79 | ceil(size/8) bytes whose bits, most significant first, are the set's bits followed by zero padding |
| BitSet.GetBytesLayout | encoders/php/Tamper/Bitset.php:55-79 | byte i is the value of bits 8i..8i+7 of the zero-padded set |
| RawBitSet.RawGet | encoders/php/Tamper/Bitset.php:90-101 | fails exactly when the index exceeds size-1; a negative index passes the test and reads 0 |
| RawBitSet.RawGetView | encoders/php/Tamper/Bitset.php:90-101 | for in-range indices the word-store `get` agrees with the sequence model |
| RawBitSet.RawPush | encoders/php/Tamper/Bitset.php:168-186 | push keeps the store large enough for the size and grows the size by one |
| RawBitSet.RawPushView | encoders/php/Tamper/Bitset.php:168-186 | the word-store push is the sequence push |
| RawBitSet.RawPop | encoders/php/Tamper/Bitset.php:254-260 | pop never fails; it only decrements the size and leaves the words alone |
| RawBitSet.RawPopView | encoders/php/Tamper/Bitset.php:254-260 | on a non-empty set the word-store pop is the sequence pop |
| RawBitSet.RawSetSize | encoders/php/Tamper/Bitset.php:268-282 | the size becomes n; every bit that stays in the store keeps its value, stale bits past the old size included, so bits below both sizes read as before; only the appended words are zero |
| RawBitSet.RawSetSizeClean | encoders/php/Tamper/Bitset.php:268-282 | when no bit beyond the size is set, the word-store setSize is the zero-filling sequence setSize |
| RawBitSet.StaleBitAfterPop | encoders/php/Tamper/Bitset.php:268-282 | push 1, pop, then setSize(1) reads [1], while the documented zero fill gives [0] |
| RawBitSet.PopEmptyAsWritten | encoders/php/Tamper/Bitset.php:254-260 | pop on an empty set returns 0 and leaves size -1, where the corrected pop fails |
| BitSetIterator.Create | encoders/php/Tamper/BitsetIterator.php:26-30 | a new iterator is over the given set at position 0 |
| BitSetIterator.Rewind | encoders/php/Tamper/BitsetIterator.php:32-35 | rewinding keeps the set and returns to position 0 |
| BitSetIterator.Current | encoders/php/Tamper/BitsetIterator.php:37-40 | the bit at the position, and an error exactly when the position is past the end |
| BitSetIterator.Next | encoders/php/Tamper/BitsetIterator.php:47-50 | advances the position by one over the same set |
| BitSetIterator.Walk | encoders/php/Tamper/BitsetIterator.php:47-55 | the `valid`/`key`/`current`/`next` loop yields each (position, bit) pair from the current position to the end |
| BitSetIterator.FullWalk | encoders/php/Tamper/BitsetIterator.php:26-55 | a foreach over a fresh iterator yields exactly (k, bit k) for every bit, in order |
| Rows.Lookup | encoders/php/Tamper/IntegerPack.php:67 | a value found under a name is a field of the row; a row without the name reads as missing |
| Rows.RoundDiv | encoders/php/Tamper/NumericPack.php:58-61 | PHP `round` of a quotient: within half a unit of the exact value, with ties away from zero |
| Rows.ScaleRoundMonotone | encoders/php/Tamper/NumericPack.php:58-61 | scaling by 10^precision and rounding keeps the order of numbers |
| PackFormat.HeaderPushes | encoders/php/Tamper/IntegerPack.php:61-63 | the 40 header bits are exactly what `pushInt32(full bytes)` then `pushByte(remainder bits)` append to an empty set |
| PackFormat.HeaderFields | encoders/php/Tamper/IntegerPack.php:57-63 | the first 32 header bits read as the full-byte count mod 2^32; the last 8 read as the remainder-bit count |
| PackFormat.HeaderCount | encoders/php/Tamper/IntegerPack.php:57-63 | when the byte count fits in 32 bits, the header determines the payload length exactly |
| PackFormat.FrameLength | encoders/php/Tamper/IntegerPack.php:57-92 | a pack is ceil((40 + payload bits)/8) bytes long |
| PackFormat.UnpackFramed | encoders/php/Tamper/IntegerPack.php:57-92 | reading the header of a framed payload and cutting to its length gives back the payload |
| PackFormat.LastIndex | encoders/php/Tamper/IntegerPack.php:52 | `array_flip`: a value maps to the last position holding it, and has no entry when it is not a possibility |
| PackFormat.LastIndexOfDistinct | encoders/php/Tamper/IntegerPack.php:52 | with distinct possibilities, `array_flip` maps each one to its own position |
| IntegerPack.BitWindowWidth | encoders/php/Tamper/IntegerPack.php:54 | the least width with room for the codes 0..N |
| IntegerPack.SlotCode | encoders/php/Tamper/IntegerPack.php:68-73 | a slot code is non-zero exactly when the row has a value at that slot that is a possibility, and then it names that value |
| IntegerPack.RowWindow | encoders/php/Tamper/IntegerPack.php:65-82 | a row window is maxChoices slots of the bit window width; cut back into slots, slot i reads as the code of the row's i-th value |
| IntegerPack.Payload | encoders/php/Tamper/IntegerPack.php:65-82 | the payload is bit window width times maxChoices times the row count bits |
| IntegerPack.Encode | encoders/php/Tamper/IntegerPack.php:50-93 | the returned record names the attribute, the integer encoding, the possibilities and maxChoices, and the two window widths |
| IntegerPack.EncodeLength | encoders/php/Tamper/IntegerPack.php:57-63 | the pack is the header plus one item window per row, rounded up to whole bytes |
| IntegerPack.SlotRoundTrip | encoders/php/Tamper/IntegerPack.php:68-80 | a pushed slot decodes to the row's value at that slot if it is a possibility, else to nothing |
| IntegerPack.RowRoundTrip | encoders/php/Tamper/IntegerPack.php:65-82 | a row window decodes slot by slot to the row's known values |
| IntegerPack.PayloadRoundTrip | encoders/php/Tamper/IntegerPack.php:65-82 | the payload decodes, row by row and slot by slot, to the known values |
| IntegerPack.RoundTrip | encoders/php/Tamper/IntegerPack.php:50-93 | decoding the pack gives every row's known values in slot order: unknown values and absent attributes read empty, extra values are dropped |
| IntegerPack.NoSlotsReadEmpty | encoders/php/Tamper/IntegerPack.php:55 | with maxChoices 0 every row decodes to no values at all |
| IntegerPack.RowRecovered | encoders/php/Tamper/IntegerPack.php:65-82 | a row whose values are all possibilities and fit the slots decodes to exactly its values, then empty slots |
| BitmapPack.RowWindow | encoders/php/Tamper/BitmapPack.php:52-75 | one bit per possibility; bit k is set exactly when the row holds `ps[k]` and no later possibility equals it, i.e. k is the position `array_flip` keeps |
| BitmapPack.MarkedIffHeld | encoders/php/Tamper/BitmapPack.php:52 | with distinct possibilities, bit k is set exactly when the row holds possibility k |
| BitmapPack.SetSemantics | encoders/php/Tamper/BitmapPack.php:63-75 | two rows that hold the same possibilities get the same window, whatever the order or repetition of their values |
| BitmapPack.Payload | encoders/php/Tamper/BitmapPack.php:63-75 | the payload is N times the row count bits |
| BitmapPack.Encode | encoders/php/Tamper/BitmapPack.php:50-86 | the returned record names the attribute, the bitmap encoding, the possibilities and maxChoices; both windows are N bits wide |
| BitmapPack.EncodeLength | encoders/php/Tamper/BitmapPack.php:55-61 | the pack is ceil((40 + N times rows)/8) bytes |
| BitmapPack.PayloadRoundTrip | encoders/php/Tamper/BitmapPack.php:63-75 | cutting the payload into N-bit windows gives back each row's window |
| BitmapPack.RoundTrip | encoders/php/Tamper/BitmapPack.php:50-86 | decoding the pack gives, for each row and bit k, whether the row holds a value that `array_flip` maps to k |
| BitmapPack.RoundTripDistinct | encoders/php/Tamper/BitmapPack.php:50-86 | with distinct possibilities, decoded bit k of row j is set exactly when row j holds possibility k |
| NumericPack.Delta | encoders/php/Tamper/NumericPack.php:56-60 | delta is min times 10^precision rounded to the nearest integer, halves away from zero (min 0 when absent) |
| NumericPack.Span | encoders/php/Tamper/NumericPack.php:59-61 | `$maxMultiplied` is the code the maximum itself gets, and at least 1 when min <= max |
| NumericPack.Width | encoders/php/Tamper/NumericPack.php:63 | the least width whose codes cover 0..(scaled max - delta + 1), and at least one bit |
| NumericPack.Code | encoders/php/Tamper/NumericPack.php:56-78 | a missing value is code 0; a present value at or above min never gets code 0, and one at or below max gets at most the code of max |
| NumericPack.Payload | encoders/php/Tamper/NumericPack.php:73-86 | the payload is width times the row count bits |
| NumericPack.Encode | encoders/php/Tamper/NumericPack.php:51-97 | fails with a missing-max error exactly when max is absent; otherwise it records precision, min, max, delta = round(min times 10^precision) and the width |
| NumericPack.EncodeLength | encoders/php/Tamper/NumericPack.php:65-71 | the pack is ceil((40 + width times rows)/8) bytes |
| NumericPack.PayloadRoundTrip | encoders/php/Tamper/NumericPack.php:73-86 | each row's window reads back as its code mod 2^width |
| NumericPack.RoundTrip | encoders/php/Tamper/NumericPack.php:51-97 | decoding the pack gives each row's code mod 2^width |
| NumericPack.CodeInRange | encoders/php/Tamper/NumericPack.php:56-78 | a value between min and max gets a code from 1 to the span, which the width holds |
| NumericPack.CodeRestored | encoders/php/Tamper/NumericPack.php:56-78 | for a value within the bounds, the stored code restores to its scaled value; a missing value restores to nothing |
| NumericPack.ValuesRecovered | encoders/php/Tamper/NumericPack.php:51-97 | decoding the pack restores every in-range row to its scaled, rounded value, and every missing row to nothing |
| NumericPack.AboveMaxReadsAsMissing | encoders/php/Tamper/NumericPack.php:81-85 | nothing guards the range: with max 2 a value of 3 is cut by the mask loop to code 0, the code for missing |
| Existence.DecodeSet | encoders/php/Tamper/Tamper.php:237-267 | the corrected reader yields strictly increasing guids, all in 0..span-1 of the blocks |
| Existence.DecodeSetAsWritten | encoders/php/Tamper/Tamper.php:237-267 | the reader as written yields no guid from a block list without a Run block |
| Existence.BitmapGuidsMembers | encoders/php/Tamper/Tamper.php:243-251 | a bitmap block starting at g yields x exactly when bit x-g is set |
| Existence.DecodeAppend | encoders/php/Tamper/Tamper.php:237-267 | decoding two block lists one after the other is decoding the first, then the second from where the first ends |
| Existence.DumpChunk | encoders/php/Tamper/Tamper.php:269-291 | the blocks cover the chunk exactly, are well formed, and are absent exactly for an empty chunk |
| Existence.DumpChunkDecodes | encoders/php/Tamper/Tamper.php:269-291 | a chunk ending in `run` ones decodes, after dumping, to the guids of its set bits |
| Existence.Flush | encoders/php/Tamper/Tamper.php:202 | flushing the chunk keeps the block list well formed |
| Existence.FlushDecodes | encoders/php/Tamper/Tamper.php:202 | after the final dump the blocks decode to the old blocks' guids followed by the chunk's |
| Existence.Step | encoders/php/Tamper/Tamper.php:163-200 | one loop iteration keeps the chunk ending in `run` ones and the blocks well formed, and records the guid as the last one |
| Existence.ScanAll | encoders/php/Tamper/Tamper.php:158-200 | the scan ends with a well-formed block list, a chunk ending in its run, and the last guid |
| Existence.PackExistenceBlocks | encoders/php/Tamper/Tamper.php:156-205 | every emitted Bitmap is non-empty, every Skip covers at least 40 guids and every Run more than 40 |
| Existence.StepNext | encoders/php/Tamper/Tamper.php:166-169 | a guid right after the last one keeps the scan invariant: blocks plus chunk decode to the guids seen so far, and the chunk ends in its run |
| Existence.StepSkip | encoders/php/Tamper/Tamper.php:170-183 | a gap over 40 (dump, Skip(diff-1), restart at [1]) keeps the scan invariant |
| Existence.StepGapFlushed | encoders/php/Tamper/Tamper.php:184-197 | a short gap after a run over 40 (dump, then zeros and a one) keeps the scan invariant |
| Existence.StepGapKept | encoders/php/Tamper/Tamper.php:184-197 | a short gap after a run of at most 40 (zeros and a one added to the chunk) keeps the scan invariant |
| Existence.ScanKeepsInv | encoders/php/Tamper/Tamper.php:163-200 | over any ascending list of non-negative guids, the loop keeps the scan invariant |
| Existence.RoundTrip | encoders/php/Tamper/Tamper.php:156-267 | decoding the blocks of an ascending guid list gives back the list; the blocks are well formed and cover exactly up to the last guid |
| Existence.ScanConsecutive | encoders/php/Tamper/Tamper.php:166-169 | guids 0..n-1 leave one chunk of n ones with run n and no blocks |
| Existence.ConsecutiveThreshold | encoders/php/Tamper/Tamper.php:271-290 | n consecutive guids from 0 become one Run when n > 40 and one all-ones Bitmap otherwise |
| Existence.GapOf40Skips | encoders/php/Tamper/Tamper.php:170-183 | guids 0 and 41 give a Bitmap, a Skip of 40, and a Bitmap |
| Existence.GapOf39StaysInBitmap | encoders/php/Tamper/Tamper.php:184-197 | guids 0 and 40 give one Bitmap of a one, 39 zeros and a one |
| Existence.DecodeSetAsWrittenLoses | encoders/php/Tamper/Tamper.php:243-251 | `foreach` over a BitSet object visits none of its bits, so guid list [0] decodes to [] instead of [0] |
| ExistenceCodec.GetInt32Bytes | encoders/php/Tamper/Tamper.php:298-309 | four bytes whose bits are the low 32 bits of the value, big-endian, and which read back as the value mod 2^32 |
| ExistenceCodec.Int32BytesArePushed | encoders/php/Tamper/Tamper.php:298-309 | `getInt32Bytes(v)` equals the bytes of `pushInt32(v)` on an empty bit set |
| ExistenceCodec.HeaderBytes | encoders/php/Tamper/Tamper.php:214-218 | a Bitmap block's length header bytes are the same as an attribute pack's 40-bit header |
| ExistenceCodec.BitmapBlockIsFrame | encoders/php/Tamper/Tamper.php:213-220 | a Bitmap block is control byte 0 followed by a framed pack of its bits |
| ExistenceCodec.GetBytesAligned | encoders/php/Tamper/Bitset.php:55-79 | the bytes of a byte-aligned prefix and the rest concatenate to the bytes of the whole |
| ExistenceCodec.ReadBitmap | encoders/php/Tamper/Tamper.php:213-220 | an encoded Bitmap block parses back to the same block, and the parser resumes right after it |
| ExistenceCodec.ReadCounted | encoders/php/Tamper/Tamper.php:222-230 | an encoded Skip or Run block parses back to the same block after 5 bytes |
| ExistenceCodec.ParseBlock | encoders/php/Tamper/Tamper.php:211-232 | parsing an encoded block followed by more bytes yields the block, then whatever the rest parses to |
| ExistenceCodec.EncodeSet | encoders/php/Tamper/Tamper.php:207-235 | the byte string of a block list whose lengths fit 32 bits parses back to the block list |
| ExistenceCodec.PackExistence | encoders/php/Tamper/Tamper.php:156-235 | the existence bytes of an ascending guid list below 2^32 parse and decode back to the list |
| Inference.OrderedFirstsSnoc | encoders/php/Tamper/Tamper.php:75-77 | adding a value only when it is new keeps the values distinct and in first-occurrence order |
| Inference.AddPossibilitiesOrdered | encoders/php/Tamper/Tamper.php:88-92 | adding a list's choices keeps the possibilities distinct and in first-occurrence order |
| Inference.Widen | encoders/php/Tamper/Tamper.php:70-117 | the corrected update: a value of the other kind or null changes nothing; a string or list raises maxChoices to at least its number of choices (1 for a string) and adds its choices in order; a number keeps the precision and moves min and max out to it |
| Inference.WidenAsWritten | encoders/php/Tamper/Tamper.php:70-117 | the update as written: the same as Widen except that a string leaves maxChoices unchanged |
| Inference.Describe | encoders/php/Tamper/Tamper.php:70-117 | an attribute is tags exactly when its first value is a string or list; a numeric one gets the caller's precision only when its first value is a float, else 0 |
| Inference.DescribeAsWritten | encoders/php/Tamper/Tamper.php:70-117 | the inference as written gives the same kind, possibilities, precision and bounds as the corrected one, and a maxChoices no larger |
| Inference.WidenTags | encoders/php/Tamper/Tamper.php:70-92 | a tags value keeps the possibilities in first-occurrence order and raises maxChoices to the larger of the old value and its length (for the corrected inference; see Findings) |
| Inference.TagsPossibilities | encoders/php/Tamper/Tamper.php:70-92 | the possibilities are every choice seen, distinct and in first-occurrence order |
| Inference.TagsMaxChoices | encoders/php/Tamper/Tamper.php:78-87 | maxChoices is at least every tags value's length and equals one of them (for the corrected inference; see Findings) |
| Inference.NumericDescribed | encoders/php/Tamper/Tamper.php:93-117 | min and max bound every number seen, and both are numbers that were seen |
| Inference.StringAfterEmptyList | encoders/php/Tamper/Tamper.php:70-77 | after an empty list, the code's string branch leaves maxChoices 0; the corrected branch raises it to 1 |
| Inference.InferFieldShape | encoders/php/Tamper/Tamper.php:64-119 | a field appends its name to the order only on first sight, adds only its own entry, and leaves every other name's entry unchanged; `guid` and missing values add nothing |
| Inference.Infer | encoders/php/Tamper/Tamper.php:63-119 | the described names are exactly those in the order, which are distinct and in order of first occurrence over all rows |
| Inference.InferKeys | encoders/php/Tamper/Tamper.php:63-119 | the described names are exactly the names in discovery order |
| Inference.InferOrder | encoders/php/Tamper/Tamper.php:63-119 | attribute names are distinct and in order of first occurrence over all rows |
| Inference.InferProjects | encoders/php/Tamper/Tamper.php:63-119 | a name is described exactly when some row has a value for it, and its descriptor depends only on that name's values, in row order |
| Tamper.ChooseInteger | encoders/php/Tamper/Tamper.php:125-130 | IntegerPack is chosen only when there is at least one possibility and fewer slots than possibilities |
| Tamper.ChooseIntegerFewerChoices | encoders/php/Tamper/Tamper.php:125-130 | if IntegerPack wins with some maxChoices, it wins with any smaller one |
| Tamper.SelectionExamples | encoders/php/Tamper/Tamper.php:125-130 | N=100 with one choice picks IntegerPack; N=3 with three choices costs 6 against 3 and picks BitmapPack; N=1 with one choice is an exact tie and picks BitmapPack |
| Tamper.IntegerCanCostMore | encoders/php/Tamper/Tamper.php:125-130 | the rule compares unrounded costs: with N=11 and three choices it picks IntegerPack though its whole-bit window is wider than the bitmap |
| Tamper.EncodeAttribute | encoders/php/Tamper/Tamper.php:122-144 | a tags attribute keeps its possibilities and maxChoices and uses IntegerPack exactly when (N+1)^maxChoices < 2^N; a numeric one carries its precision and bounds |
| Tamper.Pack | encoders/php/Tamper/Tamper.php:45-147 | version "2.1", the existence pack of the guid column, and one attribute per inferred name in discovery order (for the corrected inference; see Findings) |
| Tamper.AttributeOf | encoders/php/Tamper/Tamper.php:122-144 | attribute i is the i-th discovered name, encoded from its descriptor |
| Tamper.PossibilitiesCover | encoders/php/Tamper/Tamper.php:63-119 | every tag a row holds is a possibility, the possibilities are distinct, and no row has more tags than maxChoices (for the corrected inference; see Findings) |
| Tamper.PackBitmapRecovers | encoders/php/Tamper/Tamper.php:45-147 | in a bitmap attribute of the document, bit k of row j reads back set exactly when the row holds possibility k |
| Tamper.PackIntegerRecovers | encoders/php/Tamper/Tamper.php:45-147 | in an integer attribute of the document, every row reads back as exactly its tags in order, then empty slots (for the corrected inference; see Findings) |
| Tamper.WithinBounds | encoders/php/Tamper/Tamper.php:93-117 | every number of a numeric attribute lies between its inferred min and max |
| Tamper.PackNumericRecovers | encoders/php/Tamper/Tamper.php:45-147 | in a numeric attribute of the document, every row reads back as its scaled, rounded value, or nothing when absent |
| Tamper.PackExistenceRecovers | encoders/php/Tamper/Tamper.php:47-60 | the document's existence pack parses and decodes back to the guid column |
| Tamper.StringAfterEmptyListIsLost | encoders/php/Tamper/Tamper.php:70-77 | as written, rows `[t: []]`, `[t: "a"]` give one possibility and no slots, IntegerPack is chosen, and "a" reads back as nothing |
| Tamper.StringAfterEmptyListKept | encoders/php/Tamper/Tamper.php:70-77 | with the corrected inference the same rows give one slot and BitmapPack |

## Left out

- Base64: the wrapping of every pack in `base64_encode` is left out. Packs are byte sequences.
- Floats: a float is modelled as an exact decimal `mantissa * 10^-scale`, so binary floating-point rounding in `$v * pow(10, $precision)` and `round` is not modelled.
- Selection logarithm: the selection rule is stated exactly as (N+1)^maxChoices < 2^N. PHP's floating-point `log` can round differently when the two sides are very close.
- Word layout: `BitSet` is a sequence of booleans. The 32- or 64-bit word store (`setup`, `getIndexAndMask`) appears only in `RawBitSet`, to state the two defects under Findings.
- `__toString` and `getSize`: left out because they only expose fields. The iterator's `key()` and `valid()` are modelled by `BitSetIterator.Key` and `BitSetIterator.Valid` and are covered by the `BitSetIterator.Walk` row.
- Negative indices: `BitSet.Get`, `BitSet.Set` and `BitSet.Clear` take natural numbers. What a negative index does is shown only by `RawBitSet.RawGet`.
- Pack.php: left out, because it is only the interface the three encoders implement.
- Mixed kinds: `pack` on an attribute whose values mix tags and numbers is outside the model. `Tamper.Pack` requires every attribute to hold one kind.
- Other value types: booleans, nulls inside lists, and nested arrays in rows are not modelled. Neither are PHP's conversion of numeric-string keys to integers in `possibilities` and its loose `$k == "guid"` comparison.
- Integer overflow: `(int)` casts of values past the platform integer range are not modelled.
- BitSet.PushVal: requires a width of 1 to 63 bits, which is exactly the range the mask loop handles with 64-bit PHP integers, the platform the model assumes. Width 0 makes `1 << -1` throw. Width 64 starts from the mask PHP_INT_MIN, which the sign-extending `>>=` never clears, so the loop does not end. Wider masks are 0 and push nothing. None of these failures is modelled.
- 32-bit PHP: on a 32-bit build `1 << 31` is already negative, so the mask loops work only up to width 31, and widths 32..63 (numeric spans of 2^31 and more) never end. The model assumes 64-bit integers and does not model this limit.
- IntegerPack.Encode: requires at least one possibility whenever slots are pushed, and a bit window of at most 63 bits. A width of 0 makes the PHP mask loop shift by -1, and wider windows fail as described for `BitSet.PushVal`.
- NumericPack.Encode: requires `Encodable`, a span of at least one code and a width of at most 63 bits, the range of `BitSet.PushVal`. A max below the min is not modelled.
- IntegerPack.RoundTrip: requires the byte count to fit the 32-bit header field. The header truncation past 2^32 bytes is modelled but not inverted. The same holds for BitmapPack.RoundTrip, NumericPack.RoundTrip and IntegerPack.RowRecovered.
- ExistenceCodec.PackExistence: its round trip holds only when every guid + 1 is below 2^32, so that every Skip, Run and bitmap length fits the 4-byte field.
- ExistenceCodec.EncodeSet: its round trip holds only when every length fits its 32-bit field.
- Tamper.Pack: requires every attribute to be of one kind and its window widths to fit the mask loops (`WidthsFit`). It is built on the corrected `Inference.Widen`, where a string raises maxChoices to at least 1. The inference as written is `Inference.DescribeAsWritten`, and its effect on a packed document is shown by `Tamper.StringAfterEmptyListIsLost`.
- Tamper.Pack: a document always has an `attributes` list, empty when no attribute was inferred. The PHP array gets the key only when lines 136 and 141 add an attribute, so a table with no attributes has no `attributes` key at all.
- Window widths as floats: `IntegerPack.BitWindowWidth` and `NumericPack.Width` compute `ceil(log(..., 2))` exactly with `CeilLog2`. PHP's `log` is floating point and can round differently near powers of two, and `ceil` returns a float, so `bit_window_width`, `item_window_width` and `$itemWindowWidth` are floats in the PHP output where the model has integers.
- Tamper.PackExistenceRecovers: requires ascending, non-negative guids, which `packExistence` assumes of its caller, each with guid + 1 below 2^32.
- Decoders: the reference implementation has no decoders. `IntegerPack.Decode`, `BitmapPack.Decode`, `NumericPack.Decode` and `ExistenceCodec.ParseSet` are derived inverses, written only to state the round trips.

## Findings

| source | as written | input that shows it | evidently intended | confidence | as-written member | corrected member |
|---|---|---|---|---|---|---|
| encoders/php/Tamper/Bitset.php:268-282 | `pop` only decrements the size, and growing again with `setSize` appends zero words only past the old word count, so a popped 1 reappears | push 1, pop, setSize(1) reads [1] | new bits read 0, as the method's comment says | high (proved; not executed) | RawBitSet.StaleBitAfterPop | BitSet.SetSize |
| encoders/php/Tamper/Bitset.php:254-260 | `pop` on an empty set calls `get(-1)`, which passes the `> size - 1` test, returns 0 and leaves size -1 | pop on a new BitSet | pop of an empty set fails | high (proved; not executed) | RawBitSet.PopEmptyAsWritten | BitSet.Pop |
| encoders/php/Tamper/Tamper.php:243-251 | `foreach ($chunk["data"] as $bit)` iterates a BitSet object, whose properties are all protected and which implements no iterator, so no bit is visited | guids [0] encode to [Bitmap([1])], which decodes to [] | iterate the bits, for example with BitSetIterator | medium (PHP object iteration semantics; not executed) | Existence.DecodeSetAsWrittenLoses | Existence.RoundTrip |
| encoders/php/Tamper/Tamper.php:70-77 | a string only sets maxChoices to 1 when it creates the attribute, so a string after an empty list leaves maxChoices 0 | rows [t: []], [t: "a"]: IntegerPack with no slots, and "a" reads back as nothing | a string raises maxChoices to at least 1 | high (proved; not executed) | Tamper.StringAfterEmptyListIsLost | Tamper.StringAfterEmptyListKept |

=== FILE: base.dfy ===
/** Shared vocabulary of the codec model: failure-carrying results, bytes,
    powers of two and ten, the integer ceiling logarithm used for window
    widths, and the flatten/split pair that lays fixed-width windows end to end. */
module Base {

  /** The exceptions the codec raises, plus the failure of the derived decoders. */
  datatype Error =
    | OutOfRange   // \OutOfRangeException from BitSet::get / BitSet::set
    | MissingMax   // \InvalidArgumentException from NumericPack::encode
    | Malformed    // a byte stream the derived decoders cannot read

  datatype Result<T> = Ok(value: T) | Err(error: Error)

  datatype Option<T> = None | Some(value: T)

  type Byte = x: int | 0 <= x < 256

  function Pow2(n: nat): (r: nat)
    ensures r >= 1
  {
    if n == 0 then 1 else 2 * Pow2(n - 1)
  }

  function Pow10(n: nat): (r: nat)
    ensures r >= 1
  {
    if n == 0 then 1 else 10 * Pow10(n - 1)
  }

  function Pow(b: nat, e: nat): nat
  {
    if e == 0 then 1 else b * Pow(b, e - 1)
  }

  lemma {:induction false} Pow2Add(a: nat, b: nat)
    ensures Pow2(a + b) == Pow2(a) * Pow2(b)
  {
    if a > 0 {
      Pow2Add(a - 1, b);
      assert Pow2(a + b) == 2 * Pow2(a - 1 + b);
    }
  }

  lemma {:induction false} Pow2Monotone(a: nat, b: nat)
    requires a <= b
    ensures Pow2(a) <= Pow2(b)
  {
    if a < b {
      Pow2Monotone(a, b - 1);
    }
  }

  /** ceil(log2(n)) for n >= 1: the fewest bits whose 2^w values reach n. */
  function CeilLog2(n: nat): (w: nat)
    requires n >= 1
    ensures n <= Pow2(w)
    ensures w == 0 || Pow2(w - 1) < n
  {
    if n <= 1 then 0 else 1 + CeilLog2((n + 1) / 2)
  }

  /** The least-width property pinned down from both sides: any width whose
      2^w reaches n is at least CeilLog2(n). */
  lemma {:induction false} CeilLog2Least(n: nat, w: nat)
    requires n >= 1 && n <= Pow2(w)
    ensures CeilLog2(n) <= w
  {
    var c := CeilLog2(n);
    if c > w {
      Pow2Monotone(w, c - 1);
    }
  }

  /** Concatenation of a sequence of windows, in order. */
  function Flatten<T>(blocks: seq<seq<T>>): seq<T>
  {
    if |blocks| == 0 then [] else Flatten(blocks[..|blocks| - 1]) + blocks[|blocks| - 1]
  }

  ghost predicate Uniform<T>(blocks: seq<seq<T>>, w: nat)
  {
    forall k :: 0 <= k < |blocks| ==> |blocks[k]| == w
  }

  /** Cuts xs into n consecutive windows of w items. */
  function Split<T>(xs: seq<T>, w: nat, n: nat): (r: seq<seq<T>>)
    requires |xs| == w * n
    ensures |r| == n
    ensures Uniform(r, w)
  {
    if n == 0 then []
    else Split(xs[..w * (n - 1)], w, n - 1) + [xs[w * (n - 1)..]]
  }

  lemma {:induction false} FlattenLength<T>(blocks: seq<seq<T>>, w: nat)
    requires Uniform(blocks, w)
    ensures |Flatten(blocks)| == w * |blocks|
  {
    if |blocks| > 0 {
      FlattenLength(blocks[..|blocks| - 1], w);
    }
  }

  /** Split undoes Flatten when every window has the same width. */
  lemma {:induction false} SplitFlatten<T>(blocks: seq<seq<T>>, w: nat)
    requires Uniform(blocks, w)
    ensures |Flatten(blocks)| == w * |blocks|
    ensures Split(Flatten(blocks), w, |blocks|) == blocks
  {
    FlattenLength(blocks, w);
    if |blocks| > 0 {
      var n := |blocks|;
      var init := blocks[..n - 1];
      SplitFlatten(init, w);
      var xs := Flatten(blocks);
      assert xs == Flatten(init) + blocks[n - 1];
      assert xs[..w * (n - 1)] == Flatten(init);
      assert xs[w * (n - 1)..] == blocks[n - 1];
      assert blocks == init + [blocks[n - 1]];
    }
  }

  /** Flatten undoes Split. */
  lemma {:induction false} FlattenSplit<T>(xs: seq<T>, w: nat, n: nat)
    requires |xs| == w * n
    ensures Flatten(Split(xs, w, n)) == xs
  {
    if n > 0 {
      var s := Split(xs, w, n);
      FlattenSplit(xs[..w * (n - 1)], w, n - 1);
      assert s[..n - 1] == Split(xs[..w * (n - 1)], w, n - 1);
      assert xs == xs[..w * (n - 1)] + xs[w * (n - 1)..];
    }
  }
}

=== FILE: bitmap_pack.dfy ===
/** BitmapPack.php: each row gets one bit per possibility, set when the row
    holds that possibility. */
module BitmapPack {
  import opened Base
  import opened BitSet
  import opened Rows
  import opened PackFormat

  /** `isset($bitNums[$k])`: some value of the row maps to index k through
      the flipped possibilities. */
  predicate Marked(ps: seq<string>, vals: seq<string>, k: nat)
  {
    exists m :: 0 <= m < |vals| && LastIndex(ps, vals[m]) == Some(k)
  }

  /** The N bits of one row, in possibility order: bit k is set exactly
      when the row holds ps[k] and k is the last position of that value,
      the one `array_flip` keeps. */
  function RowWindow(ps: seq<string>, v: Value): (bits: Bits)
    requires !v.IsNumeric()
    ensures |bits| == |ps|
    ensures forall k :: 0 <= k < |ps| ==>
              (bits[k] <==> ps[k] in Choices(v) && forall k' :: k < k' < |ps| ==> ps[k'] != ps[k])
    ensures forall k :: 0 <= k < |ps| ==> (bits[k] <==> Marked(ps, Choices(v), k))
  {
    var vals := Choices(v);
    MarkedIsLastHeld(ps, vals);
    seq(|ps|, k requires 0 <= k < |ps| => exists m :: 0 <= m < |vals| && LastIndex(ps, vals[m]) == Some(k))
  }

  /** A position is marked exactly when the row holds its value and no
      later position holds the same value. */
  lemma MarkedIsLastHeld(ps: seq<string>, vals: seq<string>)
    ensures forall k :: 0 <= k < |ps| ==>
              (Marked(ps, vals, k) <==> ps[k] in vals && forall k' :: k < k' < |ps| ==> ps[k'] != ps[k])
  {
    forall k | 0 <= k < |ps| && ps[k] in vals && forall k' :: k < k' < |ps| ==> ps[k'] != ps[k]
      ensures Marked(ps, vals, k)
    {
      var m :| 0 <= m < |vals| && vals[m] == ps[k];
      var r := LastIndex(ps, vals[m]);
      assert r.Some? && r.value >= k;
      assert LastIndex(ps, vals[m]) == Some(k);
    }
  }

  /** With distinct possibilities, bit k is set exactly when the row holds
      possibility k; order and repetition among the row's values do not
      matter. */
  lemma MarkedIffHeld(ps: seq<string>, vals: seq<string>, k: nat)
    requires Distinct(ps) && k < |ps|
    ensures Marked(ps, vals, k) <==> ps[k] in vals
  {
    if ps[k] in vals {
      var m :| 0 <= m < |vals| && vals[m] == ps[k];
      LastIndexOfDistinct(ps, k);
    }
  }

  /** Two rows that hold the same possibilities get the same window. */
  lemma SetSemantics(ps: seq<string>, v1: Value, v2: Value)
    requires !v1.IsNumeric() && !v2.IsNumeric()
    requires forall p :: p in ps ==> (p in Choices(v1) <==> p in Choices(v2))
    ensures RowWindow(ps, v1) == RowWindow(ps, v2)
  {
    forall k | 0 <= k < |ps|
      ensures Marked(ps, Choices(v1), k) == Marked(ps, Choices(v2), k)
    {
      if Marked(ps, Choices(v1), k) {
        var m :| 0 <= m < |Choices(v1)| && LastIndex(ps, Choices(v1)[m]) == Some(k);
        var m2 :| 0 <= m2 < |Choices(v2)| && Choices(v2)[m2] == ps[k];
        assert LastIndex(ps, Choices(v2)[m2]) == Some(k);
      }
      if Marked(ps, Choices(v2), k) {
        var m :| 0 <= m < |Choices(v2)| && LastIndex(ps, Choices(v2)[m]) == Some(k);
        var m1 :| 0 <= m1 < |Choices(v1)| && Choices(v1)[m1] == ps[k];
        assert LastIndex(ps, Choices(v1)[m1]) == Some(k);
      }
    }
  }

  function Payload(name: string, ps: seq<string>, rows: seq<Row>): (bits: Bits)
    requires TagsColumn(rows, name)
    ensures |bits| == |ps| * |rows|
  {
    var windows := seq(|rows|, j requires 0 <= j < |rows| => RowWindow(ps, Lookup(rows[j].fields, name)));
    FlattenLength(windows, |ps|);
    Flatten(windows)
  }

  /** `encode($data)`: the header for N * rows bits, then every row's window. */
  function Encode(name: string, ps: seq<string>, maxChoices: nat, rows: seq<Row>): (r: EncodedAttribute)
    requires TagsColumn(rows, name)
    ensures r.TagsAttribute? && r.encoding == BitmapEncoding
    ensures r.attrName == name && r.possibilities == ps && r.maxChoices == maxChoices
    ensures r.itemWindowWidth == r.bitWindowWidth == |ps|
  {
    TagsAttribute(name, BitmapEncoding, ps, maxChoices, Frame(Payload(name, ps, rows)), |ps|, |ps|)
  }

  /** The pack holds the 40 header bits and N bits per row, rounded up to
      whole bytes. */
  lemma EncodeLength(name: string, ps: seq<string>, maxChoices: nat, rows: seq<Row>)
    requires TagsColumn(rows, name)
    ensures |Encode(name, ps, maxChoices, rows).pack| == (40 + |ps| * |rows| + 7) / 8
  {
    FrameLength(Payload(name, ps, rows), |ps| * |rows|);
  }

  /** The derived decoder: the possibility bits of each of rowCount rows. */
  function Decode(pack: seq<Byte>, n: nat, rowCount: nat): Result<seq<Bits>>
  {
    match Unpack(pack)
    case Err(e) => Err(e)
    case Ok(payload) =>
      if |payload| != n * rowCount then Err(Malformed) else Ok(Split(payload, n, rowCount))
  }

  /** The payload splits back into the rows' windows. */
  lemma PayloadRoundTrip(name: string, ps: seq<string>, rows: seq<Row>)
    requires TagsColumn(rows, name)
    ensures Split(Payload(name, ps, rows), |ps|, |rows|)
         == seq(|rows|, j requires 0 <= j < |rows| => RowWindow(ps, Lookup(rows[j].fields, name)))
  {
    var windows := seq(|rows|, j requires 0 <= j < |rows| => RowWindow(ps, Lookup(rows[j].fields, name)));
    SplitFlatten(windows, |ps|);
  }

  /** Decoding gives back every row's window: bit k of row j is set exactly
      when row j holds a value that the flipped possibilities map to k. */
  lemma RoundTrip(name: string, ps: seq<string>, maxChoices: nat, rows: seq<Row>)
    requires TagsColumn(rows, name)
    requires |ps| * |rows| / 8 < Pow2(32)
    ensures var d := Decode(Encode(name, ps, maxChoices, rows).pack, |ps|, |rows|);
            d.Ok? && |d.value| == |rows| &&
            forall j, k :: 0 <= j < |rows| && 0 <= k < |ps| ==>
              |d.value[j]| == |ps| && (d.value[j][k] <==> Marked(ps, Choices(Lookup(rows[j].fields, name)), k))
  {
    UnpackFramed(Payload(name, ps, rows));
    PayloadRoundTrip(name, ps, rows);
  }

  /** With distinct possibilities the decoded bit k of row j says exactly
      whether row j holds possibility k. */
  lemma RoundTripDistinct(name: string, ps: seq<string>, maxChoices: nat, rows: seq<Row>, j: nat, k: nat)
    requires TagsColumn(rows, name) && Distinct(ps)
    requires |ps| * |rows| / 8 < Pow2(32)
    requires j < |rows| && k < |ps|
    ensures var d := Decode(Encode(name, ps, maxChoices, rows).pack, |ps|, |rows|);
            d.Ok? && |d.value| == |rows| && |d.value[j]| == |ps| &&
            (d.value[j][k] <==> ps[k] in Choices(Lookup(rows[j].fields, name)))
  {
    RoundTrip(name, ps, maxChoices, rows);
    MarkedIffHeld(ps, Choices(Lookup(rows[j].fields, name)), k);
  }
}

=== FILE: bitset.dfy ===
/** The growable bit sequence of Bitset.php, seen from outside: a sequence of
    bits indexed from 0.  How the bits are packed into 32- or 64-bit words is
    private to the class and does not show here (see RawBitSet for that). */
module BitSet {
  import opened Base

  type Bits = seq<bool>

  function Zeros(n: nat): (r: Bits)
    ensures |r| == n
    ensures forall i :: 0 <= i < n ==> !r[i]
  {
    seq(n, _ => false)
  }

  // ---------------------------------------------------------------------
  // Integer division facts behind bit extraction (Dafny's / and % on int
  // are floor-based for positive divisors, like PHP's arithmetic >> and &).
  // ---------------------------------------------------------------------

  lemma {:induction false} MulAtLeast(d: int, k: nat)
    requires d > 0 && k >= 1
    ensures d * k >= d
  {
    if k > 1 {
      MulAtLeast(d, k - 1);
      assert d * k == d * (k - 1) + d;
    }
  }

  lemma MulNonNegative(x: int, k: int)
    ensures x >= 0 && k >= 0 ==> x * k >= 0
  {
  }

  lemma DivModUnique(x: int, d: int, q: int, r: int)
    requires d > 0 && x == d * q + r && 0 <= r < d
    ensures x / d == q && x % d == r
  {
    var q' := x / d;
    var r' := x % d;
    assert x == d * q' + r';
    assert d * (q - q') == r' - r by {
      assert d * (q - q') == d * q - d * q';
    }
    if q > q' {
      MulAtLeast(d, q - q');
    } else if q < q' {
      MulAtLeast(d, q' - q);
    }
  }

  lemma ModSmall(x: int, m: int)
    requires 0 <= x < m
    ensures x % m == x
  {
    DivModUnique(x, m, 0, x);
  }

  lemma DivAddMultiple(d: int, q: int, x: int)
    requires d > 0
    ensures (d * q + x) / d == q + x / d
    ensures (d * q + x) % d == x % d
  {
    DivModUnique(d * q + x, d, q + x / d, x % d);
  }

  lemma MulDistrib(a: int, b: int, q: int, r: int)
    ensures a * (b * q + r) == (a * b) * q + a * r
  {
  }

  lemma MulBound(a: int, b: int, r: int)
    requires a > 0 && 0 <= r < b
    ensures 0 <= a * r <= a * b - a
  {
    if r > 0 {
      MulAtLeast(a, r);
      MulAtLeast(a, b - r);
      assert a * b - a * r == a * (b - r);
    }
  }

  lemma DivDiv(x: int, a: int, b: int)
    requires a > 0 && b > 0
    ensures (x / a) / b == x / (a * b)
  {
    var q1 := x / a;
    var r1 := x % a;
    var q2 := q1 / b;
    var r2 := q1 % b;
    MulDistrib(a, b, q2, r2);
    MulBound(a, b, r2);
    DivModUnique(x, a * b, q2, a * r2 + r1);
  }

  /** `($v & (1 << $k)) != 0`: bit k of v in two's complement. */
  predicate HasBit(v: int, k: nat)
  {
    (v / Pow2(k)) % 2 == 1
  }

  lemma HasBitShift(v: int, a: nat, j: nat)
    ensures HasBit(v / Pow2(a), j) == HasBit(v, a + j)
  {
    DivDiv(v, Pow2(a), Pow2(j));
    Pow2Add(a, j);
  }

  /** v mod 2m, read as (v div 2) mod m shifted left plus the parity of v. */
  lemma ModDouble(v: int, m: int)
    requires m > 0
    ensures v % (2 * m) == 2 * ((v / 2) % m) + v % 2
  {
    var t := (v / 2) / m;
    var s := (v / 2) % m;
    assert v / 2 == m * t + s;
    assert v == 2 * (v / 2) + v % 2;
    assert v == (2 * m) * t + (2 * s + v % 2);
    DivModUnique(v, 2 * m, t, 2 * s + v % 2);
  }

  /** Halving v mod 2p is taking v div 2 mod p; the parity is kept. */
  lemma HalveMod(v: int, p: int)
    requires p > 0
    ensures (v % (2 * p)) / 2 == (v / 2) % p
    ensures (v % (2 * p)) % 2 == v % 2
  {
    var h := (v / 2) % p;
    var b := v % 2;
    ModDouble(v, p);
    DivAddMultiple(2, h, b);
    DivModUnique(b, 2, 0, b);
  }

  /** Keeping only the low m bits does not change any of them. */
  lemma {:induction false} HasBitLow(v: int, m: nat, j: nat)
    requires j < m
    ensures HasBit(v % Pow2(m), j) == HasBit(v, j)
    decreases j
  {
    var p := Pow2(m - 1);
    assert Pow2(m) == 2 * p;
    var x := v % (2 * p);
    HalveMod(v, p);
    if j == 0 {
      assert Pow2(0) == 1;
    } else {
      assert Pow2(1) == 2;
      HasBitShift(x, 1, j - 1);
      HasBitShift(v, 1, j - 1);
      HasBitLow(v / 2, m - 1, j - 1);
    }
  }

  /** The low w bits of v, most significant first (the reference layout). */
  function ToBits(v: int, w: nat): (r: Bits)
    ensures |r| == w
  {
    seq(w, j requires 0 <= j < w => HasBit(v, w - 1 - j))
  }

  /** The unsigned value of a bit sequence read most significant bit first. */
  function FromBits(bs: Bits): (r: nat)
    ensures r < Pow2(|bs|)
  {
    if |bs| == 0 then 0
    else 2 * FromBits(bs[..|bs| - 1]) + (if bs[|bs| - 1] then 1 else 0)
  }

  lemma ToBitsSnoc(v: int, w: nat)
    ensures ToBits(v, w + 1) == ToBits(v / 2, w) + [v % 2 == 1]
  {
    forall j | 0 <= j < w
      ensures ToBits(v, w + 1)[j] == ToBits(v / 2, w)[j]
    {
      HasBitShift(v, 1, w - 1 - j);
    }
    assert Pow2(0) == 1;
    DivModUnique(v, 1, v, 0);
    assert ToBits(v, w + 1)[w] == HasBit(v, 0);
  }

  lemma FromBitsAppend(a: Bits, b: bool)
    ensures FromBits(a + [b]) == 2 * FromBits(a) + (if b then 1 else 0)
  {
    assert (a + [b])[..|a|] == a;
  }

  /** Reading back w pushed bits yields v reduced to its low w bits. */
  lemma {:induction false} FromToBits(v: int, w: nat)
    ensures FromBits(ToBits(v, w)) == v % Pow2(w)
    decreases w
  {
    if w > 0 {
      FromToBits(v / 2, w - 1);
      ToBitsSnoc(v, w - 1);
      FromBitsAppend(ToBits(v / 2, w - 1), v % 2 == 1);
      ModDouble(v, Pow2(w - 1));
    }
  }

  /** A value that fits in w bits is read back unchanged. */
  lemma LowBitsOfSmall(v: nat, w: nat)
    requires v < Pow2(w)
    ensures FromBits(ToBits(v, w)) == v
  {
    FromToBits(v, w);
    DivModUnique(v, Pow2(w), 0, v);
  }

  /** Writing back the value of a bit sequence reproduces it. */
  lemma {:induction false} ToFromBits(bs: Bits)
    ensures ToBits(FromBits(bs), |bs|) == bs
  {
    if |bs| > 0 {
      var n := |bs| - 1;
      var init := bs[..n];
      var b := if bs[n] then 1 else 0;
      ToFromBits(init);
      ToBitsSnoc(FromBits(bs), n);
      DivModUnique(FromBits(bs), 2, FromBits(init), b);
      assert bs == init + [bs[n]];
    }
  }

  // ---------------------------------------------------------------------
  // BitSet operations (Bitset.php)
  // ---------------------------------------------------------------------

  /** `setSize($n)`: shrinking keeps a prefix, growing appends zero bits
      (as documented; RawBitSet shows the store can leak older bits). */
  function SetSize(bs: Bits, n: nat): (r: Bits)
    ensures |r| == n
    ensures forall i :: 0 <= i < n && i < |bs| ==> r[i] == bs[i]
    ensures forall i :: |bs| <= i < n ==> !r[i]
  {
    if n > |bs| then bs + Zeros(n - |bs|) else bs[..n]
  }

  /** `new BitSet($size)`: clearAll on an empty store, then setSize. */
  function New(size: nat): (r: Bits)
    ensures r == Zeros(size)
  {
    SetSize([], size)
  }

  /** `clearAll()`: every bit becomes 0, the size is kept. */
  function ClearAll(bs: Bits): (r: Bits)
    ensures |r| == |bs|
    ensures forall i :: 0 <= i < |r| ==> !r[i]
  {
    Zeros(|bs|)
  }

  /** `get($i)`: only the upper bound is checked, so indices are naturals. */
  function Get(bs: Bits, i: nat): (r: Result<bool>)
    ensures r.Err? <==> i >= |bs|
    ensures r.Err? ==> r.error == OutOfRange
    ensures r.Ok? ==> r.value == bs[i]
  {
    if i > |bs| - 1 then Err(OutOfRange) else Ok(bs[i])
  }

  /** `setFast($i, $v)`: no bounds check; callers keep i below the size. */
  function SetFast(bs: Bits, i: nat, bit: bool): (r: Bits)
    requires i < |bs|
    ensures |r| == |bs|
    ensures r[i] == bit
    ensures forall j :: 0 <= j < |bs| && j != i ==> r[j] == bs[j]
  {
    bs[i := bit]
  }

  /** `set($i, $v)`: bounds-checked setFast. */
  function Set(bs: Bits, i: nat, bit: bool): (r: Result<Bits>)
    ensures r.Err? <==> i >= |bs|
    ensures r.Err? ==> r.error == OutOfRange
    ensures r.Ok? ==> |r.value| == |bs| && Get(r.value, i) == Ok(bit)
    ensures r.Ok? ==> forall j :: 0 <= j < |bs| && j != i ==> r.value[j] == bs[j]
  {
    if i > |bs| - 1 then Err(OutOfRange) else Ok(SetFast(bs, i, bit))
  }

  /** `clear($i)`. */
  function Clear(bs: Bits, i: nat): (r: Result<Bits>)
    ensures r.Err? <==> i >= |bs|
    ensures r.Ok? ==> |r.value| == |bs| && !r.value[i]
    ensures r.Ok? ==> forall j :: 0 <= j < |bs| && j != i ==> r.value[j] == bs[j]
  {
    Set(bs, i, false)
  }

  /** `push($bit)`. */
  function Push(bs: Bits, bit: bool): (r: Bits)
    ensures |r| == |bs| + 1
    ensures r[..|bs|] == bs
    ensures Get(r, |bs|) == Ok(bit)
  {
    bs + [bit]
  }

  /** `pop()` as intended: the last bit and the shortened sequence; an
      empty set fails (the PHP code does not, see RawBitSet.RawPop). */
  function Pop(bs: Bits): (r: Result<(bool, Bits)>)
    ensures r.Err? <==> |bs| == 0
    ensures r.Ok? ==> |r.value.1| == |bs| - 1 && Get(bs, |bs| - 1) == Ok(r.value.0)
    ensures r.Ok? ==> r.value.1 == bs[..|bs| - 1]
  {
    if |bs| == 0 then Err(OutOfRange) else Ok((bs[|bs| - 1], bs[..|bs| - 1]))
  }

  /** Pop undoes Push. */
  lemma PushPop(bs: Bits, bit: bool)
    ensures Pop(Push(bs, bit)) == Ok((bit, bs))
  {
  }

  /** Push undoes a successful Pop. */
  lemma PopPush(bs: Bits)
    requires |bs| > 0
    ensures Pop(bs).Ok? && Push(Pop(bs).value.1, Pop(bs).value.0) == bs
  {
  }

  /** The setFast loop of `pushArray` from index `at` on. */
  function SetEach(bs: Bits, at: nat, bits: Bits): (r: Bits)
    requires at + |bits| <= |bs|
    ensures |r| == |bs|
    ensures r[..at] == bs[..at]
    ensures r[at..at + |bits|] == bits
    ensures r[at + |bits|..] == bs[at + |bits|..]
    decreases |bits|
  {
    if |bits| == 0 then bs
    else SetEach(SetFast(bs, at, bits[0]), at + 1, bits[1..])
  }

  /** `pushArray($bits)`: grow by count($bits), then setFast each new index. */
  function PushArray(bs: Bits, bits: Bits): (r: Bits)
    ensures r == bs + bits
  {
    var grown := SetSize(bs, |bs| + |bits|);
    var r := SetEach(grown, |bs|, bits);
    assert r[..|bs|] == bs;
    r
  }

  /** The `while ($mask)` loop: pushes bits k-1 down to 0 of v, one `push`
      per mask value 1 << (k-1), ..., 1. */
  function PushMasked(bs: Bits, v: int, k: nat): (r: Bits)
    ensures r == bs + ToBits(v, k)
    decreases k
  {
    if k == 0 then bs
    else
      var r := PushMasked(Push(bs, HasBit(v, k - 1)), v, k - 1);
      assert [HasBit(v, k - 1)] + ToBits(v, k - 1) == ToBits(v, k);
      r
  }

  /** `pushVal($val, $bits)`: the low `bits` bits of val, MSB first. With
      64-bit PHP integers the mask loop works for widths 1..63: width 0
      shifts by -1 and throws, width 64 starts from the negative mask
      PHP_INT_MIN, which the sign-extending `>>=` never clears, and wider
      masks are 0 and push nothing. */
  function PushVal(bs: Bits, v: int, w: nat): (r: Bits)
    requires 1 <= w <= 63
    ensures |r| == |bs| + w
    ensures r[..|bs|] == bs
    ensures FromBits(r[|bs|..]) == v % Pow2(w)
  {
    var r := PushMasked(bs, v, w);
    FromToBits(v, w);
    assert r[|bs|..] == ToBits(v, w);
    r
  }

  /** `pushByte($byte)`: masks 0x80 >> i for i = 0..7. */
  function PushByte(bs: Bits, b: int): (r: Bits)
    ensures r == bs + ToBits(b, 8)
    ensures FromBits(r[|bs|..]) == b % 256
  {
    var r := PushMasked(bs, b, 8);
    FromToBits(b, 8);
    assert r[|bs|..] == ToBits(b, 8);
    r
  }

  /** `($int32 >> (8*k)) & 0xff`. */
  function ByteAt(v: int, k: nat): Byte
  {
    (v / Pow2(8 * k)) % 256
  }

  lemma ByteAtBits(v: int, k: nat)
    ensures ToBits(ByteAt(v, k), 8) == ToBits(v / Pow2(8 * k), 8)
  {
    assert Pow2(8) == 256;
    forall j | 0 <= j < 8
      ensures HasBit(ByteAt(v, k), j) == HasBit(v / Pow2(8 * k), j)
    {
      HasBitLow(v / Pow2(8 * k), 8, j);
    }
  }

  lemma ToBitsSplit(v: int, a: nat, b: nat)
    ensures ToBits(v, a + b) == ToBits(v / Pow2(b), a) + ToBits(v, b)
  {
    forall j | 0 <= j < a
      ensures ToBits(v, a + b)[j] == ToBits(v / Pow2(b), a)[j]
    {
      HasBitShift(v, b, a - 1 - j);
    }
  }

  lemma Int32Bits(v: int)
    ensures ToBits(v, 32)
         == ToBits(ByteAt(v, 3), 8) + ToBits(ByteAt(v, 2), 8) + ToBits(ByteAt(v, 1), 8) + ToBits(ByteAt(v, 0), 8)
  {
    ByteAtBits(v, 0);
    ByteAtBits(v, 1);
    ByteAtBits(v, 2);
    ByteAtBits(v, 3);
    assert Pow2(8) == 256;
    DivDiv(v, Pow2(8), Pow2(8));
    DivDiv(v, Pow2(16), Pow2(8));
    Pow2Add(8, 8);
    Pow2Add(16, 8);
    ToBitsSplit(v, 24, 8);
    ToBitsSplit(v / Pow2(8), 16, 8);
    ToBitsSplit(v / Pow2(16), 8, 8);
    assert v / 1 == v;
  }

  lemma ConcatAssoc4(s: Bits, a: Bits, b: Bits, c: Bits, d: Bits)
    ensures s + a + b + c + d == s + (a + b + c + d)
  {
  }

  /** `pushInt32($int32)`: four pushByte calls, high byte first. */
  function PushInt32(bs: Bits, v: int): (r: Bits)
    ensures r == bs + ToBits(v, 32)
  {
    var r := PushByte(PushByte(PushByte(PushByte(bs, ByteAt(v, 3)), ByteAt(v, 2)), ByteAt(v, 1)), ByteAt(v, 0));
    Int32Bits(v);
    ConcatAssoc4(bs, ToBits(ByteAt(v, 3), 8), ToBits(ByteAt(v, 2), 8), ToBits(ByteAt(v, 1), 8), ToBits(ByteAt(v, 0), 8));
    r
  }

  /** The 32 pushed bits read back as v reduced to 32 bits (big-endian). */
  lemma PushInt32Value(bs: Bits, v: int)
    ensures |PushInt32(bs, v)| == |bs| + 32
    ensures FromBits(PushInt32(bs, v)[|bs|..]) == v % Pow2(32)
  {
    var r := PushInt32(bs, v);
    assert r[|bs|..] == ToBits(v, 32);
    FromToBits(v, 32);
  }

  // ---------------------------------------------------------------------
  // Byte materialisation (getBytes)
  // ---------------------------------------------------------------------

  /** The bits of a byte string, each byte MSB first. */
  function BytesToBits(bytes: seq<Byte>): (r: Bits)
    ensures |r| == 8 * |bytes|
  {
    if |bytes| == 0 then [] else ToBits(bytes[0], 8) + BytesToBits(bytes[1..])
  }

  /** `getBytes()`: ceil(size/8) bytes, MSB first, the last one right-padded
      with zero bits. */
  function GetBytes(bs: Bits): (r: seq<Byte>)
    ensures |r| == (|bs| + 7) / 8
    ensures BytesToBits(r) == PadToBytes(bs)
  {
    assert Pow2(8) == 256;
    if |bs| == 0 then []
    else if |bs| < 8 then
      var last := bs + Zeros(8 - |bs|);
      ToFromBits(last);
      [FromBits(last)]
    else
      var first := bs[..8];
      var rest := GetBytes(bs[8..]);
      ToFromBits(first);
      assert ([FromBits(first)] + rest)[1..] == rest;
      assert bs == first + bs[8..];
      [FromBits(first)] + rest
  }

  lemma {:induction false} BytesToBitsWindow(bytes: seq<Byte>, i: nat)
    requires i < |bytes|
    ensures BytesToBits(bytes)[8 * i..8 * i + 8] == ToBits(bytes[i], 8)
  {
    if i > 0 {
      BytesToBitsWindow(bytes[1..], i - 1);
    }
  }

  /** The bits right-padded with zeros to a whole number of bytes. */
  function PadToBytes(bs: Bits): (r: Bits)
    ensures |r| == 8 * ((|bs| + 7) / 8)
    ensures r[..|bs|] == bs
    ensures forall i :: |bs| <= i < |r| ==> !r[i]
  {
    bs + Zeros(8 * ((|bs| + 7) / 8) - |bs|)
  }

  /** A byte written as 8 bits reads back as itself. */
  lemma ByteRoundTrip(b: Byte)
    ensures FromBits(ToBits(b, 8)) == b
  {
    FromToBits(b, 8);
    assert Pow2(8) == 256;
    DivModUnique(b, 256, 0, b);
  }

  lemma GetBytesWindow(bs: Bits, i: nat)
    requires i < (|bs| + 7) / 8
    ensures PadToBytes(bs)[8 * i..8 * i + 8] == ToBits(GetBytes(bs)[i], 8)
  {
    var r := GetBytes(bs);
    assert BytesToBits(r) == PadToBytes(bs);
    BytesToBitsWindow(r, i);
  }

  /** Byte i of getBytes packs bits 8i..8i+7 of the zero-padded sequence,
      most significant bit first. */
  lemma GetBytesLayout(bs: Bits, i: nat)
    requires i < (|bs| + 7) / 8
    ensures GetBytes(bs)[i] == FromBits(PadToBytes(bs)[8 * i..8 * i + 8])
  {
    GetBytesWindow(bs, i);
    ByteRoundTrip(GetBytes(bs)[i]);
  }
}

=== FILE: bitset_iterator.dfy ===
/** BitSetIterator.php: an in-order walk over a bit set, one position at a
    time, following PHP's Iterator protocol (rewind, valid, current, key,
    next). */
module BitSetIterator {
  import opened Base
  import opened BitSet

  datatype Iterator = Iterator(bitSet: Bits, position: nat)

  /** The constructor stores the set and rewinds. */
  function Create(bs: Bits): (it: Iterator)
    ensures it.bitSet == bs && it.position == 0
  {
    Rewind(Iterator(bs, 0))
  }

  function Rewind(it: Iterator): (r: Iterator)
    ensures r.bitSet == it.bitSet && r.position == 0
  {
    it.(position := 0)
  }

  /** `current()`: the bit under the cursor; past the end `get` throws. */
  function Current(it: Iterator): (r: Result<bool>)
    ensures r.Ok? <==> it.position < |it.bitSet|
    ensures r.Ok? ==> r.value == it.bitSet[it.position]
  {
    Get(it.bitSet, it.position)
  }

  function Key(it: Iterator): nat
  {
    it.position
  }

  function Next(it: Iterator): (r: Iterator)
    ensures r.bitSet == it.bitSet && r.position == it.position + 1
  {
    it.(position := it.position + 1)
  }

  predicate Valid(it: Iterator)
  {
    it.position < |it.bitSet|
  }

  /** What `foreach` yields from the current position on: (key, bit)
      pairs, calling valid/current/key/next in PHP's order. */
  function Walk(it: Iterator): (r: seq<(nat, bool)>)
    ensures |r| == if Valid(it) then |it.bitSet| - it.position else 0
    ensures forall k :: 0 <= k < |r| ==> r[k] == (it.position + k, it.bitSet[it.position + k])
    decreases |it.bitSet| - it.position
  {
    if !Valid(it) then []
    else
      var bit := Current(it).value;
      [(Key(it), bit)] + Walk(Next(it))
  }

  /** A full iteration from a fresh iterator yields every bit once, in order,
      keyed by its index. */
  lemma {:induction false} FullWalk(bs: Bits)
    ensures |Walk(Create(bs))| == |bs|
    ensures forall k :: 0 <= k < |bs| ==> Walk(Create(bs))[k] == (k, bs[k])
  {
    var it := Create(bs);
    assert it.position == 0;
    var w := Walk(it);
    assert |w| == |bs|;
    forall k | 0 <= k < |bs|
      ensures w[k] == (k, bs[k])
    {
      assert w[k] == (it.position + k, bs[it.position + k]);
    }
  }
}

=== FILE: existence.dfy ===
/** The existence pack of Tamper.php: the row guids, in order, cut into
    bitmap, skip and run blocks by a single scan (`packExistence` with
    `dumpChunk`), and the block reader (`decodeSet`). */
module Existence {
  import opened Base
  import opened BitSet

  /** One entry of `$encodingSet`. */
  datatype Block =
    | Bitmap(bits: Bits)
    | Skip(length: nat)
    | Run(length: nat)

  /** How many guids a block steps over. */
  function Width(b: Block): nat
  {
    match b
    case Bitmap(bits) => |bits|
    case Skip(n) => n
    case Run(n) => n
  }

  /** How many guids a block sequence steps over. */
  function Span(blocks: seq<Block>): nat
  {
    if |blocks| == 0 then 0 else Span(blocks[..|blocks| - 1]) + Width(blocks[|blocks| - 1])
  }

  lemma {:induction false} SpanAppend(a: seq<Block>, b: seq<Block>)
    ensures Span(a + b) == Span(a) + Span(b)
    decreases |b|
  {
    if |b| > 0 {
      var m := |b| - 1;
      assert (a + b)[..|a + b| - 1] == a + b[..m];
      assert (a + b)[|a + b| - 1] == b[m];
      SpanAppend(a, b[..m]);
      assert Span(a + b) == Span(a + b[..m]) + Width(b[m]);
    } else {
      assert a + b == a;
    }
  }

  lemma ConcatAssoc<T>(x: seq<T>, y: seq<T>, z: seq<T>)
    ensures (x + y) + z == x + (y + z)
  {
  }

  /** Dropping the last item of a + b drops the last item of b. */
  lemma LastOfAppend<T>(a: seq<T>, b: seq<T>)
    requires |b| > 0
    ensures (a + b)[..|a + b| - 1] == a + b[..|b| - 1]
    ensures (a + b)[|a + b| - 1] == b[|b| - 1]
  {
  }

  /** The guids g, g+1, ..., g+n-1. */
  function Interval(g: int, n: nat): (r: seq<int>)
    ensures |r| == n && forall i :: 0 <= i < n ==> r[i] == g + i
  {
    seq(n, i requires 0 <= i < n => g + i)
  }

  function Ones(n: nat): (r: Bits)
    ensures |r| == n && forall i :: 0 <= i < n ==> r[i]
  {
    seq(n, _ => true)
  }

  /** The guids a bitmap starting at guid g marks, in increasing order. */
  function BitmapGuids(bits: Bits, g: int): (r: seq<int>)
  {
    if |bits| == 0 then []
    else
      var n := |bits| - 1;
      BitmapGuids(bits[..n], g) + (if bits[n] then [g + n] else [])
  }

  /** A guid is marked exactly when its bit is set. */
  lemma {:induction false} BitmapGuidsMembers(bits: Bits, g: int, x: int)
    ensures x in BitmapGuids(bits, g) <==> 0 <= x - g < |bits| && bits[x - g]
  {
    if |bits| > 0 {
      var n := |bits| - 1;
      BitmapGuidsMembers(bits[..n], g, x);
    }
  }

  lemma {:induction false} BitmapGuidsAppend(a: Bits, b: Bits, g: int)
    ensures BitmapGuids(a + b, g) == BitmapGuids(a, g) + BitmapGuids(b, g + |a|)
    decreases |b|
  {
    if |b| > 0 {
      var n := |b| - 1;
      assert (a + b)[..|a + b| - 1] == a + b[..n];
      assert (a + b)[|a + b| - 1] == b[n];
      BitmapGuidsAppend(a, b[..n], g);
      assert BitmapGuids(a + b, g)
          == BitmapGuids(a + b[..n], g) + (if b[n] then [g + |a| + n] else []);
    } else {
      assert a + b == a;
    }
  }

  lemma {:induction false} BitmapGuidsOnes(n: nat, g: int)
    ensures BitmapGuids(Ones(n), g) == Interval(g, n)
  {
    if n > 0 {
      assert Ones(n)[..n - 1] == Ones(n - 1);
      BitmapGuidsOnes(n - 1, g);
    }
  }

  lemma {:induction false} BitmapGuidsZeros(n: nat, g: int)
    ensures BitmapGuids(Zeros(n), g) == []
  {
    if n > 0 {
      assert Zeros(n)[..n - 1] == Zeros(n - 1);
      BitmapGuidsZeros(n - 1, g);
    }
  }

  /** The guids one block yields when it starts at guid g. */
  function BlockGuids(b: Block, g: int): seq<int>
  {
    match b
    case Bitmap(bits) => BitmapGuids(bits, g)
    case Skip(_) => []
    case Run(n) => Interval(g, n)
  }

  /** The guids a block sequence yields starting at guid g. */
  function DecodeFrom(blocks: seq<Block>, g: int): seq<int>
  {
    Concatenated(BlockGuids, blocks, g)
  }

  /** Each block's piece in turn, each block starting where the one before
      it ends. */
  function Concatenated(piece: (Block, int) -> seq<int>, blocks: seq<Block>, g: int): seq<int>
  {
    if |blocks| == 0 then []
    else piece(blocks[0], g) + Concatenated(piece, blocks[1..], g + Width(blocks[0]))
  }

  /** `decodeSet` as evidently intended: a bitmap yields the guids of its
      set bits, a skip advances, a run yields its whole range. */
  function DecodeSet(blocks: seq<Block>): (r: seq<int>)
    ensures Ascending(r, 0, Span(blocks))
  {
    DecodeFromAscending(blocks, 0);
    DecodeFrom(blocks, 0)
  }

  /** s is strictly increasing and lies in [lo, hi). */
  predicate Ascending(s: seq<int>, lo: int, hi: int)
  {
    (forall i :: 0 <= i < |s| ==> lo <= s[i] < hi) &&
    (forall i, j :: 0 <= i < j < |s| ==> s[i] < s[j])
  }

  lemma AscendingAppend(a: seq<int>, b: seq<int>, lo: int, mid: int, hi: int)
    requires lo <= mid <= hi
    requires Ascending(a, lo, mid) && Ascending(b, mid, hi)
    ensures Ascending(a + b, lo, hi)
  {
    forall i, j | 0 <= i < j < |a + b|
      ensures (a + b)[i] < (a + b)[j]
    {
      if j < |a| {
        assert (a + b)[i] == a[i] && (a + b)[j] == a[j];
      } else if i < |a| {
        assert (a + b)[i] == a[i] && (a + b)[j] == b[j - |a|];
      } else {
        assert (a + b)[i] == b[i - |a|] && (a + b)[j] == b[j - |a|];
      }
    }
  }

  lemma {:induction false} BitmapGuidsAscending(bits: Bits, g: int)
    ensures Ascending(BitmapGuids(bits, g), g, g + |bits|)
  {
    if |bits| > 0 {
      var n := |bits| - 1;
      BitmapGuidsAscending(bits[..n], g);
      AscendingAppend(BitmapGuids(bits[..n], g), if bits[n] then [g + n] else [], g, g + n, g + |bits|);
    }
  }

  /** Each block's guids lie in the range it covers, in increasing order. */
  lemma BlockGuidsAscending(b: Block, g: int)
    ensures Ascending(BlockGuids(b, g), g, g + Width(b))
  {
    if b.Bitmap? {
      BitmapGuidsAscending(b.bits, g);
    }
  }

  lemma {:induction false} DecodeFromAscending(blocks: seq<Block>, g: int)
    ensures Ascending(DecodeFrom(blocks, g), g, g + Span(blocks))
  {
    if |blocks| > 0 {
      SpanHead(blocks);
      BlockGuidsAscending(blocks[0], g);
      DecodeFromAscending(blocks[1..], g + Width(blocks[0]));
      AscendingAppend(BlockGuids(blocks[0], g), DecodeFrom(blocks[1..], g + Width(blocks[0])),
                      g, g + Width(blocks[0]), g + Span(blocks));
    }
  }

  lemma DecodeAppend(a: seq<Block>, b: seq<Block>, g: int)
    ensures DecodeFrom(a + b, g) == DecodeFrom(a, g) + DecodeFrom(b, g + Span(a))
  {
    ConcatenatedAppend(BlockGuids, a, b, g);
  }

  /** The pieces of a + b are those of a, then those of b starting where a
      ends; the piece function is a parameter so that the proof never looks
      inside a block. */
  lemma {:induction false} ConcatenatedAppend(piece: (Block, int) -> seq<int>, a: seq<Block>, b: seq<Block>, g: int)
    ensures Concatenated(piece, a + b, g) == Concatenated(piece, a, g) + Concatenated(piece, b, g + Span(a))
  {
    if |a| > 0 {
      assert (a + b)[0] == a[0];
      assert (a + b)[1..] == a[1..] + b;
      ConcatenatedAppend(piece, a[1..], b, g + Width(a[0]));
      SpanHead(a);
      ConcatAssoc(piece(a[0], g), Concatenated(piece, a[1..], g + Width(a[0])), Concatenated(piece, b, g + Span(a)));
    } else {
      assert a + b == b;
    }
  }

  lemma SpanHead(a: seq<Block>)
    requires |a| > 0
    ensures Span(a) == Width(a[0]) + Span(a[1..])
  {
    assert a == [a[0]] + a[1..];
    SpanAppend([a[0]], a[1..]);
    assert [a[0]][..0] == [];
  }

  /** The shape every emitted block has: bitmaps are never empty, runs
      are longer than 40, skips at least 40 long. */
  predicate WellFormedBlock(b: Block)
  {
    match b
    case Bitmap(bits) => |bits| > 0
    case Skip(n) => n >= 40
    case Run(n) => n > 40
  }

  predicate WellFormed(blocks: seq<Block>)
  {
    forall k :: 0 <= k < |blocks| ==> WellFormedBlock(blocks[k])
  }

  /** The last `run` entries of the chunk are ones. */
  predicate EndsInOnes(chunk: Bits, run: nat)
  {
    run <= |chunk| && forall i :: |chunk| - run <= i < |chunk| ==> chunk[i]
  }

  /** `dumpChunk($currentChunk, $runCounter, ...)`: a trailing run longer
      than 40 becomes a run block after whatever precedes it; anything else
      that is not empty becomes one bitmap. */
  function DumpChunk(chunk: Bits, run: nat): (r: seq<Block>)
    requires run <= |chunk|
    ensures Span(r) == |chunk|
    ensures WellFormed(r)
    ensures |r| == 0 <==> |chunk| == 0
    decreases run
  {
    if run > 40 then
      var head := DumpChunk(chunk[..|chunk| - run], 0);
      assert Span(head + [Run(run)]) == Span(head) + run by {
        assert (head + [Run(run)])[..|head|] == head;
      }
      head + [Run(run)]
    else if |chunk| > 0 then
      assert Span([Bitmap(chunk)]) == |chunk| by {
        assert ([Bitmap(chunk)])[..0] == [];
      }
      [Bitmap(chunk)]
    else []
  }

  lemma DecodeSingle(b: Block, g: int)
    ensures DecodeFrom([b], g) == BlockGuids(b, g)
  {
    assert [b][1..] == [];
    assert Concatenated(BlockGuids, [], g + Width(b)) == [];
  }

  /** A dumped chunk yields exactly the guids its bits mark. */
  lemma DumpChunkDecodes(chunk: Bits, run: nat, g: int)
    requires EndsInOnes(chunk, run)
    ensures DecodeFrom(DumpChunk(chunk, run), g) == BitmapGuids(chunk, g)
  {
    if run > 40 {
      var m := |chunk| - run;
      var head := DumpChunk(chunk[..m], 0);
      assert DumpChunk(chunk, run) == head + [Run(run)];
      DecodeAppend(head, [Run(run)], g);
      DecodeSingle(Run(run), g + m);
      DumpChunkDecodes(chunk[..m], 0, g);
      SplitRun(chunk, run, g);
    } else if |chunk| > 0 {
      DecodeSingle(Bitmap(chunk), g);
    }
  }

  /** The guids of a chunk ending in `run` ones: those of the rest, then
      the run's interval. */
  lemma SplitRun(chunk: Bits, run: nat, g: int)
    requires EndsInOnes(chunk, run)
    ensures BitmapGuids(chunk, g) == BitmapGuids(chunk[..|chunk| - run], g) + Interval(g + |chunk| - run, run)
  {
    var m := |chunk| - run;
    OnesTail(chunk, run);
    BitmapGuidsAppend(chunk[..m], Ones(run), g);
    BitmapGuidsOnes(run, g + m);
  }

  lemma OnesTail(chunk: Bits, run: nat)
    requires EndsInOnes(chunk, run)
    ensures chunk == chunk[..|chunk| - run] + Ones(run)
  {
    var m := |chunk| - run;
    assert forall i :: m <= i < |chunk| ==> chunk[i] == Ones(run)[i - m];
  }

  /** The scan state of `packExistence` between two guids. */
  datatype Scan = Scan(blocks: seq<Block>, chunk: Bits, lastGuid: int, run: nat)

  /** Before the first guid: nothing emitted, an empty chunk, last guid -1. */
  const Start := Scan([], [], -1, 0)

  /** The blocks emitted so far followed by the dump of the open chunk. */
  function Flush(s: Scan): (r: seq<Block>)
    requires s.run <= |s.chunk|
    ensures WellFormed(s.blocks) ==> WellFormed(r)
  {
    s.blocks + DumpChunk(s.chunk, s.run)
  }

  lemma FlushDecodes(s: Scan)
    requires EndsInOnes(s.chunk, s.run)
    ensures Span(Flush(s)) == Span(s.blocks) + |s.chunk|
    ensures DecodeSet(Flush(s)) == DecodeSet(s.blocks) + BitmapGuids(s.chunk, Span(s.blocks))
  {
    SpanAppend(s.blocks, DumpChunk(s.chunk, s.run));
    DecodeAppend(s.blocks, DumpChunk(s.chunk, s.run), 0);
    DumpChunkDecodes(s.chunk, s.run, Span(s.blocks));
  }

  /** One iteration of the `foreach ($arr as $guid)` loop.  The run counter
      always counts ones at the end of the chunk, which is what lets
      `dumpChunk` cut the run off. */
  function Step(s: Scan, guid: int): (r: Scan)
    requires EndsInOnes(s.chunk, s.run)
    ensures EndsInOnes(r.chunk, r.run)
    ensures r.lastGuid == guid
    ensures WellFormed(s.blocks) ==> WellFormed(r.blocks)
  {
    var diff := guid - s.lastGuid;
    if diff == 1 then
      Scan(s.blocks, s.chunk + [true], guid, s.run + 1)
    else if diff > 40 then
      Scan(Flush(s) + [Skip(diff - 1)], [true], guid, 1)
    else
      var gap := if diff > 1 then Zeros(diff - 1) else [];
      if s.run > 40 then Scan(Flush(s), gap + [true], guid, 1)
      else Scan(s.blocks, s.chunk + gap + [true], guid, 1)
  }

  /** The scan over a prefix of the guids. */
  function ScanAll(guids: seq<int>): (r: Scan)
    ensures EndsInOnes(r.chunk, r.run)
    ensures WellFormed(r.blocks)
    ensures r.lastGuid == if |guids| == 0 then -1 else guids[|guids| - 1]
  {
    if |guids| == 0 then Start
    else Step(ScanAll(guids[..|guids| - 1]), guids[|guids| - 1])
  }

  /** `packExistence($arr)` up to the byte encoding: the scan, then the
      final dump. */
  function PackExistenceBlocks(guids: seq<int>): (r: seq<Block>)
    ensures WellFormed(r)
  {
    Flush(ScanAll(guids))
  }

  /** The guids `packExistence` expects: non-negative and strictly
      increasing. */
  ghost predicate SortedGuids(guids: seq<int>)
  {
    (forall i :: 0 <= i < |guids| ==> guids[i] >= 0) &&
    (forall i, j :: 0 <= i < j < |guids| ==> guids[i] < guids[j])
  }

  /** What the scan keeps true for sorted input: the emitted blocks and the
      open chunk together cover guids 0..lastGuid and yield exactly the
      guids seen, and the run counter counts ALL trailing ones. */
  ghost predicate ScanInv(s: Scan, seen: seq<int>)
  {
    EndsInOnes(s.chunk, s.run) &&
    Span(s.blocks) + |s.chunk| == s.lastGuid + 1 &&
    DecodeSet(s.blocks) + BitmapGuids(s.chunk, Span(s.blocks)) == seen &&
    (s.run < |s.chunk| ==> !s.chunk[|s.chunk| - s.run - 1])
  }

  /** The guids of a gap of k zeros closed by a one, starting at x. */
  lemma GapGuids(k: nat, x: int)
    ensures BitmapGuids(Zeros(k) + [true], x) == [x + k]
  {
    BitmapGuidsAppend(Zeros(k), [true], x);
    BitmapGuidsZeros(k, x);
    BitmapGuidsOne(x + k);
  }

  lemma BitmapGuidsOne(x: int)
    ensures BitmapGuids([true], x) == [x]
  {
    assert [true][..0] == [];
  }

  /** Appending guid-marking bits to the open chunk extends what it yields. */
  lemma ExtendChunk(s: Scan, seen: seq<int>, tail: Bits, added: seq<int>)
    requires DecodeSet(s.blocks) + BitmapGuids(s.chunk, Span(s.blocks)) == seen
    requires BitmapGuids(tail, Span(s.blocks) + |s.chunk|) == added
    ensures DecodeSet(s.blocks) + BitmapGuids(s.chunk + tail, Span(s.blocks)) == seen + added
  {
    BitmapGuidsAppend(s.chunk, tail, Span(s.blocks));
    ConcatAssoc(DecodeSet(s.blocks), BitmapGuids(s.chunk, Span(s.blocks)), added);
  }

  lemma StepNext(s: Scan, seen: seq<int>, guid: int)
    requires ScanInv(s, seen) && guid == s.lastGuid + 1
    ensures ScanInv(Step(s, guid), seen + [guid])
  {
    BitmapGuidsOne(guid);
    ExtendChunk(s, seen, [true], [guid]);
  }

  /** After a flush the emitted blocks alone yield everything seen. */
  lemma FlushedInv(s: Scan, seen: seq<int>)
    requires ScanInv(s, seen)
    ensures Span(Flush(s)) == s.lastGuid + 1
    ensures DecodeSet(Flush(s)) == seen
  {
    FlushDecodes(s);
  }

  /** A fresh chunk of k zeros and a one, after blocks that yield
      everything seen so far, yields the new guid as well. */
  lemma RestartInv(blocks: seq<Block>, seen: seq<int>, k: nat, guid: int)
    requires Span(blocks) + k == guid && DecodeSet(blocks) == seen
    ensures ScanInv(Scan(blocks, Zeros(k) + [true], guid, 1), seen + [guid])
  {
    var chunk := Zeros(k) + [true];
    GapGuids(k, Span(blocks));
    assert chunk[k] && EndsInOnes(chunk, 1);
    assert 1 < |chunk| ==> !chunk[|chunk| - 2];
  }

  lemma StepSkip(s: Scan, seen: seq<int>, guid: int)
    requires ScanInv(s, seen) && guid - s.lastGuid > 40
    ensures ScanInv(Step(s, guid), seen + [guid])
  {
    var f := Flush(s);
    var skip := Skip(guid - s.lastGuid - 1);
    FlushedInv(s, seen);
    SpanAppend(f, [skip]);
    assert Span([skip]) == guid - s.lastGuid - 1 by {
      assert [skip][..0] == [];
    }
    DecodeAppend(f, [skip], 0);
    DecodeSingle(skip, Span(f));
    RestartInv(f + [skip], seen, 0, guid);
    assert Zeros(0) + [true] == [true];
    assert Step(s, guid) == Scan(f + [skip], [true], guid, 1);
  }

  lemma StepGapFlushed(s: Scan, seen: seq<int>, guid: int)
    requires ScanInv(s, seen) && 1 < guid - s.lastGuid <= 40 && s.run > 40
    ensures ScanInv(Step(s, guid), seen + [guid])
  {
    var k := guid - s.lastGuid - 1;
    FlushedInv(s, seen);
    RestartInv(Flush(s), seen, k, guid);
    assert Step(s, guid) == Scan(Flush(s), Zeros(k) + [true], guid, 1);
  }

  lemma StepGapKept(s: Scan, seen: seq<int>, guid: int)
    requires ScanInv(s, seen) && 1 < guid - s.lastGuid <= 40 && s.run <= 40
    ensures ScanInv(Step(s, guid), seen + [guid])
  {
    var k := guid - s.lastGuid - 1;
    var tail := Zeros(k) + [true];
    GapGuids(k, s.lastGuid + 1);
    ExtendChunk(s, seen, tail, [guid]);
    assert s.chunk + Zeros(k) + [true] == s.chunk + tail;
    assert Step(s, guid) == Scan(s.blocks, s.chunk + tail, guid, 1);
  }

  lemma {:induction false} ScanKeepsInv(guids: seq<int>)
    requires SortedGuids(guids)
    ensures ScanInv(ScanAll(guids), guids)
  {
    if |guids| == 0 {
      assert ScanAll(guids) == Start;
    } else {
      var n := |guids| - 1;
      var init := guids[..n];
      assert SortedGuids(init);
      ScanKeepsInv(init);
      var s := ScanAll(init);
      var diff := guids[n] - s.lastGuid;
      assert diff >= 1 by {
        if n > 0 {
          assert s.lastGuid == guids[n - 1];
        }
      }
      assert guids == init + [guids[n]];
      if diff == 1 {
        StepNext(s, init, guids[n]);
      } else if diff > 40 {
        StepSkip(s, init, guids[n]);
      } else if s.run > 40 {
        StepGapFlushed(s, init, guids[n]);
      } else {
        StepGapKept(s, init, guids[n]);
      }
    }
  }

  /** Existence round trip: reading the blocks of sorted guids gives the
      guids back, and every block has its well-formed shape. */
  lemma RoundTrip(guids: seq<int>)
    requires SortedGuids(guids)
    ensures DecodeSet(PackExistenceBlocks(guids)) == guids
    ensures WellFormed(PackExistenceBlocks(guids))
    ensures Span(PackExistenceBlocks(guids)) == if |guids| == 0 then 0 else guids[|guids| - 1] + 1
  {
    ScanKeepsInv(guids);
    FlushDecodes(ScanAll(guids));
  }

  /** n consecutive guids from 0 leave one open chunk of n ones. */
  lemma {:induction false} ScanConsecutive(n: nat)
    ensures ScanAll(Interval(0, n)) == Scan([], Ones(n), n - 1, n)
  {
    if n > 0 {
      assert Interval(0, n)[..n - 1] == Interval(0, n - 1);
      ScanConsecutive(n - 1);
      assert Ones(n - 1) + [true] == Ones(n);
    }
  }

  /** Guids 0..n-1 pack as a single run when n > 40 and as one bitmap of
      ones otherwise. */
  lemma ConsecutiveThreshold(n: nat)
    requires n > 0
    ensures PackExistenceBlocks(Interval(0, n)) == if n > 40 then [Run(n)] else [Bitmap(Ones(n))]
  {
    ScanConsecutive(n);
    if n > 40 {
      assert Ones(n)[..0] == [];
    }
  }

  /** 40 missing guids between two present ones make a skip block. */
  lemma GapOf40Skips()
    ensures PackExistenceBlocks([0, 41]) == [Bitmap([true]), Skip(40), Bitmap([true])]
  {
    assert [0, 41][..1] == [0];
    assert [0][..0] == [];
    var s1 := ScanAll([0]);
    assert s1 == Scan([], [true], 0, 1);
  }

  /** 39 missing guids stay inside the bitmap as zeros. */
  lemma GapOf39StaysInBitmap()
    ensures PackExistenceBlocks([0, 40]) == [Bitmap([true] + Zeros(39) + [true])]
  {
    assert [0, 40][..1] == [0];
    assert [0][..0] == [];
    var s1 := ScanAll([0]);
    assert s1 == Scan([], [true], 0, 1);
  }

  /** `decodeSet` as written: `foreach` over a BitSet object sees none of
      its protected properties, so a bitmap yields nothing and does not
      advance the guid counter. */
  function DecodeSetAsWritten(blocks: seq<Block>): (r: seq<int>)
    ensures (forall k :: 0 <= k < |blocks| ==> !blocks[k].Run?) ==> r == []
  {
    DecodeAsWrittenFrom(blocks, 0)
  }

  /** Only runs yield guids. */
  function DecodeAsWrittenFrom(blocks: seq<Block>, g: int): (r: seq<int>)
    ensures (forall k :: 0 <= k < |blocks| ==> !blocks[k].Run?) ==> r == []
  {
    if |blocks| == 0 then []
    else
      match blocks[0]
      case Bitmap(_) => DecodeAsWrittenFrom(blocks[1..], g)
      case Skip(n) => DecodeAsWrittenFrom(blocks[1..], g + n)
      case Run(n) => Interval(g, n) + DecodeAsWrittenFrom(blocks[1..], g + n)
  }

  /** The single guid 0 packs as one bitmap, which the reader as written
      turns into no guids at all. */
  lemma DecodeSetAsWrittenLoses()
    ensures PackExistenceBlocks([0]) == [Bitmap([true])]
    ensures DecodeSetAsWritten(PackExistenceBlocks([0])) == []
    ensures DecodeSet(PackExistenceBlocks([0])) == [0]
  {
    assert [0][..0] == [];
    RoundTrip([0]);
  }
}

=== FILE: existence_codec.dfy ===
/** The byte form of the existence pack (`encodeSet` and `getInt32Bytes`
    in Tamper.php): each block is a control byte, 0 for a bitmap, 1 for a
    skip and 2 for a run, followed by a big-endian 32-bit length; a bitmap
    also carries its remainder-bit count and its `getBytes` image. */
module ExistenceCodec {
  import opened Base
  import opened BitSet
  import opened PackFormat
  import opened Existence

  // ---------------------------------------------------------------------
  // Bytes and bits
  // ---------------------------------------------------------------------

  lemma {:induction false} BytesToBitsAppend(a: seq<Byte>, b: seq<Byte>)
    ensures BytesToBits(a + b) == BytesToBits(a) + BytesToBits(b)
  {
    if |a| > 0 {
      assert (a + b)[0] == a[0];
      assert (a + b)[1..] == a[1..] + b;
      BytesToBitsAppend(a[1..], b);
    } else {
      assert a + b == b;
    }
  }

  /** Byte strings with the same bits are equal. */
  lemma BytesToBitsInjective(a: seq<Byte>, b: seq<Byte>)
    requires |a| == |b| && BytesToBits(a) == BytesToBits(b)
    ensures a == b
  {
    forall i | 0 <= i < |a|
      ensures a[i] == b[i]
    {
      BytesToBitsWindow(a, i);
      BytesToBitsWindow(b, i);
      ByteRoundTrip(a[i]);
      ByteRoundTrip(b[i]);
    }
  }

  /** `getBytes` is determined by the bits: any byte string of the right
      length whose bits are the padded bits is its result. */
  lemma GetBytesIs(bits: Bits, bytes: seq<Byte>)
    requires |bytes| == (|bits| + 7) / 8
    requires BytesToBits(bytes) == PadToBytes(bits)
    ensures GetBytes(bits) == bytes
  {
    BytesToBitsInjective(GetBytes(bits), bytes);
  }

  /** Whole bytes need no padding. */
  lemma PadAligned(bs: Bits)
    requires |bs| % 8 == 0
    ensures PadToBytes(bs) == bs
  {
    DivAddMultiple(8, |bs| / 8, 7);
    assert 8 * ((|bs| + 7) / 8) == |bs|;
  }

  /** `getBytes` of a byte-aligned prefix followed by more bits is the
      prefix's bytes followed by the rest's. */
  lemma GetBytesAligned(a: Bits, b: Bits)
    requires |a| % 8 == 0
    ensures GetBytes(a + b) == GetBytes(a) + GetBytes(b)
  {
    var q := |a| / 8;
    var ga := GetBytes(a);
    var gb := GetBytes(b);
    PadAligned(a);
    assert BytesToBits(ga) == a;
    assert BytesToBits(gb) == PadToBytes(b);
    BytesToBitsAppend(ga, gb);
    DivAddMultiple(8, q, |b| + 7);
    assert |a + b| + 7 == 8 * q + (|b| + 7);
    assert |ga + gb| == (|a + b| + 7) / 8;
    var pb := PadToBytes(b);
    var pab := PadToBytes(a + b);
    assert |pab| == |a| + |pb|;
    assert pab == a + pb by {
      forall i | 0 <= i < |pab|
        ensures pab[i] == (a + pb)[i]
      {
        if i < |a| + |b| {
          assert pab[i] == (a + b)[i];
        } else {
          assert !pab[i];
        }
      }
    }
    GetBytesIs(a + b, ga + gb);
  }

  // ---------------------------------------------------------------------
  // getInt32Bytes
  // ---------------------------------------------------------------------

  /** `getInt32Bytes($val)`: the four bytes of val, high byte first, each
      `($val >> 8k) & 0xff` (PHP's shift floors, as `/` does here).  Their
      bits are the low 32 bits of v, most significant first, which is what
      `pushInt32` appends to a BitSet, and read back big-endian they give
      v reduced to 32 bits. */
  function GetInt32Bytes(v: int): (r: seq<Byte>)
    ensures |r| == 4
    ensures BytesToBits(r) == ToBits(v, 32)
    ensures ReadInt32(r) == v % Pow2(32)
  {
    Int32BytesBits(v);
    FromToBits(v, 32);
    [ByteAt(v, 3), ByteAt(v, 2), ByteAt(v, 1), ByteAt(v, 0)]
  }

  lemma Int32BytesBits(v: int)
    ensures BytesToBits([ByteAt(v, 3), ByteAt(v, 2), ByteAt(v, 1), ByteAt(v, 0)]) == ToBits(v, 32)
  {
    var r := [ByteAt(v, 3), ByteAt(v, 2), ByteAt(v, 1), ByteAt(v, 0)];
    assert r == [r[0]] + [r[1]] + [r[2]] + [r[3]];
    BytesToBitsAppend([r[0]] + [r[1]] + [r[2]], [r[3]]);
    BytesToBitsAppend([r[0]] + [r[1]], [r[2]]);
    BytesToBitsAppend([r[0]], [r[1]]);
    Int32Bits(v);
  }

  /** The big-endian reading of a 4-byte field. */
  function ReadInt32(bytes: seq<Byte>): (n: nat)
    requires |bytes| == 4
    ensures n < Pow2(32)
  {
    FromBits(BytesToBits(bytes))
  }

  /** The bytes are the `getBytes` image of a fresh BitSet after
      `pushInt32(v)`. */
  lemma Int32BytesArePushed(v: int)
    ensures GetInt32Bytes(v) == GetBytes(PushInt32(New(0), v))
  {
    var bits := ToBits(v, 32);
    assert New(0) == [];
    assert PushInt32(New(0), v) == bits;
    PadAligned(bits);
    GetBytesIs(bits, GetInt32Bytes(v));
  }

  // ---------------------------------------------------------------------
  // encodeSet
  // ---------------------------------------------------------------------

  /** One block of `encodeSet`. */
  function EncodeBlock(b: Block): (r: seq<Byte>)
  {
    match b
    case Bitmap(bits) => [0] + GetInt32Bytes(|bits| / 8) + [|bits| % 8] + GetBytes(bits)
    case Skip(n) => [1] + GetInt32Bytes(n)
    case Run(n) => [2] + GetInt32Bytes(n)
  }

  /** `encodeSet($encodingSet)` before the base64 step: the blocks' bytes
      one after another. */
  function EncodeSet(blocks: seq<Block>): (r: seq<Byte>)
    ensures (forall k :: 0 <= k < |blocks| ==> Fits(blocks[k])) ==> ParseSet(r) == Ok(blocks)
  {
    if |blocks| == 0 then []
    else
      ParseFirstBlock(blocks, EncodeSet(blocks[1..]));
      EncodeBlock(blocks[0]) + EncodeSet(blocks[1..])
  }

  /** The packers' 40-bit header, as bytes, is the 32-bit full-byte count
      followed by the remainder-bit count. */
  lemma HeaderBytes(n: nat)
    ensures GetBytes(Header(n)) == GetInt32Bytes(n / 8) + [n % 8]
  {
    var head := GetInt32Bytes(n / 8) + [n % 8];
    BytesToBitsAppend(GetInt32Bytes(n / 8), [n % 8]);
    assert BytesToBits([n % 8]) == ToBits(n % 8, 8);
    PadAligned(Header(n));
    GetBytesIs(Header(n), head);
  }

  /** A bitmap block is control byte 0 followed by exactly the frame the
      attribute packers write: the 40-bit length header, then the bits. */
  lemma BitmapBlockIsFrame(bits: Bits)
    ensures EncodeBlock(Bitmap(bits)) == [0] + Frame(bits)
  {
    HeaderBytes(|bits|);
    GetBytesAligned(Header(|bits|), bits);
  }

  // ---------------------------------------------------------------------
  // The reader
  // ---------------------------------------------------------------------

  function Prepend(b: Block, r: Result<seq<Block>>): Result<seq<Block>>
  {
    match r
    case Ok(blocks) => Ok([b] + blocks)
    case Err(e) => Err(e)
  }

  /** The whole bytes that hold n bits. */
  function PaddedBytes(n: nat): (k: nat)
    ensures n <= 8 * k < n + 8
  {
    (n + 7) / 8
  }

  /** The derived reader of one block at the front of the bytes: the block
      and how many bytes it took, or none when the bytes do not hold a
      whole block. */
  function ReadBlock(bytes: seq<Byte>): (r: Option<(Block, nat)>)
    requires |bytes| > 0
    ensures r.Some? ==> 0 < r.value.1 <= |bytes|
  {
    if bytes[0] == 0 then
      if |bytes| < 6 || bytes[5] >= 8 then None
      else
        var n := ReadInt32(bytes[1..5]) * 8 + bytes[5];
        var end := 6 + PaddedBytes(n);
        if |bytes| < end then None
        else Some((Bitmap(BytesToBits(bytes[6..end])[..n]), end))
    else if bytes[0] == 1 || bytes[0] == 2 then
      if |bytes| < 5 then None
      else
        var n := ReadInt32(bytes[1..5]);
        Some((if bytes[0] == 1 then Skip(n) else Run(n), 5))
    else None
  }

  /** The derived reader of the byte form: block after block until the
      bytes run out. */
  function ParseSet(bytes: seq<Byte>): Result<seq<Block>>
    decreases |bytes|
  {
    if |bytes| == 0 then Ok([])
    else
      match ReadBlock(bytes)
      case None => Err(Malformed)
      case Some((b, used)) => Prepend(b, ParseSet(bytes[used..]))
  }

  /** A block whose lengths fit the 32-bit fields. */
  predicate Fits(b: Block)
  {
    match b
    case Bitmap(bits) => |bits| / 8 < Pow2(32)
    case Skip(n) => n < Pow2(32)
    case Run(n) => n < Pow2(32)
  }

  lemma SmallMod(n: nat)
    requires n < Pow2(32)
    ensures n % Pow2(32) == n
  {
    DivModUnique(n, Pow2(32), 0, n);
  }

  /** Where the fields of an encoded bitmap block lie. */
  lemma BitmapFields(bits: Bits, rest: seq<Byte>)
    ensures var bytes := EncodeBlock(Bitmap(bits)) + rest;
            var m := |GetBytes(bits)|;
            |bytes| == 6 + m + |rest| && bytes[0] == 0 &&
            bytes[1..5] == GetInt32Bytes(|bits| / 8) && bytes[5] == |bits| % 8 &&
            bytes[6..6 + m] == GetBytes(bits) && bytes[6 + m..] == rest
  {
    var g := GetInt32Bytes(|bits| / 8);
    var gb := GetBytes(bits);
    var bytes := [0] + g + [|bits| % 8] + gb + rest;
    assert EncodeBlock(Bitmap(bits)) + rest == bytes;
    assert bytes[1..5] == g;
    assert bytes[6..6 + |gb|] == gb;
    assert bytes[6 + |gb|..] == rest;
  }

  lemma ReadBitmap(bits: Bits, rest: seq<Byte>)
    requires |bits| / 8 < Pow2(32)
    ensures var bytes := EncodeBlock(Bitmap(bits)) + rest;
            |bytes| > 0 && ReadBlock(bytes) == Some((Bitmap(bits), |EncodeBlock(Bitmap(bits))|))
  {
    var n := |bits|;
    var bytes := EncodeBlock(Bitmap(bits)) + rest;
    BitmapFields(bits, rest);
    SmallMod(n / 8);
    var gb := GetBytes(bits);
    var m := |gb|;
    assert ReadInt32(bytes[1..5]) == n / 8;
    assert ReadInt32(bytes[1..5]) * 8 + bytes[5] == n;
    assert 6 + PaddedBytes(n) == 6 + m;
    assert bytes[6..6 + m] == gb;
    assert BytesToBits(gb)[..n] == bits;
  }

  lemma ReadCounted(b: Block, rest: seq<Byte>)
    requires b.Skip? || b.Run?
    requires Fits(b)
    ensures var bytes := EncodeBlock(b) + rest;
            |bytes| > 0 && ReadBlock(bytes) == Some((b, |EncodeBlock(b)|))
  {
    var g := GetInt32Bytes(b.length);
    var bytes := [if b.Skip? then 1 else 2] + g + rest;
    assert EncodeBlock(b) + rest == bytes;
    assert bytes[1..5] == g;
    SmallMod(b.length);
  }

  /** Reading one encoded block in front of more bytes gives the block,
      then whatever the rest reads as. */
  lemma ParseBlock(b: Block, rest: seq<Byte>)
    requires Fits(b)
    ensures ParseSet(EncodeBlock(b) + rest) == Prepend(b, ParseSet(rest))
  {
    var bytes := EncodeBlock(b) + rest;
    if b.Bitmap? {
      ReadBitmap(b.bits, rest);
    } else {
      ReadCounted(b, rest);
    }
    assert bytes[|EncodeBlock(b)|..] == rest;
  }

  /** The step of the byte form's round trip: when the rest reads back as
      the later blocks, the first block in front of it reads back too. */
  lemma ParseFirstBlock(blocks: seq<Block>, rest: seq<Byte>)
    requires |blocks| > 0
    ensures Fits(blocks[0]) && ParseSet(rest) == Ok(blocks[1..]) ==>
              ParseSet(EncodeBlock(blocks[0]) + rest) == Ok(blocks)
  {
    if Fits(blocks[0]) {
      ParseBlock(blocks[0], rest);
      assert [blocks[0]] + blocks[1..] == blocks;
    }
  }

  // ---------------------------------------------------------------------
  // packExistence
  // ---------------------------------------------------------------------

  lemma {:induction false} WidthWithinSpan(blocks: seq<Block>, k: nat)
    requires k < |blocks|
    ensures Width(blocks[k]) <= Span(blocks)
  {
    var m := |blocks| - 1;
    if k < m {
      WidthWithinSpan(blocks[..m], k);
      assert blocks[..m][k] == blocks[k];
    }
  }

  /** The blocks of sorted guids below 2^32 - 1 mark exactly those guids,
      and every length in them fits its 32-bit field. */
  lemma PackExistenceBlocksFit(guids: seq<int>)
    ensures SortedGuids(guids) && (forall i :: 0 <= i < |guids| ==> guids[i] + 1 < Pow2(32)) ==>
              DecodeSet(PackExistenceBlocks(guids)) == guids &&
              forall k :: 0 <= k < |PackExistenceBlocks(guids)| ==> Fits(PackExistenceBlocks(guids)[k])
  {
    if SortedGuids(guids) && (forall i :: 0 <= i < |guids| ==> guids[i] + 1 < Pow2(32)) {
      var blocks := PackExistenceBlocks(guids);
      RoundTrip(guids);
      forall k | 0 <= k < |blocks|
        ensures Fits(blocks[k])
      {
        WidthWithinSpan(blocks, k);
      }
    }
  }

  /** `packExistence($arr)` before the base64 step.  Sorted guids below
      2^32 - 1 come back from the byte form: reading the blocks and then
      the guids they mark gives the input. */
  function PackExistence(guids: seq<int>): (r: seq<Byte>)
    ensures SortedGuids(guids) && (forall i :: 0 <= i < |guids| ==> guids[i] + 1 < Pow2(32)) ==>
              ParseSet(r).Ok? && DecodeSet(ParseSet(r).value) == guids
  {
    PackExistenceBlocksFit(guids);
    EncodeSet(PackExistenceBlocks(guids))
  }
}

=== FILE: inference.dfy ===
/** The first half of `Tamper::pack`: one pass over every field of every
    row that builds, per attribute name, what the packers need to know —
    the possibilities and maxChoices of a tags attribute, the precision and
    observed extremes of a numeric one. */
module Inference {
  import opened Base
  import opened Rows

  // ---------------------------------------------------------------------
  // First-occurrence order
  // ---------------------------------------------------------------------

  /** Where x first occurs in s. */
  function FirstIndex<T(==)>(s: seq<T>, x: T): (r: nat)
    requires x in s
    ensures r < |s| && s[r] == x
    ensures forall k :: 0 <= k < r ==> s[k] != x
  {
    if s[0] == x then 0 else 1 + FirstIndex(s[1..], x)
  }

  /** d lists the distinct items of s, each once, ordered by where they
      first occur in s: what an ordered PHP array keyed by value ends up
      holding after the items of s are inserted in turn. */
  ghost predicate OrderedFirsts<T(!new)>(d: seq<T>, s: seq<T>)
  {
    (forall i, j :: 0 <= i < j < |d| ==> d[i] != d[j]) &&
    (forall x :: x in d <==> x in s) &&
    (forall i, j :: 0 <= i < j < |d| ==> d[i] in s && d[j] in s && FirstIndex(s, d[i]) < FirstIndex(s, d[j]))
  }

  lemma {:induction false} FirstIndexPrefix<T>(s: seq<T>, t: seq<T>, x: T)
    requires x in s
    ensures FirstIndex(s + t, x) == FirstIndex(s, x)
  {
    if s[0] != x {
      assert (s + t)[1..] == s[1..] + t;
      FirstIndexPrefix(s[1..], t, x);
    }
  }

  /** Inserting x keeps the order: a new x goes to the end, a known one
      stays where it is. */
  lemma OrderedFirstsSnoc<T(!new)>(d: seq<T>, s: seq<T>, x: T, d': seq<T>, s': seq<T>)
    requires OrderedFirsts(d, s)
    requires d' == (if x in d then d else d + [x]) && s' == s + [x]
    ensures OrderedFirsts(d', s')
  {
    forall y | y in s
      ensures FirstIndex(s', y) == FirstIndex(s, y)
    {
      FirstIndexPrefix(s, [x], y);
    }
    if x !in d {
      assert x !in s;
      var r := FirstIndex(s', x);
      assert r == |s|;
      forall i, j | 0 <= i < j < |d'|
        ensures d'[i] in s' && d'[j] in s' && FirstIndex(s', d'[i]) < FirstIndex(s', d'[j])
      {
        if j < |d| {
          assert d'[i] == d[i] && d'[j] == d[j];
        } else {
          assert d'[i] == d[i];
        }
      }
    }
  }

  // ---------------------------------------------------------------------
  // One attribute
  // ---------------------------------------------------------------------

  /** An entry of `$attrs`.  A numeric entry is created with null extremes
      and updated by the same value at once, so here its extremes are
      always set. */
  datatype Descriptor =
    | Tags(maxChoices: nat, possibilities: seq<string>)
    | Numeric(precision: nat, min: Number, max: Number)

  /** `$attrs[$k]["possibilities"][$v] = $v` unless already set. */
  function AddPossibility(ps: seq<string>, s: string): seq<string>
  {
    if s in ps then ps else ps + [s]
  }

  /** The `foreach ($v as $choice)` loop. */
  function AddPossibilities(ps: seq<string>, items: seq<string>): seq<string>
  {
    if |items| == 0 then ps
    else AddPossibility(AddPossibilities(ps, items[..|items| - 1]), items[|items| - 1])
  }

  /** The entry a name gets the first time it carries a value: tags with
      maxChoices 1 for a string and 0 for a list; numeric with precision 0
      for an int and the caller's precision for a float. */
  function Fresh(v: Value, precision: nat): Descriptor
    requires !v.Null?
  {
    match v
    case Str(_) => Tags(1, [])
    case List(_) => Tags(0, [])
    case Int(i) => Numeric(0, Number(i, 0), Number(i, 0))
    case Float(x) => Numeric(precision, x, x)
  }

  /** The strict comparisons `min > $v` and `max < $v`. */
  function WidenNumber(d: Descriptor, x: Number): Descriptor
    requires d.Numeric?
  {
    Numeric(d.precision, if NumLt(x, d.min) then x else d.min, if NumLt(d.max, x) then x else d.max)
  }

  /** What one value does to an existing entry.  A value of the other kind
      changes nothing the packers read.  A string raises maxChoices to at
      least 1 (see WidenAsWritten for the source's behaviour). */
  function Widen(d: Descriptor, v: Value): (r: Descriptor)
    ensures r.Tags? <==> d.Tags?
    ensures v.Null? || d.Tags? != v.IsTags() ==> r == d
    ensures d.Tags? && v.IsTags() ==>
              r.maxChoices == Max(d.maxChoices, |Choices(v)|) &&
              r.possibilities == AddPossibilities(d.possibilities, Choices(v))
    ensures d.Numeric? && v.IsNumeric() ==>
              r.precision == d.precision &&
              (r.min == d.min || r.min == AsNumber(v)) && (r.max == d.max || r.max == AsNumber(v)) &&
              NumLe(r.min, d.min) && NumLe(r.min, AsNumber(v)) &&
              NumLe(d.max, r.max) && NumLe(AsNumber(v), r.max)
  {
    match v
    case Null => d
    case Str(s) =>
      assert [s][..0] == [];
      if d.Tags? then Tags(Max(d.maxChoices, 1), AddPossibility(d.possibilities, s)) else d
    case List(items) => if d.Tags? then Tags(Max(d.maxChoices, |items|), AddPossibilities(d.possibilities, items)) else d
    case Int(i) => if d.Numeric? then WidenNumber(d, Number(i, 0)) else d
    case Float(x) => if d.Numeric? then WidenNumber(d, x) else d
  }

  function Max(a: nat, b: nat): nat
  {
    if a < b then b else a
  }

  /** The entry of one attribute after all its values, in order; the
      precision is the caller's for this name. */
  function Describe(vs: seq<Value>, precision: nat): (r: Descriptor)
    requires |vs| > 0 && !vs[0].Null?
    ensures r.Tags? <==> vs[0].IsTags()
    ensures r.Numeric? ==> r.precision == if vs[0].Float? then precision else 0
  {
    if |vs| == 1 then Widen(Fresh(vs[0], precision), vs[0])
    else Widen(Describe(vs[..|vs| - 1], precision), vs[|vs| - 1])
  }

  /** Every choice of the tags values, in order. */
  function AllChoices(vs: seq<Value>): seq<string>
  {
    if |vs| == 0 then []
    else
      var last := vs[|vs| - 1];
      AllChoices(vs[..|vs| - 1]) + (if last.IsTags() then Choices(last) else [])
  }

  /** Adding the items keeps the possibilities in first-occurrence order of
      everything seen so far. */
  lemma {:induction false} AddPossibilitiesOrdered(ps: seq<string>, s: seq<string>, items: seq<string>)
    requires OrderedFirsts(ps, s)
    ensures OrderedFirsts(AddPossibilities(ps, items), s + items)
    decreases |items|
  {
    if |items| > 0 {
      AddPossibilitiesOrdered(ps, s, items[..|items| - 1]);
      AddPossibilityStep(AddPossibilities(ps, items[..|items| - 1]), s + items[..|items| - 1], s, items);
    } else {
      assert s + items == s;
    }
  }

  /** The last item of the loop, with the possibilities before it given. */
  lemma AddPossibilityStep(prev: seq<string>, seen: seq<string>, s: seq<string>, items: seq<string>)
    requires |items| > 0
    requires seen == s + items[..|items| - 1]
    requires OrderedFirsts(prev, seen)
    ensures OrderedFirsts(AddPossibility(prev, items[|items| - 1]), s + items)
  {
    var x := items[|items| - 1];
    assert seen + [x] == s + items;
    OrderedFirstsSnoc(prev, seen, x, AddPossibility(prev, x), s + items);
  }

  /** Widening a tags entry by a tags value adds its choices in order. */
  lemma WidenTags(d: Descriptor, s: seq<string>, v: Value)
    requires d.Tags? && v.IsTags() && OrderedFirsts(d.possibilities, s)
    ensures Widen(d, v).Tags?
    ensures OrderedFirsts(Widen(d, v).possibilities, s + Choices(v))
    ensures Widen(d, v).maxChoices == Max(d.maxChoices, |Choices(v)|)
  {
    if v.Str? {
      OrderedFirstsSnoc(d.possibilities, s, v.s, Widen(d, v).possibilities, s + Choices(v));
    } else {
      AddPossibilitiesOrdered(d.possibilities, s, v.items);
    }
  }

  lemma AllChoicesSnoc(vs: seq<Value>)
    requires |vs| > 0
    ensures AllChoices(vs) == AllChoices(vs[..|vs| - 1]) + (if vs[|vs| - 1].IsTags() then Choices(vs[|vs| - 1]) else [])
  {
  }

  /** One value's step of the possibilities: its choices are inserted in
      order when it is a tags value. */
  lemma PossibilitiesStep(d: Descriptor, s: seq<string>, v: Value)
    requires d.Tags? && OrderedFirsts(d.possibilities, s)
    ensures Widen(d, v).Tags?
    ensures OrderedFirsts(Widen(d, v).possibilities, s + (if v.IsTags() then Choices(v) else []))
  {
    if v.IsTags() {
      WidenTags(d, s, v);
    } else {
      assert s + [] == s;
    }
  }

  /** A tags attribute's possibilities are the distinct choices of its
      values, in the order they first occur. */
  lemma {:induction false} TagsPossibilities(vs: seq<Value>, precision: nat)
    requires |vs| > 0 && vs[0].IsTags()
    ensures Describe(vs, precision).Tags?
    ensures OrderedFirsts(Describe(vs, precision).possibilities, AllChoices(vs))
  {
    var n := |vs| - 1;
    AllChoicesSnoc(vs);
    if n == 0 {
      PossibilitiesStep(Fresh(vs[0], precision), [], vs[0]);
      assert AllChoices(vs) == [] + Choices(vs[0]);
    } else {
      TagsPossibilities(vs[..n], precision);
      PossibilitiesStep(Describe(vs[..n], precision), AllChoices(vs[..n]), vs[n]);
    }
  }

  /** A tags attribute's maxChoices is the largest number of choices any
      one of its values holds: no value holds more, and one holds exactly
      that many. */
  lemma {:induction false} TagsMaxChoices(vs: seq<Value>, precision: nat)
    requires |vs| > 0 && vs[0].IsTags()
    ensures Describe(vs, precision).Tags?
    ensures forall i :: 0 <= i < |vs| && vs[i].IsTags() ==> |Choices(vs[i])| <= Describe(vs, precision).maxChoices
    ensures exists i :: 0 <= i < |vs| && vs[i].IsTags() && |Choices(vs[i])| == Describe(vs, precision).maxChoices
  {
    var n := |vs| - 1;
    var last := vs[n];
    var d' := Describe(vs, precision);
    if n == 0 {
      assert vs[0].IsTags() && |Choices(vs[0])| == d'.maxChoices;
    } else {
      var init := vs[..n];
      TagsMaxChoices(init, precision);
      var d := Describe(init, precision);
      assert d' == Widen(d, last);
      var i0 :| 0 <= i0 < n && init[i0].IsTags() && |Choices(init[i0])| == d.maxChoices;
      assert vs[i0] == init[i0];
      assert d'.maxChoices == if last.IsTags() then Max(d.maxChoices, |Choices(last)|) else d.maxChoices;
      if last.IsTags() && d.maxChoices < |Choices(last)| {
        assert |Choices(vs[n])| == d'.maxChoices;
      }
      forall i | 0 <= i < |vs| && vs[i].IsTags()
        ensures |Choices(vs[i])| <= d'.maxChoices
      {
        if i < n {
          assert vs[i] == init[i];
        }
      }
    }
  }

  /** A numeric attribute's min and max are values it holds, and no value
      it holds lies outside them. */
  lemma {:induction false} NumericDescribed(vs: seq<Value>, precision: nat)
    requires |vs| > 0 && vs[0].IsNumeric()
    ensures Describe(vs, precision).Numeric?
    ensures var d := Describe(vs, precision);
            forall i :: 0 <= i < |vs| && vs[i].IsNumeric() ==> NumLe(d.min, AsNumber(vs[i])) && NumLe(AsNumber(vs[i]), d.max)
    ensures var d := Describe(vs, precision);
            (exists i :: 0 <= i < |vs| && vs[i].IsNumeric() && AsNumber(vs[i]) == d.min) &&
            (exists i :: 0 <= i < |vs| && vs[i].IsNumeric() && AsNumber(vs[i]) == d.max)
  {
    var n := |vs| - 1;
    if n == 0 {
      assert vs[0].IsNumeric() && AsNumber(vs[0]) == Describe(vs, precision).min;
    } else {
      NumericDescribed(vs[..n], precision);
      assert vs == vs[..n] + [vs[n]];
      NumericStep(Describe(vs[..n], precision), vs[..n], vs[n]);
    }
  }

  /** One value's step of NumericDescribed, with the entry before it given. */
  lemma NumericStep(d: Descriptor, init: seq<Value>, last: Value)
    requires d.Numeric?
    requires forall i :: 0 <= i < |init| && init[i].IsNumeric() ==> NumLe(d.min, AsNumber(init[i])) && NumLe(AsNumber(init[i]), d.max)
    requires (exists i :: 0 <= i < |init| && init[i].IsNumeric() && AsNumber(init[i]) == d.min) &&
             (exists i :: 0 <= i < |init| && init[i].IsNumeric() && AsNumber(init[i]) == d.max)
    ensures Widen(d, last).Numeric?
    ensures var d' := Widen(d, last);
            var vs := init + [last];
            forall i :: 0 <= i < |vs| && vs[i].IsNumeric() ==> NumLe(d'.min, AsNumber(vs[i])) && NumLe(AsNumber(vs[i]), d'.max)
    ensures var d' := Widen(d, last);
            var vs := init + [last];
            (exists i :: 0 <= i < |vs| && vs[i].IsNumeric() && AsNumber(vs[i]) == d'.min) &&
            (exists i :: 0 <= i < |vs| && vs[i].IsNumeric() && AsNumber(vs[i]) == d'.max)
  {
    var vs := init + [last];
    var n := |init|;
    var d' := Widen(d, last);
    var lo :| 0 <= lo < n && init[lo].IsNumeric() && AsNumber(init[lo]) == d.min;
    var hi :| 0 <= hi < n && init[hi].IsNumeric() && AsNumber(init[hi]) == d.max;
    assert vs[lo] == init[lo] && vs[hi] == init[hi];
    if last.IsNumeric() {
      var x := AsNumber(last);
      assert d' == WidenNumber(d, x);
      forall i | 0 <= i < |vs| && vs[i].IsNumeric()
        ensures NumLe(d'.min, AsNumber(vs[i])) && NumLe(AsNumber(vs[i]), d'.max)
      {
        if i < n {
          assert vs[i] == init[i];
          if NumLt(x, d.min) {
            NumLeTrans(x, d.min, AsNumber(vs[i]));
          }
          if NumLt(d.max, x) {
            NumLeTrans(AsNumber(vs[i]), d.max, x);
          }
        }
      }
      assert vs[n] == last;
    } else {
      forall i | 0 <= i < |vs| && vs[i].IsNumeric()
        ensures NumLe(d'.min, AsNumber(vs[i])) && NumLe(AsNumber(vs[i]), d'.max)
      {
        assert i < n && vs[i] == init[i];
      }
    }
  }

  // ---------------------------------------------------------------------
  // The finding: a string does not raise maxChoices
  // ---------------------------------------------------------------------

  /** The source's update of an entry: a string adds its possibility but
      leaves maxChoices as it is, so an entry opened by an empty list stays
      at 0 when strings follow. */
  function WidenAsWritten(d: Descriptor, v: Value): (r: Descriptor)
    ensures !(d.Tags? && v.Str?) ==> r == Widen(d, v)
    ensures d.Tags? && v.Str? ==> r == Tags(d.maxChoices, Widen(d, v).possibilities)
  {
    if v.Str? && d.Tags? then Tags(d.maxChoices, AddPossibility(d.possibilities, v.s))
    else Widen(d, v)
  }

  /** The source's entry of one attribute: it differs from the corrected
      one only in a maxChoices that may be lower. */
  function DescribeAsWritten(vs: seq<Value>, precision: nat): (r: Descriptor)
    requires |vs| > 0 && !vs[0].Null?
    ensures r.Tags? <==> Describe(vs, precision).Tags?
    ensures r.Numeric? ==> r == Describe(vs, precision)
    ensures r.Tags? ==> r.possibilities == Describe(vs, precision).possibilities &&
                        r.maxChoices <= Describe(vs, precision).maxChoices
  {
    if |vs| == 1 then WidenAsWritten(Fresh(vs[0], precision), vs[0])
    else WidenAsWritten(DescribeAsWritten(vs[..|vs| - 1], precision), vs[|vs| - 1])
  }

  /** An empty list and then the string "a": the source records one
      possibility and maxChoices 0, although a value with one choice was
      seen; the corrected update records maxChoices 1. */
  lemma StringAfterEmptyList()
    ensures DescribeAsWritten([List([]), Str("a")], 0) == Tags(0, ["a"])
    ensures Describe([List([]), Str("a")], 0) == Tags(1, ["a"])
  {
    assert [List([]), Str("a")][..1] == [List([])];
  }

  // ---------------------------------------------------------------------
  // All attributes
  // ---------------------------------------------------------------------

  /** `$attrs`: names in insertion order and the entry of each. */
  datatype Attrs = Attrs(order: seq<string>, desc: map<string, Descriptor>)

  /** `isset($numericTagsPrecision[$k]) ? … : 0`. */
  function PrecisionOf(precisions: map<string, nat>, name: string): nat
  {
    if name in precisions then precisions[name] else 0
  }

  /** Fields the scan looks at: not the guid, and not null (a null value
      matches none of the `is_*` tests). */
  predicate Counts(f: Field)
  {
    f.0 != "guid" && !f.1.Null?
  }

  /** One iteration of the inner `foreach ($item as $k => $v)`. */
  function InferField(a: Attrs, f: Field, precisions: map<string, nat>): Attrs
  {
    if !Counts(f) then a
    else if f.0 in a.desc then a.(desc := a.desc[f.0 := Widen(a.desc[f.0], f.1)])
    else Attrs(a.order + [f.0], a.desc[f.0 := Widen(Fresh(f.1, PrecisionOf(precisions, f.0)), f.1)])
  }

  /** The scan over a stream of fields. */
  function InferStream(fs: seq<Field>, precisions: map<string, nat>): Attrs
  {
    if |fs| == 0 then Attrs([], map[])
    else InferField(InferStream(fs[..|fs| - 1], precisions), fs[|fs| - 1], precisions)
  }

  /** Every field of every row, row after row. */
  function Stream(rows: seq<Row>): seq<Field>
  {
    if |rows| == 0 then [] else Stream(rows[..|rows| - 1]) + rows[|rows| - 1].fields
  }

  /** The inference pass of `pack`: one entry per name that carries a
      value, names distinct and in the order they first do (what each
      entry holds is InferProjects). */
  function Infer(rows: seq<Row>, precisions: map<string, nat>): (r: Attrs)
    ensures forall name :: name in r.desc <==> name in r.order
    ensures OrderedFirsts(r.order, Names(Stream(rows)))
  {
    InferKeys(Stream(rows), precisions);
    InferOrder(Stream(rows), precisions);
    InferStream(Stream(rows), precisions)
  }

  /** The names of the counted fields, in stream order. */
  function Names(fs: seq<Field>): seq<string>
  {
    if |fs| == 0 then []
    else
      var f := fs[|fs| - 1];
      Names(fs[..|fs| - 1]) + (if Counts(f) then [f.0] else [])
  }

  /** The counted values of one name, in stream order. */
  function ValuesOf(fs: seq<Field>, name: string): (vs: seq<Value>)
    ensures forall i :: 0 <= i < |vs| ==> !vs[i].Null?
  {
    if |fs| == 0 then []
    else
      var f := fs[|fs| - 1];
      ValuesOf(fs[..|fs| - 1], name) + (if f.0 == name && Counts(f) then [f.1] else [])
  }

  /** One field adds its name at the end when the name is new, and
      touches no other name's entry. */
  lemma InferFieldShape(a: Attrs, f: Field, precisions: map<string, nat>)
    ensures var r := InferField(a, f, precisions);
            r.order == (if Counts(f) && f.0 !in a.desc then a.order + [f.0] else a.order) &&
            (forall name :: name in r.desc <==> name in a.desc || (Counts(f) && name == f.0)) &&
            (forall name :: name in a.desc && name != f.0 ==> r.desc[name] == a.desc[name])
  {
  }

  lemma NamesSnoc(fs: seq<Field>)
    requires |fs| > 0
    ensures Names(fs) == Names(fs[..|fs| - 1]) + (if Counts(fs[|fs| - 1]) then [fs[|fs| - 1].0] else [])
  {
  }

  /** The entries are exactly the names in the order. */
  lemma {:induction false} InferKeys(fs: seq<Field>, precisions: map<string, nat>)
    ensures forall name :: name in InferStream(fs, precisions).desc <==> name in InferStream(fs, precisions).order
  {
    if |fs| > 0 {
      var n := |fs| - 1;
      InferKeys(fs[..n], precisions);
      InferFieldShape(InferStream(fs[..n], precisions), fs[n], precisions);
    }
  }

  /** One field's step of the order: its name is inserted when it counts. */
  lemma OrderStep(a: Attrs, f: Field, precisions: map<string, nat>, names: seq<string>)
    requires OrderedFirsts(a.order, names)
    requires forall name :: name in a.desc <==> name in a.order
    ensures OrderedFirsts(InferField(a, f, precisions).order, names + (if Counts(f) then [f.0] else []))
  {
    InferFieldShape(a, f, precisions);
    if Counts(f) {
      OrderedFirstsSnoc(a.order, names, f.0, InferField(a, f, precisions).order, names + [f.0]);
    } else {
      assert names + [] == names;
    }
  }

  /** Attribute names come out distinct, in the order they first carry a
      value. */
  lemma {:induction false} InferOrder(fs: seq<Field>, precisions: map<string, nat>)
    ensures OrderedFirsts(InferStream(fs, precisions).order, Names(fs))
  {
    if |fs| > 0 {
      var n := |fs| - 1;
      InferOrder(fs[..n], precisions);
      InferKeys(fs[..n], precisions);
      OrderStep(InferStream(fs[..n], precisions), fs[n], precisions, Names(fs[..n]));
      NamesSnoc(fs);
    }
  }

  lemma ValuesOfSnoc(fs: seq<Field>, name: string)
    requires |fs| > 0
    ensures var f := fs[|fs| - 1];
            ValuesOf(fs, name) == ValuesOf(fs[..|fs| - 1], name) + (if f.0 == name && Counts(f) then [f.1] else [])
  {
  }

  /** Each attribute's entry is what its own values, in order, describe. */
  lemma {:induction false} InferProjects(fs: seq<Field>, precisions: map<string, nat>, name: string)
    ensures name in InferStream(fs, precisions).desc <==> |ValuesOf(fs, name)| > 0
    ensures name in InferStream(fs, precisions).desc ==>
              InferStream(fs, precisions).desc[name] == Describe(ValuesOf(fs, name), PrecisionOf(precisions, name))
  {
    if |fs| > 0 {
      var n := |fs| - 1;
      var f := fs[n];
      InferProjects(fs[..n], precisions, name);
      var a := InferStream(fs[..n], precisions);
      InferFieldShape(a, f, precisions);
      ValuesOfSnoc(fs, name);
      var prev := ValuesOf(fs[..n], name);
      if f.0 == name && Counts(f) {
        var vs := prev + [f.1];
        if |prev| > 0 {
          assert vs[..|vs| - 1] == prev;
        }
      } else {
        assert ValuesOf(fs, name) == prev;
        if !Counts(f) {
          assert InferStream(fs, precisions) == a;
        }
      }
    }
  }

  /** A field of a row is in the stream. */
  lemma {:induction false} StreamHolds(rows: seq<Row>, j: nat, k: nat)
    requires j < |rows| && k < |rows[j].fields|
    ensures rows[j].fields[k] in Stream(rows)
  {
    var n := |rows| - 1;
    if j < n {
      StreamHolds(rows[..n], j, k);
      assert rows[..n][j] == rows[j];
    } else {
      assert Stream(rows)[|Stream(rows[..n])| + k] == rows[j].fields[k];
    }
  }

  /** A counted field's value is among the values of its name. */
  lemma {:induction false} ValuesOfHolds(fs: seq<Field>, k: nat)
    requires k < |fs| && Counts(fs[k])
    ensures fs[k].1 in ValuesOf(fs, fs[k].0)
  {
    var n := |fs| - 1;
    if k < n {
      ValuesOfHolds(fs[..n], k);
      assert fs[..n][k] == fs[k];
    }
  }

  /** Every choice of a tags value of the attribute is a possibility. */
  lemma {:induction false} AllChoicesHolds(vs: seq<Value>, i: nat)
    requires i < |vs| && vs[i].IsTags()
    ensures forall c :: c in Choices(vs[i]) ==> c in AllChoices(vs)
  {
    var n := |vs| - 1;
    if i < n {
      AllChoicesHolds(vs[..n], i);
      assert vs[..n][i] == vs[i];
    }
  }
}

=== FILE: integer_pack.dfy ===
/** IntegerPack.php: each row gets `maxChoices` slots of
    ceil(log2(N + 1)) bits; a slot holds index + 1 of the row's value at that
    position among the N possibilities, or 0 when there is none. */
module IntegerPack {
  import opened Base
  import opened BitSet
  import opened Rows
  import opened PackFormat

  /** `ceil(log(count($possibilities) + 1, 2))`: room for codes 0..N. */
  function BitWindowWidth(n: nat): (w: nat)
    ensures n < Pow2(w)
    ensures w == 0 || Pow2(w - 1) <= n
  {
    CeilLog2(n + 1)
  }

  /** The code of slot i: index + 1 of the row's i-th value when that value
      is a possibility, 0 when the slot is empty or the value unknown. */
  function SlotCode(ps: seq<string>, v: Value, i: nat): (c: nat)
    requires !v.IsNumeric()
    ensures c <= |ps|
    ensures c > 0 <==> i < |Choices(v)| && Choices(v)[i] in ps
    ensures c > 0 ==> ps[c - 1] == Choices(v)[i]
  {
    var vals := Choices(v);
    if i < |vals| then
      match LastIndex(ps, vals[i])
      case Some(k) => k + 1
      case None => 0
    else 0
  }

  /** The slots of one row, each pushed MSB first by the mask loop: cut
      back into slots, slot i reads as the code of the row's i-th value. */
  function RowWindow(ps: seq<string>, maxChoices: nat, v: Value): (bits: Bits)
    requires !v.IsNumeric()
    ensures |bits| == BitWindowWidth(|ps|) * maxChoices
    ensures forall i :: 0 <= i < maxChoices ==>
              FromBits(Split(bits, BitWindowWidth(|ps|), maxChoices)[i]) == SlotCode(ps, v, i)
  {
    var w := BitWindowWidth(|ps|);
    var slots := seq(maxChoices, i requires 0 <= i < maxChoices => ToBits(SlotCode(ps, v, i), w));
    SlotsReadBack(ps, v, slots);
    Flatten(slots)
  }

  /** Every code fits its slot, so each slot reads back as its code. */
  lemma SlotsReadBack(ps: seq<string>, v: Value, slots: seq<Bits>)
    requires !v.IsNumeric()
    requires forall i :: 0 <= i < |slots| ==> slots[i] == ToBits(SlotCode(ps, v, i), BitWindowWidth(|ps|))
    ensures |Flatten(slots)| == BitWindowWidth(|ps|) * |slots|
    ensures forall i :: 0 <= i < |slots| ==>
              FromBits(Split(Flatten(slots), BitWindowWidth(|ps|), |slots|)[i]) == SlotCode(ps, v, i)
  {
    var w := BitWindowWidth(|ps|);
    SplitFlatten(slots, w);
    forall i | 0 <= i < |slots|
      ensures FromBits(slots[i]) == SlotCode(ps, v, i)
    {
      LowBitsOfSmall(SlotCode(ps, v, i), w);
    }
  }

  /** All rows, in input order, after one another. */
  function Payload(name: string, ps: seq<string>, maxChoices: nat, rows: seq<Row>): (bits: Bits)
    requires TagsColumn(rows, name)
    ensures |bits| == BitWindowWidth(|ps|) * maxChoices * |rows|
  {
    var iw := BitWindowWidth(|ps|) * maxChoices;
    var windows := seq(|rows|, j requires 0 <= j < |rows| => RowWindow(ps, maxChoices, Lookup(rows[j].fields, name)));
    FlattenLength(windows, iw);
    Flatten(windows)
  }

  /** `encode($data)`.  With no possibilities the width is 0 and the PHP mask
      loop evaluates `1 << -1`, so a slot may only be pushed when N >= 1;
      the loop handles widths up to 63 bits (see `BitSet.PushVal`). */
  function Encode(name: string, ps: seq<string>, maxChoices: nat, rows: seq<Row>): (r: EncodedAttribute)
    requires TagsColumn(rows, name)
    requires |ps| >= 1 || maxChoices == 0 || |rows| == 0
    requires BitWindowWidth(|ps|) <= 63
    ensures r.TagsAttribute? && r.encoding == IntegerEncoding
    ensures r.attrName == name && r.possibilities == ps && r.maxChoices == maxChoices
    ensures r.bitWindowWidth == BitWindowWidth(|ps|)
    ensures r.itemWindowWidth == r.bitWindowWidth * maxChoices
  {
    var w := BitWindowWidth(|ps|);
    MulNonNegative(w, maxChoices);
    TagsAttribute(name, IntegerEncoding, ps, maxChoices, Frame(Payload(name, ps, maxChoices, rows)), w * maxChoices, w)
  }

  /** The pack holds the 40 header bits and one item window per row,
      rounded up to whole bytes. */
  lemma EncodeLength(name: string, ps: seq<string>, maxChoices: nat, rows: seq<Row>)
    requires TagsColumn(rows, name)
    requires |ps| >= 1 || maxChoices == 0 || |rows| == 0
    requires BitWindowWidth(|ps|) <= 63
    ensures var r := Encode(name, ps, maxChoices, rows);
            |r.pack| == (40 + r.itemWindowWidth * |rows| + 7) / 8
  {
    var payload := Payload(name, ps, maxChoices, rows);
    FrameLength(payload, BitWindowWidth(|ps|) * maxChoices * |rows|);
  }

  /** What a slot code stands for: possibility code-1, or nothing for 0. */
  function CodeValue(ps: seq<string>, code: nat): Option<string>
  {
    if 1 <= code <= |ps| then Some(ps[code - 1]) else None
  }

  /** The slot values of one row window. */
  function DecodeRow(window: Bits, ps: seq<string>, maxChoices: nat): (r: seq<Option<string>>)
    requires |window| == BitWindowWidth(|ps|) * maxChoices
    ensures |r| == maxChoices
  {
    var slots := Split(window, BitWindowWidth(|ps|), maxChoices);
    seq(maxChoices, i requires 0 <= i < maxChoices => CodeValue(ps, FromBits(slots[i])))
  }

  function DecodeRows(payload: Bits, ps: seq<string>, maxChoices: nat, rowCount: nat): (r: seq<seq<Option<string>>>)
    requires |payload| == BitWindowWidth(|ps|) * maxChoices * rowCount
    ensures |r| == rowCount
  {
    var iw := BitWindowWidth(|ps|) * maxChoices;
    var windows := Split(payload, iw, rowCount);
    seq(rowCount, j requires 0 <= j < rowCount => DecodeRow(windows[j], ps, maxChoices))
  }

  /** The derived decoder: the slot values of each of rowCount rows. */
  function Decode(pack: seq<Byte>, ps: seq<string>, maxChoices: nat, rowCount: nat): Result<seq<seq<Option<string>>>>
  {
    match Unpack(pack)
    case Err(e) => Err(e)
    case Ok(payload) =>
      if |payload| != BitWindowWidth(|ps|) * maxChoices * rowCount then Err(Malformed)
      else Ok(DecodeRows(payload, ps, maxChoices, rowCount))
  }

  /** What slot i of a row should carry: its i-th value if that is a
      possibility. */
  function Known(ps: seq<string>, v: Value, i: nat): Option<string>
    requires !v.IsNumeric()
  {
    var vals := Choices(v);
    if i < |vals| && vals[i] in ps then Some(vals[i]) else None
  }

  lemma SlotRoundTrip(ps: seq<string>, v: Value, i: nat)
    requires !v.IsNumeric()
    ensures CodeValue(ps, FromBits(ToBits(SlotCode(ps, v, i), BitWindowWidth(|ps|)))) == Known(ps, v, i)
  {
    LowBitsOfSmall(SlotCode(ps, v, i), BitWindowWidth(|ps|));
  }

  /** One row window decodes to the row's known values, slot by slot. */
  lemma RowRoundTrip(ps: seq<string>, maxChoices: nat, v: Value)
    requires !v.IsNumeric()
    ensures DecodeRow(RowWindow(ps, maxChoices, v), ps, maxChoices)
         == seq(maxChoices, i requires 0 <= i < maxChoices => Known(ps, v, i))
  {
    var w := BitWindowWidth(|ps|);
    var windows := seq(maxChoices, i requires 0 <= i < maxChoices => ToBits(SlotCode(ps, v, i), w));
    SplitFlatten(windows, w);
    forall i | 0 <= i < maxChoices
      ensures CodeValue(ps, FromBits(windows[i])) == Known(ps, v, i)
    {
      SlotRoundTrip(ps, v, i);
    }
  }

  lemma PayloadRoundTrip(name: string, ps: seq<string>, maxChoices: nat, rows: seq<Row>)
    requires TagsColumn(rows, name)
    ensures DecodeRows(Payload(name, ps, maxChoices, rows), ps, maxChoices, |rows|)
         == seq(|rows|, j requires 0 <= j < |rows| =>
              seq(maxChoices, i requires 0 <= i < maxChoices => Known(ps, Lookup(rows[j].fields, name), i)))
  {
    var iw := BitWindowWidth(|ps|) * maxChoices;
    var windows := seq(|rows|, j requires 0 <= j < |rows| => RowWindow(ps, maxChoices, Lookup(rows[j].fields, name)));
    SplitFlatten(windows, iw);
    forall j | 0 <= j < |rows|
      ensures DecodeRow(windows[j], ps, maxChoices)
           == seq(maxChoices, i requires 0 <= i < maxChoices => Known(ps, Lookup(rows[j].fields, name), i))
    {
      RowRoundTrip(ps, maxChoices, Lookup(rows[j].fields, name));
    }
  }

  /** Decoding the encoded pack gives, for every row and slot, the row's
      value at that position when it is a known possibility and nothing
      otherwise: unknown values and rows without the attribute read as
      empty slots, values past maxChoices are dropped. */
  lemma RoundTrip(name: string, ps: seq<string>, maxChoices: nat, rows: seq<Row>)
    requires TagsColumn(rows, name)
    requires |ps| >= 1 || maxChoices == 0 || |rows| == 0
    requires BitWindowWidth(|ps|) <= 63
    requires BitWindowWidth(|ps|) * maxChoices * |rows| / 8 < Pow2(32)
    ensures Decode(Encode(name, ps, maxChoices, rows).pack, ps, maxChoices, |rows|)
         == Ok(seq(|rows|, j requires 0 <= j < |rows| =>
                 seq(maxChoices, i requires 0 <= i < maxChoices => Known(ps, Lookup(rows[j].fields, name), i))))
  {
    var payload := Payload(name, ps, maxChoices, rows);
    UnpackFramed(payload);
    PayloadRoundTrip(name, ps, maxChoices, rows);
  }

  /** With no slots every row reads back empty, whatever it held. */
  lemma NoSlotsReadEmpty(name: string, ps: seq<string>, rows: seq<Row>)
    requires TagsColumn(rows, name)
    requires BitWindowWidth(|ps|) <= 63
    ensures var d := Decode(Encode(name, ps, 0, rows).pack, ps, 0, |rows|);
            d.Ok? && |d.value| == |rows| && forall j :: 0 <= j < |rows| ==> d.value[j] == []
  {
    RoundTrip(name, ps, 0, rows);
  }

  /** A row whose values are all possibilities and fit in the slots reads
      back whole: its values in order, then empty slots. */
  lemma RowRecovered(name: string, ps: seq<string>, maxChoices: nat, rows: seq<Row>, j: nat)
    requires TagsColumn(rows, name)
    requires |ps| >= 1 && BitWindowWidth(|ps|) <= 63
    requires BitWindowWidth(|ps|) * maxChoices * |rows| / 8 < Pow2(32)
    requires j < |rows|
    requires |Choices(Lookup(rows[j].fields, name))| <= maxChoices
    requires forall c :: c in Choices(Lookup(rows[j].fields, name)) ==> c in ps
    ensures var d := Decode(Encode(name, ps, maxChoices, rows).pack, ps, maxChoices, |rows|);
            var vals := Choices(Lookup(rows[j].fields, name));
            d.Ok? && |d.value| == |rows| && |d.value[j]| == maxChoices &&
            forall i :: 0 <= i < maxChoices ==> d.value[j][i] == if i < |vals| then Some(vals[i]) else None
  {
    RoundTrip(name, ps, maxChoices, rows);
    var v := Lookup(rows[j].fields, name);
    var row := Decode(Encode(name, ps, maxChoices, rows).pack, ps, maxChoices, |rows|).value[j];
    assert row == seq(maxChoices, i requires 0 <= i < maxChoices => Known(ps, v, i));
    forall i | 0 <= i < maxChoices
      ensures row[i] == if i < |Choices(v)| then Some(Choices(v)[i]) else None
    {
      assert row[i] == Known(ps, v, i);
    }
  }
}

=== FILE: numeric_pack.dfy ===
/** NumericPack.php: each row gets one window holding its value scaled by
    10^precision, rounded, shifted so that `min` becomes 1; 0 marks a row
    without a value. */
module NumericPack {
  import opened Base
  import opened BitSet
  import opened Rows
  import opened PackFormat

  /** The `$options` array: each entry may be absent. */
  datatype Options = Options(precision: Option<nat>, min: Option<Number>, max: Option<Number>)

  /** Precision defaults to 0 (whole numbers). */
  function Precision(o: Options): nat
  {
    if o.precision.Some? then o.precision.value else 0
  }

  /** The minimum defaults to 0. */
  function MinOf(o: Options): Number
  {
    if o.min.Some? then o.min.value else Number(0, 0)
  }

  /** `$delta`: the minimum scaled by 10^precision and rounded to the
      nearest integer, halves away from zero. */
  function Delta(o: Options): (r: int)
    ensures var m := MinOf(o);
            2 * Abs(m.mantissa * Pow10(Precision(o)) - r * Pow10(m.scale)) <= Pow10(m.scale)
    ensures var m := MinOf(o);
            2 * Abs(m.mantissa * Pow10(Precision(o)) - r * Pow10(m.scale)) == Pow10(m.scale) ==>
              Abs(r * Pow10(m.scale)) > Abs(m.mantissa * Pow10(Precision(o)))
  {
    ScaleRound(MinOf(o), Precision(o))
  }

  /** `$maxMultiplied`: the code of the maximum, i.e. how many codes 1.. the
      values from min to max use; at least one when min <= max. */
  function Span(o: Options): (r: int)
    requires o.max.Some?
    ensures r == Code(o, Float(o.max.value))
    ensures NumLe(MinOf(o), o.max.value) ==> r >= 1
  {
    MinBelowMax(o);
    ScaleRound(o.max.value, Precision(o)) - Delta(o) + 1
  }

  lemma MinBelowMax(o: Options)
    requires o.max.Some?
    ensures NumLe(MinOf(o), o.max.value) ==> ScaleRound(MinOf(o), Precision(o)) <= ScaleRound(o.max.value, Precision(o))
  {
    if NumLe(MinOf(o), o.max.value) {
      ScaleRoundMonotone(MinOf(o), o.max.value, Precision(o));
    }
  }

  /** `ceil(log($maxMultiplied + 1, 2))`: room for codes 0..Span. */
  function Width(o: Options): (w: nat)
    requires o.max.Some? && Span(o) >= 1
    ensures Span(o) < Pow2(w) && Pow2(w - 1) <= Span(o)
    ensures w >= 1
  {
    var span := Span(o);
    CeilLog2(span + 1)
  }

  /** The options the source can encode with: the maximum, when given, lies
      at or above the minimum after scaling, and the width fits the mask
      loop. */
  ghost predicate Encodable(o: Options)
  {
    o.max.Some? ==> Span(o) >= 1 && Width(o) <= 63
  }

  /** `$val` of one row: 0 when the attribute is unset or null, otherwise
      the scaled, rounded value minus delta plus one. */
  function Code(o: Options, v: Value): (c: int)
    requires !v.IsTags()
    ensures v.Null? ==> c == 0
    ensures !v.Null? ==> c - 1 + Delta(o) == ScaleRound(AsNumber(v), Precision(o))
    ensures !v.Null? && NumLe(MinOf(o), AsNumber(v)) ==> c >= 1
    ensures !v.Null? && o.max.Some? && NumLe(AsNumber(v), o.max.value) ==>
              c <= ScaleRound(o.max.value, Precision(o)) - Delta(o) + 1
  {
    if v.Null? then 0
    else
      CodeBounds(o, AsNumber(v));
      ScaleRound(AsNumber(v), Precision(o)) - Delta(o) + 1
  }

  /** A value at or above the minimum never gets the missing-value code 0,
      and one at or below the maximum gets at most the maximum's code. */
  lemma CodeBounds(o: Options, x: Number)
    ensures NumLe(MinOf(o), x) ==> Delta(o) <= ScaleRound(x, Precision(o))
    ensures o.max.Some? && NumLe(x, o.max.value) ==> ScaleRound(x, Precision(o)) <= ScaleRound(o.max.value, Precision(o))
  {
    if NumLe(MinOf(o), x) {
      ScaleRoundMonotone(MinOf(o), x, Precision(o));
    }
    if o.max.Some? && NumLe(x, o.max.value) {
      ScaleRoundMonotone(x, o.max.value, Precision(o));
    }
  }

  /** The window of each row in turn: the low `w` bits of its code, as the
      mask loop pushes them (a code outside 0..2^w-1 is cut to those bits). */
  function Payload(name: string, o: Options, w: nat, rows: seq<Row>): (bits: Bits)
    requires NumericColumn(rows, name)
    ensures |bits| == w * |rows|
  {
    var windows := seq(|rows|, j requires 0 <= j < |rows| => ToBits(Code(o, Lookup(rows[j].fields, name)), w));
    FlattenLength(windows, w);
    Flatten(windows)
  }

  /** `encode($data, $options)`: fails without a maximum; otherwise the
      header for Width * rows bits followed by every row's window. */
  function Encode(name: string, o: Options, rows: seq<Row>): (r: Result<EncodedAttribute>)
    requires NumericColumn(rows, name)
    requires Encodable(o)
    ensures r.Err? <==> o.max.None?
    ensures r.Err? ==> r.error == MissingMax
    ensures r.Ok? ==> r.value.NumericAttribute? && r.value.attrName == name
    ensures r.Ok? ==> r.value.precision == Precision(o) && r.value.min == MinOf(o) && r.value.max == o.max.value
    ensures r.Ok? ==> r.value.delta == ScaleRound(MinOf(o), Precision(o))
    ensures r.Ok? ==> r.value.itemWindowWidth == Width(o) <= 63
  {
    if o.max.None? then Err(MissingMax)
    else
      var w := Width(o);
      Ok(NumericAttribute(name, Frame(Payload(name, o, w, rows)), w, Precision(o), Delta(o), MinOf(o), o.max.value))
  }

  /** The pack holds the 40 header bits and one window per row, rounded up
      to whole bytes. */
  lemma EncodeLength(name: string, o: Options, rows: seq<Row>)
    requires NumericColumn(rows, name)
    requires Encodable(o) && o.max.Some?
    ensures var a := Encode(name, o, rows).value;
            |a.pack| == (40 + a.itemWindowWidth * |rows| + 7) / 8
  {
    FrameLength(Payload(name, o, Width(o), rows), Width(o) * |rows|);
  }

  /** The derived decoder: the window of each of rowCount rows, as a number. */
  function Decode(pack: seq<Byte>, w: nat, rowCount: nat): Result<seq<nat>>
  {
    match Unpack(pack)
    case Err(e) => Err(e)
    case Ok(payload) =>
      if |payload| != w * rowCount then Err(Malformed)
      else
        var windows := Split(payload, w, rowCount);
        Ok(seq(rowCount, j requires 0 <= j < rowCount => FromBits(windows[j])))
  }

  /** What a reader makes of a code: no value for 0, otherwise the scaled
      value code - 1 + delta. */
  function Restore(code: nat, delta: int): Option<int>
  {
    if code == 0 then None else Some(code - 1 + delta)
  }

  /** Each window of the payload reads back as its row's code reduced to
      the window width. */
  lemma PayloadRoundTrip(name: string, o: Options, w: nat, rows: seq<Row>)
    requires NumericColumn(rows, name)
    ensures var windows := Split(Payload(name, o, w, rows), w, |rows|);
            forall j :: 0 <= j < |rows| ==> FromBits(windows[j]) == Code(o, Lookup(rows[j].fields, name)) % Pow2(w)
  {
    var windows := seq(|rows|, j requires 0 <= j < |rows| => ToBits(Code(o, Lookup(rows[j].fields, name)), w));
    SplitFlatten(windows, w);
    forall j | 0 <= j < |rows|
      ensures FromBits(windows[j]) == Code(o, Lookup(rows[j].fields, name)) % Pow2(w)
    {
      FromToBits(Code(o, Lookup(rows[j].fields, name)), w);
    }
  }

  /** Decoding gives back every row's code reduced to the window width. */
  lemma RoundTrip(name: string, o: Options, rows: seq<Row>)
    requires NumericColumn(rows, name)
    requires Encodable(o) && o.max.Some?
    requires Width(o) * |rows| / 8 < Pow2(32)
    ensures var a := Encode(name, o, rows).value;
            var d := Decode(a.pack, a.itemWindowWidth, |rows|);
            d.Ok? && |d.value| == |rows| &&
            forall j :: 0 <= j < |rows| ==> d.value[j] == Code(o, Lookup(rows[j].fields, name)) % Pow2(a.itemWindowWidth)
  {
    var payload := Payload(name, o, Width(o), rows);
    UnpackFramed(payload);
    PayloadRoundTrip(name, o, Width(o), rows);
  }

  /** A value between min and max gets a code in 1..Span, so its window
      holds it without loss. */
  lemma CodeInRange(o: Options, v: Value)
    requires o.max.Some? && Span(o) >= 1 && v.IsNumeric()
    requires NumLe(MinOf(o), AsNumber(v)) && NumLe(AsNumber(v), o.max.value)
    ensures 1 <= Code(o, v) <= Span(o) < Pow2(Width(o))
  {
    ScaleRoundMonotone(MinOf(o), AsNumber(v), Precision(o));
    ScaleRoundMonotone(AsNumber(v), o.max.value, Precision(o));
  }

  /** A row's code, cut to the window, restores to the row's scaled value,
      or to none for a row without a value. */
  lemma RestoreSmall(c: int, p: int, delta: int, target: int)
    requires 0 <= c < p && (c == 0 || c - 1 + delta == target)
    ensures Restore(c % p, delta) == if c == 0 then None else Some(target)
  {
    ModSmall(c, p);
  }

  lemma CodeRestored(o: Options, v: Value)
    requires o.max.Some? && Span(o) >= 1 && !v.IsTags()
    requires v.IsNumeric() ==> NumLe(MinOf(o), AsNumber(v)) && NumLe(AsNumber(v), o.max.value)
    ensures Restore(Code(o, v) % Pow2(Width(o)), Delta(o))
         == if v.Null? then None else Some(ScaleRound(AsNumber(v), Precision(o)))
  {
    if v.IsNumeric() {
      CodeInRange(o, v);
    }
    RestoreSmall(Code(o, v), Pow2(Width(o)), Delta(o), if v.Null? then 0 else ScaleRound(AsNumber(v), Precision(o)));
  }

  /** Every row whose value lies in [min, max] decodes to that value scaled
      and rounded, and every row without a value decodes to none. */
  lemma ValuesRecovered(name: string, o: Options, rows: seq<Row>, j: nat)
    requires NumericColumn(rows, name)
    requires Encodable(o) && o.max.Some?
    requires Width(o) * |rows| / 8 < Pow2(32)
    requires j < |rows|
    requires var v := Lookup(rows[j].fields, name);
             v.IsNumeric() ==> NumLe(MinOf(o), AsNumber(v)) && NumLe(AsNumber(v), o.max.value)
    ensures var a := Encode(name, o, rows).value;
            var d := Decode(a.pack, a.itemWindowWidth, |rows|);
            var v := Lookup(rows[j].fields, name);
            d.Ok? && |d.value| == |rows| &&
            Restore(d.value[j], a.delta) == (if v.Null? then None else Some(ScaleRound(AsNumber(v), a.precision)))
  {
    RoundTrip(name, o, rows);
    CodeRestored(o, Lookup(rows[j].fields, name));
  }

  /** Nothing guards the range: with max 2 the window is 2 bits wide, and a
      row holding 3 gets code 4, which the window cuts to 0, the code of a
      missing value. */
  lemma AboveMaxReadsAsMissing()
    ensures var o := Options(None, None, Some(Number(2, 0)));
            Span(o) == 3 && Width(o) == 2 &&
            Code(o, Int(3)) == 4 && Restore(Code(o, Int(3)) % Pow2(Width(o)), Delta(o)) == None
  {
    var o := Options(None, None, Some(Number(2, 0)));
    assert Span(o) == 3;
    assert Pow2(2) == 4;
  }
}

=== FILE: pack_format.dfy ===
/** What the three attribute packers share: the 5-byte length header in
    front of every payload, the result record, and the possibility lookup
    through `array_flip`. */
module PackFormat {
  import opened Base
  import opened BitSet
  import opened Rows

  datatype Encoding = BitmapEncoding | IntegerEncoding | NumericEncoding

  /** The array each packer's `encode` returns, with `pack` as raw bytes
      (the base64 text wrapping is not modelled). */
  datatype EncodedAttribute =
    | TagsAttribute(attrName: string, encoding: Encoding, possibilities: seq<string>,
                    maxChoices: nat, pack: seq<Byte>, itemWindowWidth: nat, bitWindowWidth: nat)
    | NumericAttribute(attrName: string, pack: seq<Byte>, itemWindowWidth: nat,
                       precision: nat, delta: int, min: Number, max: Number)

  /** The 40-bit length header: the full-byte count of the payload reduced
      to 32 bits, then the count of remaining bits in one byte. */
  function Header(dataBits: nat): (h: Bits)
    ensures |h| == 40
  {
    ToBits(dataBits / 8, 32) + ToBits(dataBits % 8, 8)
  }

  /** The header is what `pushInt32(floor(dataBits / 8))` then
      `pushByte(dataBits % 8)` leave on a fresh BitSet. */
  lemma HeaderPushes(dataBits: nat)
    ensures Header(dataBits) == PushByte(PushInt32(New(0), dataBits / 8), dataBits % 8)
  {
    var empty := New(0);
    assert empty == [];
    var count := PushInt32(empty, dataBits / 8);
    assert count == ToBits(dataBits / 8, 32);
  }

  /** The header reads back as the two counts it was built from. */
  lemma HeaderFields(dataBits: nat)
    ensures FromBits(Header(dataBits)[..32]) == (dataBits / 8) % Pow2(32)
    ensures FromBits(Header(dataBits)[32..]) == dataBits % 8
  {
    var h := Header(dataBits);
    assert h[..32] == ToBits(dataBits / 8, 32);
    FromToBits(dataBits / 8, 32);
    assert h[32..] == ToBits(dataBits % 8, 8);
    LowBitsOfSmall(dataBits % 8, 8);
  }

  /** The derived reader for a packed attribute: the header's bit count,
      then exactly that many payload bits. */
  function Unpack(pack: seq<Byte>): (r: Result<Bits>)
  {
    var bits := BytesToBits(pack);
    if |bits| < 40 then Err(Malformed)
    else
      var n := FromBits(bits[..32]) * 8 + FromBits(bits[32..40]);
      if |bits| < 40 + n then Err(Malformed) else Ok(bits[40..40 + n])
  }

  lemma SliceOfPrefix(a: Bits, b: Bits, i: nat, j: nat)
    requires |b| <= |a| && a[..|b|] == b && i <= j <= |b|
    ensures a[i..j] == b[i..j]
  {
    assert forall k :: i <= k < j ==> a[k] == a[..|b|][k];
  }

  lemma UnpackAny(h: Bits, payload: Bits)
    requires |h| == 40
    requires FromBits(h[..32]) * 8 + FromBits(h[32..]) == |payload|
    ensures Unpack(GetBytes(h + payload)) == Ok(payload)
  {
    var n := |payload|;
    var framed := h + payload;
    var bits := BytesToBits(GetBytes(framed));
    assert bits == PadToBytes(framed);
    SliceOfPrefix(bits, framed, 0, 32);
    SliceOfPrefix(bits, framed, 32, 40);
    SliceOfPrefix(bits, framed, 40, 40 + n);
    assert framed[..32] == h[..32];
    assert framed[32..40] == h[32..];
    assert framed[40..40 + n] == payload;
  }

  /** A header read back gives the bit count it was built from. */
  lemma HeaderCount(n: nat)
    requires n / 8 < Pow2(32)
    ensures FromBits(Header(n)[..32]) * 8 + FromBits(Header(n)[32..]) == n
  {
    var h := Header(n);
    HeaderFields(n);
    DivModUnique(n / 8, Pow2(32), 0, n / 8);
    assert FromBits(h[..32]) == n / 8;
  }

  /** The bytes a packer stores: the header for the payload's bit count,
      then the payload, zero-padded to whole bytes by `getBytes`. */
  function Frame(payload: Bits): seq<Byte>
  {
    GetBytes(Header(|payload|) + payload)
  }

  /** The frame length for a payload of a known bit count n. */
  lemma FrameLength(payload: Bits, n: nat)
    requires |payload| == n
    ensures |Frame(payload)| == (40 + n + 7) / 8
  {
  }

  /** Reading the bytes of header + payload gives the payload back, as long
      as its full-byte count fits the 32-bit header field. */
  lemma UnpackFramed(payload: Bits)
    requires |payload| / 8 < Pow2(32)
    ensures Unpack(Frame(payload)) == Ok(payload)
  {
    HeaderCount(|payload|);
    UnpackAny(Header(|payload|), payload);
  }

  /** `array_flip($possibilities)[$v]`: the LAST index holding v, since a
      later duplicate overwrites an earlier key. */
  function LastIndex(ps: seq<string>, v: string): (r: Option<nat>)
    ensures r.Some? ==> r.value < |ps| && ps[r.value] == v
    ensures r.Some? ==> forall k :: r.value < k < |ps| ==> ps[k] != v
    ensures r.None? <==> v !in ps
  {
    if |ps| == 0 then None
    else if ps[|ps| - 1] == v then Some(|ps| - 1)
    else LastIndex(ps[..|ps| - 1], v)
  }

  ghost predicate Distinct<T>(xs: seq<T>)
  {
    forall i, j :: 0 <= i < j < |xs| ==> xs[i] != xs[j]
  }

  /** With distinct possibilities the flipped lookup is the inverse of indexing. */
  lemma LastIndexOfDistinct(ps: seq<string>, k: nat)
    requires Distinct(ps) && k < |ps|
    ensures LastIndex(ps, ps[k]) == Some(k)
  {
  }
}

=== FILE: raw_bitset.dfy ===
/** The word-backed store behind Bitset.php, kept only to show how the
    class as written departs from its documented behaviour.  The store is
    the concatenation of the `$data` words (each `w` = PHP_INT_SIZE * 8 bits
    wide); `$size` is tracked separately and may fall short of the store, so
    bits left behind by `pop` or a shrink stay in the store. */
module RawBitSet {
  import opened Base
  import opened BitSet

  datatype Raw = Raw(size: int, store: Bits)

  function CeilDiv(n: nat, w: nat): nat
    requires w > 0
  {
    (n + w - 1) / w
  }

  /** A store of whole words that covers at least the current size. */
  ghost predicate Valid(r: Raw, w: nat)
  {
    w > 0 && r.size >= 0 && r.size <= |r.store| && |r.store| % w == 0
  }

  /** No stale 1-bit lies beyond the current size. */
  ghost predicate Clean(r: Raw)
  {
    forall i :: 0 <= r.size <= i < |r.store| ==> !r.store[i]
  }

  /** What `get` reports for every index below `$size`. */
  function View(r: Raw): (v: Bits)
    requires r.size >= 0
    ensures |v| == r.size
  {
    seq(r.size, i requires 0 <= i < r.size => i < |r.store| && r.store[i])
  }

  /** `get($i)` on the store.  Only i > size - 1 is rejected; a negative
      index reads 0 (the mask `1 << (w - 1 - $i % w)` shifts out of the word). */
  function RawGet(r: Raw, i: int): (b: Result<bool>)
    ensures b.Err? <==> i > r.size - 1
    ensures b.Ok? && i < 0 ==> !b.value
  {
    if i > r.size - 1 then Err(OutOfRange)
    else if i < 0 then Ok(false)
    else Ok(i < |r.store| && r.store[i])
  }

  /** `push($bit)`: the bit at index size is written, a fresh zero word is
      added when the store is full. */
  function RawPush(r: Raw, bit: bool, w: nat): (r': Raw)
    requires Valid(r, w)
    ensures Valid(r', w)
    ensures r'.size == r.size + 1
  {
    if r.size < |r.store| then Raw(r.size + 1, r.store[r.size := bit])
    else
      var r' := Raw(r.size + 1, r.store + [bit] + Zeros(w - 1));
      DivAddMultiple(w, 1, |r.store|);
      r'
  }

  /** `pop()` as written: reads get(size - 1), which never fails, and
      decrements the size, leaving the bit in the store. */
  function RawPop(r: Raw): (res: Result<(bool, Raw)>)
    ensures res.Ok?
    ensures res.value.1 == Raw(r.size - 1, r.store)
  {
    match RawGet(r, r.size - 1)
    case Ok(b) => Ok((b, Raw(r.size - 1, r.store)))
    case Err(e) => Err(e)
  }

  /** `setSize($n)`: growing appends zero words after the LAST word of the
      store; shrinking keeps the first ceil(n / w) words.  Every bit that
      stays in the store keeps its value, stale ones included; only the
      appended words are zero. */
  function RawSetSize(r: Raw, n: nat, w: nat): (r': Raw)
    requires w > 0 && r.size >= 0
    ensures r'.size == n
    ensures forall i :: 0 <= i < n && i < r.size ==> View(r')[i] == View(r)[i]
    ensures forall i :: 0 <= i < |r.store| && i < |r'.store| ==> r'.store[i] == r.store[i]
    ensures forall i :: |r.store| <= i < |r'.store| ==> !r'.store[i]
  {
    if n > r.size then
      CeilDivMonotone(r.size, n, w);
      MulNonNegative(w, CeilDiv(n, w) - CeilDiv(r.size, w));
      var extra := w * (CeilDiv(n, w) - CeilDiv(r.size, w));
      StoreKept(r, Raw(n, r.store + Zeros(extra)));
      Raw(n, r.store + Zeros(extra))
    else
      var keep := w * CeilDiv(n, w);
      CeilDivMul(n, w);
      var store := if keep <= |r.store| then r.store[..keep] else r.store;
      StoreKept(r, Raw(n, store));
      Raw(n, store)
  }

  /** A store that begins with the old one's words, or keeps the first n
      bits of it, and is zero after it, shows the same bits below both
      sizes. */
  lemma StoreKept(r: Raw, r': Raw)
    requires r.size >= 0 && r'.size >= 0
    requires r'.size <= |r'.store| || |r.store| <= |r'.store|
    requires forall i :: 0 <= i < |r.store| && i < |r'.store| ==> r'.store[i] == r.store[i]
    requires forall i :: |r.store| <= i < |r'.store| ==> !r'.store[i]
    ensures forall i :: 0 <= i < r'.size && i < r.size ==> View(r')[i] == View(r)[i]
  {
  }

  /** `new BitSet($n)`: an empty store, then setSize. */
  function RawNew(n: nat, w: nat): (r: Raw)
    requires w > 0
    ensures r.size == n
  {
    RawSetSize(Raw(0, []), n, w)
  }

  lemma RawGetView(r: Raw, i: nat)
    requires r.size >= 0
    ensures RawGet(r, i) == Get(View(r), i)
  {
  }

  /** push on the store is push on the visible bits. */
  lemma RawPushView(r: Raw, bit: bool, w: nat)
    requires Valid(r, w)
    ensures View(RawPush(r, bit, w)) == Push(View(r), bit)
  {
    var r' := RawPush(r, bit, w);
    forall i | 0 <= i < r.size
      ensures View(r')[i] == View(r)[i]
    {
    }
  }

  /** pop on a non-empty store is pop on the visible bits. */
  lemma RawPopView(r: Raw)
    requires r.size > 0
    ensures Pop(View(r)) == Ok((RawPop(r).value.0, View(RawPop(r).value.1)))
  {
    var v' := View(RawPop(r).value.1);
    assert v' == View(r)[..r.size - 1];
  }

  lemma CeilDivMul(n: nat, w: nat)
    requires w > 0
    ensures n <= w * CeilDiv(n, w)
  {
    var c := CeilDiv(n, w);
    assert n + w - 1 == w * c + (n + w - 1) % w;
  }

  lemma CeilDivMonotone(a: nat, b: nat, w: nat)
    requires w > 0 && a <= b
    ensures CeilDiv(a, w) <= CeilDiv(b, w)
  {
    var ca: int := CeilDiv(a, w);
    var cb: int := CeilDiv(b, w);
    assert a + w - 1 == w * ca + (a + w - 1) % w;
    assert b + w - 1 == w * cb + (b + w - 1) % w;
    assert w * (ca - cb - 1) == w * ca - w * cb - w;
    MulNonNegative(ca - cb - 1, w);
  }

  /** Without stale bits, setSize on the store is the documented setSize. */
  lemma RawSetSizeClean(r: Raw, n: nat, w: nat)
    requires Valid(r, w) && Clean(r)
    ensures View(RawSetSize(r, n, w)) == SetSize(View(r), n)
  {
    var r' := RawSetSize(r, n, w);
    if n > r.size {
      CeilDivMonotone(r.size, n, w);
      forall i | 0 <= i < n
        ensures View(r')[i] == SetSize(View(r), n)[i]
      {
        if i < |r.store| {
          assert r'.store[i] == r.store[i];
        }
      }
    } else {
      CeilDivMul(n, w);
      assert View(r') == View(r)[..n];
    }
  }

  /** The documented zero-fill fails: push 1, pop, then grow back by one,
      and the old 1 is visible again where setSize promises a 0. */
  lemma StaleBitAfterPop(w: nat)
    requires w > 0
    ensures var r0 := RawNew(0, w);
            var r2 := RawPop(RawPush(r0, true, w)).value.1;
            View(RawSetSize(r2, 1, w)) == [true] && SetSize(View(r2), 1) == [false]
  {
    var r0 := RawNew(0, w);
    assert CeilDiv(0, w) == 0;
    assert r0 == Raw(0, []);
    var r1 := RawPush(r0, true, w);
    assert r1.store[0];
    var r2 := RawPop(r1).value.1;
    var r3 := RawSetSize(r2, 1, w);
    assert r3.store[0];
    assert View(r3) == [true];
  }

  /** pop on an empty set raises nothing: it returns 0 and leaves size -1. */
  lemma PopEmptyAsWritten(w: nat)
    requires w > 0
    ensures RawPop(RawNew(0, w)) == Ok((false, Raw(-1, RawNew(0, w).store)))
    ensures Pop(View(RawNew(0, w))).Err?
  {
    assert CeilDiv(0, w) == 0;
  }
}

=== FILE: rows.dfy ===
/** The rows handed to the codec: a guid plus named attribute values, kept
    in the order PHP's associative arrays keep their keys. */
module Rows {
  import opened Base

  /** A decimal number mantissa / 10^scale.  PHP floats are modelled by the
      exact decimal they are written as. */
  datatype Number = Number(mantissa: int, scale: nat)

  /** An attribute value: null, a single tag, a list of tags, an int or a float. */
  datatype Value =
    | Null
    | Str(s: string)
    | List(items: seq<string>)
    | Int(i: int)
    | Float(x: Number)
  {
    predicate IsTags() { Str? || List? }
    predicate IsNumeric() { Int? || Float? }
  }

  type Field = (string, Value)

  /** A row: its guid and its other fields in insertion order.  A PHP
      array holds each key once; a field list with a repeated name is no
      PHP row (Lookup would read the first, the inference scan every one),
      and no lemma here needs to exclude it. */
  datatype Row = Row(guid: int, fields: seq<Field>)

  /** `$item[$name]`: the value stored under the name; a missing key reads
      as null. */
  function Lookup(fields: seq<Field>, name: string): (v: Value)
    ensures v != Null ==> exists k :: 0 <= k < |fields| && fields[k] == (name, v)
    ensures (forall k :: 0 <= k < |fields| ==> fields[k].0 != name) ==> v == Null
  {
    if |fields| == 0 then Null
    else if fields[0].0 == name then fields[0].1
    else
      var v := Lookup(fields[1..], name);
      assert v != Null ==> exists k :: 0 <= k < |fields| - 1 && fields[1..][k] == (name, v);
      v
  }

  /** `(array)$item[$name]` for a tags attribute: null is the empty list and
      a single string a one-element list. */
  function Choices(v: Value): (r: seq<string>)
    requires !v.IsNumeric()
    ensures v.Null? ==> r == []
    ensures v.Str? ==> r == [v.s]
    ensures v.List? ==> r == v.items
  {
    match v
    case Null => []
    case Str(s) => [s]
    case List(items) => items
  }

  /** Every row holds a tag, a tag list or nothing under this name. */
  ghost predicate TagsColumn(rows: seq<Row>, name: string)
  {
    forall j :: 0 <= j < |rows| ==> !Lookup(rows[j].fields, name).IsNumeric()
  }

  /** Every row holds a number or nothing under this name. */
  ghost predicate NumericColumn(rows: seq<Row>, name: string)
  {
    forall j :: 0 <= j < |rows| ==> !Lookup(rows[j].fields, name).IsTags()
  }

  function AsNumber(v: Value): Number
    requires v.IsNumeric()
  {
    if v.Int? then Number(v.i, 0) else v.x
  }

  /** a <= b on the decimal values. */
  predicate NumLe(a: Number, b: Number)
  {
    a.mantissa * Pow10(b.scale) <= b.mantissa * Pow10(a.scale)
  }

  /** a < b on the decimal values: PHP's `<` and `>` between numbers. */
  predicate NumLt(a: Number, b: Number)
  {
    a.mantissa * Pow10(b.scale) < b.mantissa * Pow10(a.scale)
  }

  lemma CrossTrans(x: int, y: int, z: int, pa: int, pb: int, pc: int)
    requires pa > 0 && pb > 0 && pc > 0
    requires x * pb <= y * pa && y * pc <= z * pb
    ensures x * pc <= z * pa
  {
    MulMonotone(x * pb, y * pa, pc);
    MulMonotone(y * pc, z * pb, pa);
    assert (x * pb) * pc == (x * pc) * pb;
    assert (y * pa) * pc == (y * pc) * pa;
    assert (z * pb) * pa == (z * pa) * pb;
    if x * pc > z * pa {
      MulStrict(z * pa, x * pc, pb);
      assert false;
    }
  }

  /** The decimal order is transitive. */
  lemma NumLeTrans(a: Number, b: Number, c: Number)
    requires NumLe(a, b) && NumLe(b, c)
    ensures NumLe(a, c)
  {
    CrossTrans(a.mantissa, b.mantissa, c.mantissa, Pow10(a.scale), Pow10(b.scale), Pow10(c.scale));
  }

  function Abs(x: int): nat
  {
    if x < 0 then -x else x
  }

  /** PHP's `round()` of n / d: to the nearest integer, halves away from zero. */
  function RoundDiv(n: int, d: int): (r: int)
    requires d > 0
    ensures 2 * Abs(n - r * d) <= d
    ensures 2 * Abs(n - r * d) == d ==> Abs(r * d) > Abs(n)
  {
    if n >= 0 then
      var r := (2 * n + d) / (2 * d);
      RoundBounds(2 * n + d, 2 * d, r);
      r
    else
      var s := (d - 2 * n) / (2 * d);
      RoundBounds(d - 2 * n, 2 * d, s);
      -s
  }

  lemma RoundBounds(x: int, m: int, q: int)
    requires m > 0 && q == x / m
    ensures q * m <= x < q * m + m
  {
  }

  /** `round($x * pow(10, $precision))` taken as an integer. */
  function ScaleRound(x: Number, precision: nat): int
  {
    RoundDiv(x.mantissa * Pow10(precision), Pow10(x.scale))
  }

  lemma MulMonotone(x: int, y: int, k: int)
    requires x <= y && k > 0
    ensures x * k <= y * k
  {
    assert y * k - x * k == (y - x) * k;
  }

  lemma MulStrict(x: int, y: int, k: int)
    requires x < y && k > 0
    ensures x * k < y * k
  {
    assert y * k - x * k == (y - x) * k;
  }

  /** Floor division is monotone in the quotient a / b. */
  lemma FloorMonotone(a: int, b: int, c: int, e: int)
    requires b > 0 && e > 0 && a * e <= c * b
    ensures a / b <= c / e
  {
    var q := a / b;
    var p := c / e;
    assert q * b <= a;
    assert c < (p + 1) * e;
    if q > p {
      MulMonotone(p + 1, q, e);
      MulMonotone(q * b, a, e);
      MulStrict(c, q * e, b);
      assert false;
    }
  }

  lemma MulSign(x: int, k: int)
    requires k > 0
    ensures x >= 0 ==> x * k >= 0
    ensures x < 0 ==> x * k < 0
  {
    if x >= 0 {
      MulMonotone(0, x, k);
    } else {
      MulStrict(x, 0, k);
    }
  }

  lemma RoundMonotoneNonNegative(n1: int, d1: int, n2: int, d2: int)
    requires d1 > 0 && d2 > 0 && n1 * d2 <= n2 * d1 && 0 <= n1 && 0 <= n2
    ensures RoundDiv(n1, d1) <= RoundDiv(n2, d2)
  {
    assert (2 * n1 + d1) * (2 * d2) == 4 * (n1 * d2) + 2 * d1 * d2;
    assert (2 * n2 + d2) * (2 * d1) == 4 * (n2 * d1) + 2 * d1 * d2;
    FloorMonotone(2 * n1 + d1, 2 * d1, 2 * n2 + d2, 2 * d2);
  }

  lemma RoundMonotoneNegative(n1: int, d1: int, n2: int, d2: int)
    requires d1 > 0 && d2 > 0 && n1 * d2 <= n2 * d1 && n1 < 0 && n2 < 0
    ensures RoundDiv(n1, d1) <= RoundDiv(n2, d2)
  {
    assert (d2 - 2 * n2) * (2 * d1) == 2 * d1 * d2 - 4 * (n2 * d1);
    assert (d1 - 2 * n1) * (2 * d2) == 2 * d1 * d2 - 4 * (n1 * d2);
    FloorMonotone(d2 - 2 * n2, 2 * d2, d1 - 2 * n1, 2 * d1);
  }

  lemma RoundSign(n: int, d: int)
    requires d > 0
    ensures n >= 0 ==> RoundDiv(n, d) >= 0
    ensures n < 0 ==> RoundDiv(n, d) <= 0
  {
    if n >= 0 {
      assert 2 * n + d >= 0;
    } else {
      assert d - 2 * n >= 0;
    }
  }

  /** round(n1 / d1) <= round(n2 / d2) whenever n1 / d1 <= n2 / d2. */
  lemma RoundMonotone(n1: int, d1: int, n2: int, d2: int)
    requires d1 > 0 && d2 > 0 && n1 * d2 <= n2 * d1
    ensures RoundDiv(n1, d1) <= RoundDiv(n2, d2)
  {
    MulSign(n1, d2);
    MulSign(n2, d1);
    if n1 >= 0 {
      RoundMonotoneNonNegative(n1, d1, n2, d2);
    } else if n2 < 0 {
      RoundMonotoneNegative(n1, d1, n2, d2);
    } else {
      RoundSign(n1, d1);
      RoundSign(n2, d2);
    }
  }

  /** Scaling and rounding keeps the order of decimals. */
  lemma ScaleRoundMonotone(a: Number, b: Number, precision: nat)
    requires NumLe(a, b)
    ensures ScaleRound(a, precision) <= ScaleRound(b, precision)
  {
    var m := Pow10(precision);
    var da := Pow10(a.scale);
    var db := Pow10(b.scale);
    MulMonotone(a.mantissa * db, b.mantissa * da, m);
    assert (a.mantissa * m) * db == (a.mantissa * db) * m;
    assert (b.mantissa * m) * da == (b.mantissa * da) * m;
    RoundMonotone(a.mantissa * m, da, b.mantissa * m, db);
  }
}

=== FILE: tamper.dfy ===
/** `Tamper::pack`: infer every attribute, choose IntegerPack or
    BitmapPack for each tags attribute, NumericPack for each numeric one,
    and pack the guid column as the existence pack. */
module Tamper {
  import opened Base
  import opened Rows
  import opened PackFormat
  import opened Existence
  import opened ExistenceCodec
  import opened Inference
  import IntegerPack
  import BitmapPack
  import NumericPack

  // ---------------------------------------------------------------------
  // Encoder selection
  // ---------------------------------------------------------------------

  /** `maxChoices * log(N + 1, 2) < N`, stated without logarithms: both
      sides are non-negative, so raising 2 to each side keeps the strict
      order, giving (N + 1)^maxChoices < 2^N. */
  function ChooseInteger(n: nat, maxChoices: nat): (b: bool)
    ensures b ==> 1 <= n && maxChoices < n
  {
    ChooseIntegerBounds(n, maxChoices);
    Pow(n + 1, maxChoices) < Pow2(n)
  }

  lemma {:induction false} PowPositive(b: nat, e: nat)
    requires b >= 1
    ensures Pow(b, e) >= 1
  {
    if e > 0 {
      PowPositive(b, e - 1);
      MulMonotone(1, b, Pow(b, e - 1));
    }
  }

  lemma {:induction false} PowExpMonotone(b: nat, e1: nat, e2: nat)
    requires b >= 1 && e1 <= e2
    ensures Pow(b, e1) <= Pow(b, e2)
  {
    if e1 < e2 {
      PowExpMonotone(b, e1, e2 - 1);
      PowPositive(b, e2 - 1);
      MulMonotone(1, b, Pow(b, e2 - 1));
    }
  }

  lemma {:induction false} PowBaseMonotone(a: nat, b: nat, e: nat)
    requires 1 <= a <= b
    ensures Pow(a, e) <= Pow(b, e)
  {
    if e > 0 {
      PowBaseMonotone(a, b, e - 1);
      PowPositive(a, e - 1);
      MulMonotone(Pow(a, e - 1), Pow(b, e - 1), a);
      MulMonotone(a, b, Pow(b, e - 1));
    }
  }

  lemma {:induction false} PowTwo(n: nat)
    ensures Pow(2, n) == Pow2(n)
  {
    if n > 0 {
      PowTwo(n - 1);
    }
  }

  /** IntegerPack is only chosen when there is at least one possibility,
      so its slot width is never 0, and when there are fewer slots than
      possibilities: with as many slots as possibilities the bitmap
      always wins. */
  lemma ChooseIntegerBounds(n: nat, maxChoices: nat)
    ensures Pow(n + 1, maxChoices) < Pow2(n) ==> 1 <= n && maxChoices < n
  {
    if n == 0 {
      PowPositive(1, maxChoices);
    } else if maxChoices >= n {
      PowExpMonotone(n + 1, n, maxChoices);
      PowBaseMonotone(2, n + 1, n);
      PowTwo(n);
    }
  }

  /** Fewer slots never turn the choice from IntegerPack to BitmapPack. */
  lemma ChooseIntegerFewerChoices(n: nat, m1: nat, m2: nat)
    requires m1 <= m2 && ChooseInteger(n, m2)
    ensures ChooseInteger(n, m1)
  {
    PowExpMonotone(n + 1, m1, m2);
  }

  /** A hundred possibilities in one slot go to IntegerPack; three
      possibilities in three slots cost 3 * log2(4) = 6 against 3 and go to
      BitmapPack; one possibility in one slot is an exact tie (1 * log2(2)
      = 1), and a tie goes to BitmapPack. */
  lemma SelectionExamples()
    ensures ChooseInteger(100, 1)
    ensures !ChooseInteger(3, 3)
    ensures !ChooseInteger(1, 1) && Pow(1 + 1, 1) == Pow2(1)
  {
    assert Pow(2, 1) == 2 && Pow2(1) == 2;
    PowTwo(100);
    PowBaseMonotone(2, 4, 7);
    assert Pow(2, 7) == 128;
    PowExpMonotone(2, 7, 100);
  }

  /** The rule compares the real-valued cost, not the ceiled slot width the
      encoder then uses: with 11 possibilities and 3 slots IntegerPack is
      chosen, yet its rows take 3 * 4 = 12 bits against the bitmap's 11. */
  lemma IntegerCanCostMore()
    ensures ChooseInteger(11, 3)
    ensures IntegerPack.BitWindowWidth(11) * 3 > 11
  {
    assert Pow2(11) == 2048;
    assert Pow(12, 3) == 1728;
    var w := IntegerPack.BitWindowWidth(11);
    assert Pow2(3) == 8;
    assert w > 3;
  }

  // ---------------------------------------------------------------------
  // Encoding one attribute
  // ---------------------------------------------------------------------

  /** The options array an inferred numeric attribute hands to NumericPack. */
  function OptionsOf(d: Descriptor): NumericPack.Options
    requires d.Numeric?
  {
    NumericPack.Options(Some(d.precision), Some(d.min), Some(d.max))
  }

  /** The widths the encoders' mask loops can handle. */
  ghost predicate DescFits(d: Descriptor)
  {
    match d
    case Tags(mc, ps) => ChooseInteger(|ps|, mc) ==> IntegerPack.BitWindowWidth(|ps|) <= 63
    case Numeric(_, _, _) => NumericPack.Encodable(OptionsOf(d))
  }

  /** One iteration of the `foreach ($attrs as $ka => $attr)` loop. */
  function EncodeAttribute(rows: seq<Row>, name: string, d: Descriptor): (r: EncodedAttribute)
    requires DescFits(d)
    requires d.Tags? ==> TagsColumn(rows, name)
    requires d.Numeric? ==> NumericColumn(rows, name)
    ensures r.attrName == name
    ensures d.Tags? ==> r.TagsAttribute? && r.possibilities == d.possibilities && r.maxChoices == d.maxChoices
    ensures d.Tags? ==> (r.encoding == IntegerEncoding <==> ChooseInteger(|d.possibilities|, d.maxChoices))
    ensures d.Numeric? ==> r.NumericAttribute? && r.precision == d.precision && r.min == d.min && r.max == d.max
  {
    match d
    case Tags(mc, ps) =>
      if ChooseInteger(|ps|, mc) then
        IntegerPack.Encode(name, ps, mc, rows)
      else BitmapPack.Encode(name, ps, mc, rows)
    case Numeric(_, _, _) =>
      NumericPack.Encode(name, OptionsOf(d), rows).value
  }

  // ---------------------------------------------------------------------
  // pack
  // ---------------------------------------------------------------------

  /** The array `pack` returns, with every pack as raw bytes. */
  datatype Document = Document(version: string, existence: seq<Byte>, attributes: seq<EncodedAttribute>)

  /** `$item["guid"]` of every row. */
  function Guids(rows: seq<Row>): (g: seq<int>)
    ensures |g| == |rows| && forall j :: 0 <= j < |rows| ==> g[j] == rows[j].guid
  {
    seq(|rows|, j requires 0 <= j < |rows| => rows[j].guid)
  }

  /** All values of one name are tags or all are numbers. */
  ghost predicate SameKind(vs: seq<Value>)
  {
    forall i :: 0 <= i < |vs| ==> (vs[i].IsTags() <==> vs[0].IsTags())
  }

  /** No attribute mixes tags and numbers. */
  ghost predicate Homogeneous(rows: seq<Row>)
  {
    forall name :: SameKind(ValuesOf(Stream(rows), name))
  }

  ghost predicate WidthsFit(a: Attrs)
  {
    forall name :: name in a.desc ==> DescFits(a.desc[name])
  }

  lemma {:induction false} NoGuidValues(fs: seq<Field>)
    ensures ValuesOf(fs, "guid") == []
  {
    if |fs| > 0 {
      NoGuidValues(fs[..|fs| - 1]);
    }
  }

  /** A row's value of an inferred attribute is one of the values the
      attribute was described from. */
  lemma RowValueDescribed(rows: seq<Row>, precisions: map<string, nat>, name: string, j: nat)
    requires name in Infer(rows, precisions).desc && j < |rows|
    requires !Lookup(rows[j].fields, name).Null?
    ensures Lookup(rows[j].fields, name) in ValuesOf(Stream(rows), name)
  {
    var fs := Stream(rows);
    var v := Lookup(rows[j].fields, name);
    InferProjects(fs, precisions, name);
    NoGuidValues(fs);
    var k :| 0 <= k < |rows[j].fields| && rows[j].fields[k] == (name, v);
    StreamHolds(rows, j, k);
    var m :| 0 <= m < |fs| && fs[m] == (name, v);
    ValuesOfHolds(fs, m);
  }

  /** An inferred tags attribute holds no number in any row, and an
      inferred numeric attribute no tag. */
  lemma ColumnOfKind(rows: seq<Row>, precisions: map<string, nat>, name: string)
    requires Homogeneous(rows)
    requires name in Infer(rows, precisions).desc
    ensures Infer(rows, precisions).desc[name].Tags? ==> TagsColumn(rows, name)
    ensures Infer(rows, precisions).desc[name].Numeric? ==> NumericColumn(rows, name)
  {
    var vs := ValuesOf(Stream(rows), name);
    InferProjects(Stream(rows), precisions, name);
    var d := Infer(rows, precisions).desc[name];
    assert d == Describe(vs, PrecisionOf(precisions, name));
    var firstTags := vs[0].IsTags();
    forall j | 0 <= j < |rows|
      ensures firstTags ==> !Lookup(rows[j].fields, name).IsNumeric()
      ensures !firstTags ==> !Lookup(rows[j].fields, name).IsTags()
    {
      RowOfKind(rows, precisions, name, j);
    }

    assert d.Tags? <==> firstTags;
  }

  /** A row's value of an inferred name has the kind of the first value
      described under it. */
  lemma RowOfKind(rows: seq<Row>, precisions: map<string, nat>, name: string, j: nat)
    requires Homogeneous(rows)
    requires name in Infer(rows, precisions).desc && j < |rows|
    ensures var vs := ValuesOf(Stream(rows), name);
            |vs| > 0 &&
            (Lookup(rows[j].fields, name).IsTags() == vs[0].IsTags() || Lookup(rows[j].fields, name).Null?)
  {
    var vs := ValuesOf(Stream(rows), name);
    InferProjects(Stream(rows), precisions, name);
    assert SameKind(vs);
    if !Lookup(rows[j].fields, name).Null? {
      RowValueDescribed(rows, precisions, name, j);
    }
  }

  /** `pack($arr, $numericTagsPrecision)`: version 2.1, the existence pack
      of the guid column, and one encoded attribute per inferred name in
      first-occurrence order. */
  function Pack(rows: seq<Row>, precisions: map<string, nat>): (doc: Document)
    requires Homogeneous(rows)
    requires WidthsFit(Infer(rows, precisions))
    ensures doc.version == "2.1"
    ensures doc.existence == PackExistence(Guids(rows))
    ensures |doc.attributes| == |Infer(rows, precisions).order|
    ensures forall i :: 0 <= i < |doc.attributes| ==> doc.attributes[i].attrName == Infer(rows, precisions).order[i]
  {
    var a := Infer(rows, precisions);
    InferKeys(Stream(rows), precisions);
    forall name | name in a.desc
      ensures a.desc[name].Tags? ==> TagsColumn(rows, name)
      ensures a.desc[name].Numeric? ==> NumericColumn(rows, name)
    {
      ColumnOfKind(rows, precisions, name);
    }
    Document("2.1", PackExistence(Guids(rows)),
      seq(|a.order|, i requires 0 <= i < |a.order| => EncodeAttribute(rows, a.order[i], a.desc[a.order[i]])))
  }

  // ---------------------------------------------------------------------
  // What a reader of the document gets back
  // ---------------------------------------------------------------------

  /** Attribute i of the document is the i-th inferred name, encoded from
      its entry. */
  lemma AttributeOf(rows: seq<Row>, precisions: map<string, nat>, i: nat)
    requires Homogeneous(rows)
    requires WidthsFit(Infer(rows, precisions))
    requires i < |Infer(rows, precisions).order|
    ensures var a := Infer(rows, precisions);
            var name := a.order[i];
            name in a.desc &&
            (a.desc[name].Tags? ==> TagsColumn(rows, name)) &&
            (a.desc[name].Numeric? ==> NumericColumn(rows, name)) &&
            DescFits(a.desc[name]) &&
            Pack(rows, precisions).attributes[i] == EncodeAttribute(rows, name, a.desc[name])
  {
    var a := Infer(rows, precisions);
    InferKeys(Stream(rows), precisions);
    ColumnOfKind(rows, precisions, a.order[i]);
  }

  /** The values an inferred tags attribute was described from start with a
      tags value. */
  lemma TagsDescribedFrom(rows: seq<Row>, precisions: map<string, nat>, name: string)
    requires name in Infer(rows, precisions).desc
    requires Infer(rows, precisions).desc[name].Tags?
    ensures var vs := ValuesOf(Stream(rows), name);
            |vs| > 0 && vs[0].IsTags() &&
            Infer(rows, precisions).desc[name] == Describe(vs, PrecisionOf(precisions, name))
  {
    var vs := ValuesOf(Stream(rows), name);
    InferProjects(Stream(rows), precisions, name);
  }

  /** Every tag any row holds under a tags attribute is one of its
      possibilities, and the possibilities are distinct. */
  lemma PossibilitiesCover(rows: seq<Row>, precisions: map<string, nat>, name: string, j: nat)
    requires name in Infer(rows, precisions).desc
    requires Infer(rows, precisions).desc[name].Tags?
    requires j < |rows| && Lookup(rows[j].fields, name).IsTags()
    ensures var d := Infer(rows, precisions).desc[name];
            Distinct(d.possibilities) &&
            |Choices(Lookup(rows[j].fields, name))| <= d.maxChoices &&
            forall c :: c in Choices(Lookup(rows[j].fields, name)) ==> c in d.possibilities
  {
    var vs := ValuesOf(Stream(rows), name);
    var p := PrecisionOf(precisions, name);
    var v := Lookup(rows[j].fields, name);
    TagsDescribedFrom(rows, precisions, name);
    TagsPossibilities(vs, p);
    TagsMaxChoices(vs, p);
    RowValueDescribed(rows, precisions, name, j);
    var m :| 0 <= m < |vs| && vs[m] == v;
    AllChoicesHolds(vs, m);
  }

  /** A bitmap-packed attribute: bit k of row j reads back set exactly when
      the row holds possibility k, and every tag the row holds has a bit. */
  lemma PackBitmapRecovers(rows: seq<Row>, precisions: map<string, nat>, i: nat, j: nat, k: nat)
    requires Homogeneous(rows)
    requires WidthsFit(Infer(rows, precisions))
    requires i < |Infer(rows, precisions).order| && j < |rows|
    requires var at := Pack(rows, precisions).attributes[i];
             at.TagsAttribute? && at.encoding == BitmapEncoding &&
             k < |at.possibilities| && |at.possibilities| * |rows| / 8 < Pow2(32)
    ensures var at := Pack(rows, precisions).attributes[i];
            var v := Lookup(rows[j].fields, at.attrName);
            var d := BitmapPack.Decode(at.pack, |at.possibilities|, |rows|);
            !v.IsNumeric() && d.Ok? && |d.value| == |rows| && |d.value[j]| == |at.possibilities| &&
            (d.value[j][k] <==> at.possibilities[k] in Choices(v)) &&
            forall c :: c in Choices(v) ==> c in at.possibilities
  {
    var a := Infer(rows, precisions);
    var name := a.order[i];
    AttributeOf(rows, precisions, i);
    var dsc := a.desc[name];
    var v := Lookup(rows[j].fields, name);
    var ps := dsc.possibilities;
    TagsDescribedFrom(rows, precisions, name);
    TagsPossibilities(ValuesOf(Stream(rows), name), PrecisionOf(precisions, name));
    assert Distinct(ps);
    BitmapPack.RoundTripDistinct(name, ps, dsc.maxChoices, rows, j, k);
    if v.IsTags() {
      PossibilitiesCover(rows, precisions, name, j);
    }
  }

  /** An IntegerPack-packed attribute: slot s of row j reads back as the
      row's s-th tag, and the slots past the row's tags read back empty, so
      every row comes back whole and in order. */
  lemma PackIntegerRecovers(rows: seq<Row>, precisions: map<string, nat>, i: nat, j: nat)
    requires Homogeneous(rows)
    requires WidthsFit(Infer(rows, precisions))
    requires i < |Infer(rows, precisions).order| && j < |rows|
    requires var at := Pack(rows, precisions).attributes[i];
             at.TagsAttribute? && at.encoding == IntegerEncoding &&
             at.itemWindowWidth * |rows| / 8 < Pow2(32)
    ensures var at := Pack(rows, precisions).attributes[i];
            var v := Lookup(rows[j].fields, at.attrName);
            var d := IntegerPack.Decode(at.pack, at.possibilities, at.maxChoices, |rows|);
            !v.IsNumeric() && |Choices(v)| <= at.maxChoices &&
            d.Ok? && |d.value| == |rows| && |d.value[j]| == at.maxChoices &&
            forall s :: 0 <= s < at.maxChoices ==>
              d.value[j][s] == if s < |Choices(v)| then Some(Choices(v)[s]) else None
  {
    var a := Infer(rows, precisions);
    var name := a.order[i];
    AttributeOf(rows, precisions, i);
    var dsc := a.desc[name];
    var v := Lookup(rows[j].fields, name);
    var ps := dsc.possibilities;
    var at := Pack(rows, precisions).attributes[i];
    assert at == EncodeAttribute(rows, name, dsc);
    assert dsc.Tags? && ChooseInteger(|ps|, dsc.maxChoices);
    assert at == IntegerPack.Encode(name, ps, dsc.maxChoices, rows);
    assert at.attrName == name && at.possibilities == ps && at.maxChoices == dsc.maxChoices;
    if v.IsTags() {
      PossibilitiesCover(rows, precisions, name, j);
    }
    IntegerPack.RowRecovered(name, ps, dsc.maxChoices, rows, j);
  }

  /** Every number a row holds under a numeric attribute lies between the
      attribute's inferred min and max. */
  lemma WithinBounds(rows: seq<Row>, precisions: map<string, nat>, name: string, j: nat)
    requires name in Infer(rows, precisions).desc
    requires Infer(rows, precisions).desc[name].Numeric?
    requires j < |rows| && Lookup(rows[j].fields, name).IsNumeric()
    ensures var d := Infer(rows, precisions).desc[name];
            var v := Lookup(rows[j].fields, name);
            NumLe(d.min, AsNumber(v)) && NumLe(AsNumber(v), d.max)
  {
    var vs := ValuesOf(Stream(rows), name);
    var v := Lookup(rows[j].fields, name);
    InferProjects(Stream(rows), precisions, name);
    NumericDescribed(vs, PrecisionOf(precisions, name));
    RowValueDescribed(rows, precisions, name, j);
    var m :| 0 <= m < |vs| && vs[m] == v;
  }

  /** A numeric attribute: every row reads back as its value scaled by the
      attribute's precision and rounded, or as nothing when it has none. */
  lemma PackNumericRecovers(rows: seq<Row>, precisions: map<string, nat>, i: nat, j: nat)
    requires Homogeneous(rows)
    requires WidthsFit(Infer(rows, precisions))
    requires i < |Infer(rows, precisions).order| && j < |rows|
    requires var at := Pack(rows, precisions).attributes[i];
             at.NumericAttribute? && at.itemWindowWidth * |rows| / 8 < Pow2(32)
    ensures var at := Pack(rows, precisions).attributes[i];
            var v := Lookup(rows[j].fields, at.attrName);
            var d := NumericPack.Decode(at.pack, at.itemWindowWidth, |rows|);
            !v.IsTags() && d.Ok? && |d.value| == |rows| &&
            NumericPack.Restore(d.value[j], at.delta) == if v.Null? then None else Some(ScaleRound(AsNumber(v), at.precision))
  {
    var a := Infer(rows, precisions);
    var name := a.order[i];
    AttributeOf(rows, precisions, i);
    var dsc := a.desc[name];
    var o := OptionsOf(dsc);
    var at := Pack(rows, precisions).attributes[i];
    assert at == EncodeAttribute(rows, name, dsc);
    assert dsc.Numeric? && at == NumericPack.Encode(name, o, rows).value;
    if Lookup(rows[j].fields, name).IsNumeric() {
      WithinBounds(rows, precisions, name, j);
    }
    NumericPack.ValuesRecovered(name, o, rows, j);
  }

  /** The existence pack of the document reads back as the guid column. */
  lemma PackExistenceRecovers(rows: seq<Row>, precisions: map<string, nat>)
    requires Homogeneous(rows)
    requires WidthsFit(Infer(rows, precisions))
    requires SortedGuids(Guids(rows))
    requires forall j :: 0 <= j < |rows| ==> rows[j].guid + 1 < Pow2(32)
    ensures var p := ParseSet(Pack(rows, precisions).existence);
            p.Ok? && DecodeSet(p.value) == Guids(rows)
  {
  }

  /** The rows of the string-after-empty-list finding: `t` is an empty
      list in the first row and the string "a" in the second. */
  function EmptyListThenString(): seq<Row>
  {
    [Row(1, [("t", List([]))]), Row(2, [("t", Str("a"))])]
  }

  lemma EmptyListThenStringValues()
    ensures TagsColumn(EmptyListThenString(), "t")
    ensures ValuesOf(Stream(EmptyListThenString()), "t") == [List([]), Str("a")]
  {
    var rows := EmptyListThenString();
    assert Lookup(rows[0].fields, "t") == List([]) && Lookup(rows[1].fields, "t") == Str("a");
    assert rows[..1] == [rows[0]];
    assert Stream(rows) == [("t", List([])), ("t", Str("a"))];
    var fs := Stream(rows);
    assert fs[..1] == [fs[0]];
  }

  /** Without slots the row holding "a" reads back empty. */
  lemma EmptyListThenStringDecodes()
    ensures TagsColumn(EmptyListThenString(), "t")
    ensures var r := IntegerPack.Decode(IntegerPack.Encode("t", ["a"], 0, EmptyListThenString()).pack, ["a"], 0, 2);
            r.Ok? && |r.value| == 2 && r.value[1] == []
  {
    EmptyListThenStringValues();
    IntegerPack.NoSlotsReadEmpty("t", ["a"], EmptyListThenString());
  }

  /** As the source infers them, `t` gets one possibility and no slots,
      IntegerPack is chosen, and the row holding "a" reads back with
      nothing. */
  lemma StringAfterEmptyListIsLost()
    ensures ValuesOf(Stream(EmptyListThenString()), "t") == [List([]), Str("a")]
    ensures DescribeAsWritten([List([]), Str("a")], 0) == Tags(0, ["a"]) && ChooseInteger(1, 0)
    ensures TagsColumn(EmptyListThenString(), "t")
    ensures var r := IntegerPack.Decode(IntegerPack.Encode("t", ["a"], 0, EmptyListThenString()).pack, ["a"], 0, 2);
            r.Ok? && |r.value| == 2 && r.value[1] == []
  {
    EmptyListThenStringValues();
    StringAfterEmptyList();
    assert Pow(2, 0) == 1 && Pow2(1) == 2;
    EmptyListThenStringDecodes();
  }

  /** The corrected inference gives `t` one slot, and the bitmap. */
  lemma StringAfterEmptyListKept()
    ensures var d := Infer(EmptyListThenString(), map[]).desc;
            "t" in d && d["t"] == Tags(1, ["a"]) && !ChooseInteger(|d["t"].possibilities|, d["t"].maxChoices)
  {
    EmptyListThenStringValues();
    StringAfterEmptyList();
    InferProjects(Stream(EmptyListThenString()), map[], "t");
  }
}
